=== FILE: README.md ===
# brain-backend in Dafny

A model of the core of brain-backend. This FastAPI service keeps users, patients, images and predictions. It also asks three external language-model services to analyse brain scans. The model covers these parts:

- **Users and authentication.** The user table (`crud_user`) and its rows. The access, verification and password-set tokens. The `get_current_user` / `get_current_active_user` resolver chain. The auth routes: `set_password`, `login`, `register`, `verify_email`, `login_access_token` and `reset_password`.
- **Patients.** The patient table with its case-insensitive search and `offset/limit` paging, and the five patient routes.
- **Images and predictions.** The image table with the upload and view routes. The prediction table with its per-user listing.
- **Decoding of the three AI services' replies.** Everything after the HTTP call:
  - the OpenRouter reply: fence stripping, the `_fix_json` regex passes, the structure validator and the flattened result;
  - the Qwen reply: fence removal, JSON cut-out, normalization, the repaired retry and the text clean-up;
  - the DeepSeek free-text reply: `Prediction: … (Confidence: …%)`.

Tables are immutable `seq`s of rows in query order, with a `nextId` counter. Routes are pure functions that return `Result<_, HttpError>`. Every protected route first resolves a `Deps.Caller` (the user table, the token codec, the bearer token and the current time) with `Deps.Active`. External code becomes a parameter:

- JWT signing and checking is a `Tokens.Codec` that is assumed to round-trip (`RoundTrips`);
- password hashing is a `Tokens.Hasher` that is assumed sound (`Sound`);
- `json.loads` is a `parse: string -> Option<Value>`;
- `float()` on text is a `parseFloat`;
- OpenRouter's `_clean_text` / `_validate_medical_terms` is a `clean: string -> string`.

Modules: `Wrappers` (Option/Result), `Json`, `Completion` (the chat-completion reply shape), `Text` (the Python string built-ins the code uses), `Rows` (the SQL query shapes), `Tokens`, `Users`, `Deps`, `Auth`, `Patients`, `Images`, `Predictions`, `OpenRouter`, `Qwen` and `DeepSeek`.

## Where the code and its documentation disagree

The model follows the code in each case below.

- `verify_email` activates a user without checking for a password hash. So a user registered without a password becomes active with no hash. This goes against the documented rule, which `crud_user.create` also follows (app/crud/crud_user.py:20), that a user is active only once it has a password. `Auth.RegisterThenVerify` shows it.
- `set_password` does not compare the presented token with the stored `password_set_token` or its expiry. See Findings.
- The listings return a bare slice of rows, with no total or page count.
- `crud_user.create` stores `None` as the hash when no password is given, although `app/models/user.py:28` declares the column non-null. The model keeps the `None`; the database error it would raise is left out.
- `login` hands out a token to an inactive user. Only the later active-user check refuses it (`Auth.InactiveLoginRefusedLater`).

## Model

| member | source | states |
|---|---|---|
| Json.AsFloat | app/services/openrouter_service.py:281 | `float()` of a number is that number, and of a boolean is 1.0 exactly for true and 0.0 exactly for false |
| Text.Filter | app/services/qwen_service.py:107 | the kept characters all pass the predicate and there are no more of them than in the input |
| Text.FilterCounts | app/services/qwen_service.py:140 | filtering keeps every occurrence of a kept character and removes every occurrence of a dropped one |
| Text.FilterConcat | app/services/qwen_service.py:107 | filtering distributes over concatenation, so the kept characters stay in order |
| Text.FilterKeepsAll | app/services/qwen_service.py:128 | a text whose characters all pass the filter is returned unchanged |
| Text.FilterDropsAll | app/services/qwen_service.py:140 | a text none of whose characters pass the filter becomes empty |
| Text.FilterIdempotent | app/services/qwen_service.py:140 | filtering twice with one predicate equals filtering once |
| Text.LStrip | app/services/openrouter_service.py:238 | the result is a suffix of the input that does not start with whitespace, and everything removed was whitespace |
| Text.RStrip | app/services/openrouter_service.py:238 | the result is a prefix of the input that does not end with whitespace, and everything removed was whitespace |
| Text.Strip | app/services/openrouter_service.py:238 | the result is no longer than the input and neither starts nor ends with whitespace |
| Text.StripPadded | app/services/deepseek_service.py:76 | padding a text with single spaces does not change its strip |
| Text.StripKeepsContent | app/services/openrouter_service.py:238 | stripping removes only whitespace: the non-whitespace characters survive in order |
| Text.StripFixpoint | app/services/openrouter_service.py:238 | a text with no surrounding whitespace is its own strip |
| Text.WordLen | app/services/qwen_service.py:117 | the first run of non-whitespace ends at whitespace or at the end of the text |
| Text.Words | app/services/qwen_service.py:117 | `split()` yields only non-empty, whitespace-free words |
| Text.JoinNormalized | app/services/qwen_service.py:117 | words joined by single spaces have no surrounding whitespace and only single spaces inside |
| Text.Collapse | app/services/qwen_service.py:117 | `' '.join(s.split())` always yields that normalized shape, and keeps every non-whitespace character of the input, in order |
| Text.WordsOfJoin | app/services/qwen_service.py:117 | splitting words joined by single spaces gives the same words back |
| Text.CollapseIdempotent | app/services/qwen_service.py:136 | collapsing a collapsed text changes nothing |
| Text.CollapseChars | app/services/qwen_service.py:117 | every character of a collapsed text is a plain space or a non-whitespace character of the input |
| Text.Find | app/services/qwen_service.py:99 | `find` returns the first index where the pattern occurs, and `-1` (here `None`) exactly when it occurs nowhere |
| Text.FindChar | app/services/qwen_service.py:99-102 | a one-character pattern is found exactly when the character is in the text, at a position that holds it |
| Text.RFindChar | app/services/qwen_service.py:100 | `rfind` returns the last index that holds the character, and `None` exactly when the character is absent |
| Text.ReplaceAll | app/services/qwen_service.py:110-114 | `replace` changes nothing when the pattern is absent, and does not lengthen the text when the replacement is no longer than the pattern |
| Text.ReplaceAllChars | app/services/qwen_service.py:114 | every character of the result comes from the input or from the replacement |
| Text.ReplaceCharRemoves | app/services/qwen_service.py:138 | replacing a character by text that lacks it removes every occurrence and keeps the count of every other character the replacement lacks |
| Text.ReplaceAllWithoutHead | app/services/qwen_service.py:96 | `replace` leaves a text unchanged when the first character of the pattern is nowhere in it |
| Text.ReplaceAllSkips | app/services/qwen_service.py:96 | `replace` passes over a prefix that lacks the first character of the pattern and works on the rest |
| Text.ReplaceAllAtEnd | app/services/qwen_service.py:125-126 | a pattern that occurs only at the end of the text is replaced there and nowhere else |
| Text.ReplaceAppends | app/services/qwen_service.py:125-126 | replacing a pattern by itself followed by a suffix leaves an occurrence of the pattern with the suffix whenever the pattern occurred |
| Text.FilterKeepsOccurrence | app/services/qwen_service.py:128 | a filter that keeps every character of a pattern keeps an occurrence of that pattern |
| Text.NoOccurrenceAcross | app/services/qwen_service.py:125-126 | a pattern cannot occur in a text whose body lacks its second character and whose last character before a short tail is not its first |
| Text.Before | app/services/deepseek_service.py:76-77 | `split(sep)[0]` is a prefix of the text that contains no occurrence of the separator, and it ends where the separator first occurs or at the end of the text |
| Text.After | app/services/deepseek_service.py:76-77 | the text is the part before the first separator, the separator and this remainder |
| Text.SplitAt | app/services/deepseek_service.py:76-77 | when the first occurrence of the separator is at `m`, the split happens at `m` |
| Text.BeforeAbsent | app/services/deepseek_service.py:76 | without the separator, `split(sep)[0]` is the whole text |
| Text.NatToString | app/utils.py:20 | `str(n)` is a non-empty string of decimal digits |
| Text.ParseNat | app/schemas/token.py:14-15 | the integer coercion succeeds exactly on non-empty strings of decimal digits |
| Text.ParseNatToString | app/utils.py:20 | the subject written as `str(id)` parses back to the same id |
| Text.NatToStringInjective | app/utils.py:20 | different ids produce different subjects |
| Text.LowerChar | app/crud/crud_patient.py:26-29 | case folding leaves no upper-case A-Z, А-Я or Ё, and changes a character exactly when it is one of those |
| Text.Lower | app/crud/crud_patient.py:26-29 | case folding maps each character on its own and keeps the length |
| Text.ContainsCI | app/crud/crud_patient.py:26-29 | `s ILIKE '%pat%'` holds exactly when the folded term occurs somewhere in the folded text; it needs a term no longer than the text, and the empty term matches everything |
| Text.ContainsIsContainsCI | app/crud/crud_patient.py:26-29 | an exact occurrence is also an `ILIKE` match |
| Text.ContainsCIIgnoresPatternCase | app/crud/crud_patient.py:26-29 | `ILIKE` matching ignores the case of the search term |
| Rows.IndexWhere | app/crud/crud_user.py:11-12 | `.filter(p).first()` finds the first accepted row, and nothing exactly when no row is accepted |
| Rows.GetById | app/crud/crud_image.py:14-23 | the id lookup every table uses finds a stored row with that id, and nothing exactly when no row has it |
| Rows.Select | app/crud/crud_patient.py:25-30 | `.filter(p)` returns only accepted rows |
| Rows.SelectMembers | app/crud/crud_patient.py:25-30 | a row is selected exactly when it is in the table and accepted |
| Rows.SelectCounts | app/crud/crud_patient.py:25-30 | selection keeps every accepted row as often as the table holds it, and drops the others |
| Rows.SelectConcat | app/crud/crud_patient.py:25-30 | selection keeps table order: selecting from a table split in two gives the selection of the first part followed by that of the second |
| Rows.Page | app/crud/crud_patient.py:32 | `.offset(skip).limit(limit)` returns the rows from position `skip` on, in order, at most `limit` of them, and none past the end |
| Rows.PagesJoin | app/crud/crud_prediction.py:23-24 | two consecutive pages join into the page as long as both: paging skips and repeats nothing |
| Rows.PageAll | app/crud/crud_patient.py:32 | a page from the start with a limit no smaller than the table is the whole table |
| Tokens.Decode | app/api/deps.py:34-39 | a token is accepted only when it carries the server's signature and its expiry has not passed |
| Tokens.DecodeIssued | app/utils.py:11-22 | an issued token decodes to its claims until its expiry and is refused after it |
| Tokens.AccessToken | app/utils.py:11-22 | under a round-tripping codec, an access token decodes to the id as its subject, no type, and an expiry `minutes` after issue |
| Tokens.SetToken | app/crud/crud_user.py:61-75 | under a round-tripping codec, a password-set token decodes to the email as its subject, the `password_set` type and an expiry 24 hours after issue |
| Tokens.AccessTokenClaims | app/utils.py:11-22 | an access token names the user id as its subject for the minutes it was issued for |
| Users.GetByEmail | app/crud/crud_user.py:11-12 | the lookup finds a row with exactly this email, and nothing exactly when there is none |
| Users.FindsOwnRow | app/crud/crud_user.py:11-12 | in a valid table every row is found by its own email and by its own id |
| Users.Create | app/crud/crud_user.py:14-25 | the new row keeps the input's email, name and flags; it holds the hash of the password and is active exactly when a non-empty password was given |
| Users.CreatePreservesValid | app/crud/crud_user.py:14-25 | creating a user with a new email keeps ids and emails unique |
| Users.Apply | app/crud/crud_user.py:27-39 | an update overwrites only the set fields; a non-empty password is stored as its hash and activates the user |
| Users.EmptyPatchIsIdentity | app/crud/crud_user.py:27-39 | an update that sets nothing changes nothing |
| Users.Put | app/crud/crud_user.py:39 | writing back a row replaces exactly the row with its id and leaves every other row as it was |
| Users.Update | app/crud/crud_user.py:27-39 | the updated row is the user with exactly the set fields overwritten (`Apply`), written back in place (`Put`) and found under its id; an update with a password leaves it active |
| Users.PutPreservesValid | app/crud/crud_user.py:39 | writing back a row whose email stays its own keeps ids and emails unique |
| Users.VerifyStored | app/crud/crud_user.py:41-47 | a user without a stored hash never verifies; under a sound hasher, a stored hash verifies exactly the password it was made from |
| Users.Authenticate | app/crud/crud_user.py:41-47 | sign-in succeeds exactly when a user has this email and the password verifies against its stored hash; a user with no hash never signs in |
| Users.AuthenticateAfterPut | app/crud/crud_user.py:41-47 | after a row is written back, sign-in checks the password against the new row's hash |
| Users.CreatedAuthenticates | app/crud/crud_user.py:14-25 | a user created with a password signs in with that password and with no other |
| Users.UpdatedAuthenticates | app/crud/crud_user.py:34-38 | after an update that sets a password, the user signs in with exactly that password |
| Users.IssueSetToken | app/crud/crud_user.py:61-75 | the token is stored on the user with a 24-hour expiry and the user is deactivated; nothing else about the user changes |
| Users.SetTokenClaims | app/crud/crud_user.py:61-75 | the issued token carries the user's email and the password-set tag, and expires after 24 hours |
| Deps.CurrentUser | app/api/deps.py:26-51 | no bearer token gives 401; a bad signature, an expired token or a non-numeric subject gives 403; a resolved user is a stored row whose id the token names; a decoded token without a subject, or with a numeric subject no row has, gives 404; a numeric subject that names a row resolves to that row |
| Deps.CurrentActiveUser | app/api/deps.py:52-58 | the resolved user is passed on exactly when it is active; an inactive one gives 400, and resolver errors pass through |
| Deps.Active | app/api/deps.py:52-58 | a caller that a protected route accepts is a stored, active user |
| Deps.AccessTokenResolves | app/api/deps.py:26-51 | an access token issued for a stored user resolves to that user until it expires, and gives 403 after |
| Deps.ActiveTokenResolves | app/api/deps.py:52-58 | within its lifetime an access token passes the active-user check exactly for an active user |
| Auth.WithPassword | app/api/v1/endpoints/auth.py:60-65 | after a password is set the user has the new hash, is active and has no stored token, and keeps id, email, name and flags |
| Auth.SetPasswordAsWritten | app/api/v1/endpoints/auth.py:22-67 | `set_password` as written: 400 exactly when the token fails to decode, is not typed `password_set` or names another email; 404 exactly when the token is good but no user has the email; a good token for a known email always succeeds, storing that user with the new password |
| Auth.SetPassword | app/api/v1/endpoints/auth.py:22-67 | the corrected route succeeds exactly when the token is good, the user exists, and the token is the one stored for the user and within its stored expiry; 404 exactly as written; every other failure is 400; a success stores what the route as written stores |
| Auth.SetPasswordStores | app/api/v1/endpoints/auth.py:60-65 | setting the password of a stored user writes it at that user's row and keeps the table valid |
| Auth.ReplayAcceptedAsWritten | app/api/v1/endpoints/auth.py:33-50 | a set-password token whose stored copy was already cleared is still accepted as written and refused by the corrected route |
| Auth.SetTokenSingleUse | app/crud/crud_user.py:69-72 | with the stored-token check, a token that set a password is refused when presented again |
| Auth.IssueThenSetPassword | app/crud/crud_user.py:61-75 | a token issued for a user and presented within 24 hours sets the password and activates the user, who then signs in with it |
| Auth.Login | app/api/v1/endpoints/auth.py:69-123 | a grant type other than `password` is refused before any lookup; 401 exactly when sign-in fails; correct credentials always get a bearer access token for the user's id |
| Auth.LoginAccessToken | app/api/v1/endpoints/auth.py:222-242 | 400 exactly when sign-in fails, a separate 400 exactly when the user is inactive; an authenticated active user always gets the same token as `login` |
| Auth.LoginTokenResolves | app/api/v1/endpoints/auth.py:115-123 | a token from `login` identifies the signed-in user to the resolver for eight days |
| Auth.InactiveLoginRefusedLater | app/api/v1/endpoints/auth.py:107-123 | `login` gives an inactive user a token, which the active-user check then refuses with 400 |
| Auth.Register | app/api/v1/endpoints/auth.py:125-167 | an email already in use is refused with 400 exactly when it is known; a new email always registers: the user is created and gets a one-day verification token for its id |
| Auth.RegisterPreservesValid | app/api/v1/endpoints/auth.py:150-156 | registration keeps ids and emails unique |
| Auth.VerifyEmail | app/api/v1/endpoints/auth.py:169-220 | 400 exactly when the token fails to decode or has an empty or missing subject; a non-numeric subject raises; an unknown user gives 404; for a known user, the already-verified 400 comes exactly when it is active, and an inactive user is activated |
| Auth.RegisterThenVerify | app/api/v1/endpoints/auth.py:125-220 | within a day, the token from registration activates a user registered without a password, who then has no hash; a user registered with a password is already active and gets the already-verified 400 |
| Auth.ResetPassword | app/api/v1/endpoints/auth.py:267-291 | a token that fails to decode gives 400; a token without a subject raises; an empty subject gives 400; 404 exactly when the token's non-empty subject is no user's email; for a known user, the inactive-user 400 comes exactly when it is inactive, and an active user's hash is replaced, nothing else |
| Auth.ResetChangesOnlyHash | app/api/v1/endpoints/auth.py:285-290 | a reset changes the password hash of one user and nothing else in the table |
| Auth.ResetThenLogin | app/api/v1/endpoints/auth.py:267-291 | after a reset the user signs in with the new password and with no other |
| Patients.FindsOwnRow | app/api/v1/endpoints/patients.py:49 | in a valid table every row is found by its own id |
| Patients.Create | app/api/v1/endpoints/patients.py:36 | a new row with the next id holds the input's fields, appended to the table |
| Patients.Apply | app/api/v1/endpoints/patients.py:65 | an update sets the name and birth date, and the external id only when it was sent |
| Patients.Put | app/api/v1/endpoints/patients.py:65 | writing back a row replaces exactly the rows with its id |
| Patients.Remove | app/api/v1/endpoints/patients.py:89 | a delete keeps exactly the rows with other ids |
| Patients.Matches | app/crud/crud_patient.py:26-29 | a patient matches exactly when the term occurs, ignoring case, in its name or in its external id; a NULL external id never matches; an exact name occurrence matches; the empty term matches everyone |
| Patients.Search | app/crud/crud_patient.py:10-32 | an absent or empty search pages the whole table; otherwise the result is the page at `skip` of the matching rows in table order, so every returned row is a stored row matching the term by name or external id, at most `limit` of them |
| Patients.SearchFindsAll | app/crud/crud_patient.py:23-32 | a page from the start at least as long as the table holds exactly the matching patients |
| Patients.SearchPagesJoin | app/crud/crud_patient.py:32 | consecutive pages of one search join into the longer page |
| Patients.ReadPatients | app/api/v1/endpoints/patients.py:12-29 | after the caller is resolved, 422 exactly when `skip < 0` or `limit` lies outside 1..100; an in-bounds query always returns that page of the search |
| Patients.CreatePatient | app/api/v1/endpoints/patients.py:31-42 | an active caller always gets the new patient |
| Patients.ReadPatient | app/api/v1/endpoints/patients.py:44-57 | 404 exactly when no row has the id; a present row is always returned as stored |
| Patients.UpdatePatient | app/api/v1/endpoints/patients.py:59-74 | 404 with no write exactly when no row has the id; a present row is always overwritten with the patched fields |
| Patients.DeletePatient | app/api/v1/endpoints/patients.py:76-90 | 404 exactly when no row has the id; a present row is always removed: the result is exactly the table without that id, which gains no row, and the removed row |
| Patients.CreateThenRead | app/api/v1/endpoints/patients.py:31-57 | a created patient is read back by its id, and the table stays valid |
| Patients.UpdateThenRead | app/api/v1/endpoints/patients.py:44-74 | an updated patient is read back with the new fields, and the table stays valid |
| Patients.DeleteThenRead | app/api/v1/endpoints/patients.py:44-90 | reading a deleted patient gives 404 |
| Patients.RoutesNeedActiveUser | app/api/v1/endpoints/patients.py:18 | a caller that is not an active user is refused by every patient route with the resolver's error |
| Images.CreateWithFile | app/crud/crud_image.py:25-44 | the new row holds exactly the given name, type and bytes under the next id, appended to the table |
| Images.CreateThenGet | app/crud/crud_image.py:25-44 | a created image is found by its id with the fields it was created with, and the table stays valid |
| Images.CreateKeepsOthers | app/crud/crud_image.py:36-44 | creating an image leaves every existing image as it was |
| Images.CreateImage | app/api/v1/endpoints/images.py:17-44 | after the caller is resolved, a missing content type raises, and 400 comes exactly when the type does not start with `image/`; an `image/` upload by an active caller always succeeds, storing the file and answering its id |
| Images.GetImage | app/api/v1/endpoints/images.py:46-70 | 404 exactly when no row has the id; a present image is always served as its stored bytes with its stored type, with no caller check |
| Images.UploadThenView | app/api/v1/endpoints/images.py:17-70 | an accepted upload is viewed back as exactly the uploaded bytes with the uploaded type |
| Predictions.Create | app/crud/crud_prediction.py:9-15 | the new row holds every input field unchanged under the next id, appended to the table |
| Predictions.OwnedBy | app/crud/crud_prediction.py:22 | a row is the user's exactly when its `user_id` is the user's id |
| Predictions.GetMultiByUser | app/crud/crud_prediction.py:17-26 | the listing is the page at `skip` of the user's rows in table order: at most `limit` stored rows, all owned by the user |
| Predictions.ListsAllOwn | app/crud/crud_prediction.py:22 | a listing from the start with a large enough limit holds exactly the user's rows |
| Predictions.CreatedIsListed | app/crud/crud_prediction.py:9-26 | a created prediction is listed for its user and for no other |
| Predictions.ListingPagesJoin | app/crud/crud_prediction.py:23-24 | consecutive pages of a user's listing join into the longer page |
| Completion.ContentOr | app/services/qwen_service.py:92 | a failed request and an empty `choices` are errors; a present content is returned; an absent `choices`, `message` or `content` reads as the caller's default (`{}` for Qwen, the empty text for DeepSeek at app/services/deepseek_service.py:66) |
| OpenRouter.StripFences | app/services/openrouter_service.py:234-238 | the cleaned reply is no longer than the reply and neither starts nor ends with whitespace; a reply with neither fence is only stripped |
| OpenRouter.StripFencesOfFenced | app/services/openrouter_service.py:234-238 | a reply wrapped in a json fence yields exactly its stripped body |
| OpenRouter.StripFencesOfPlain | app/services/openrouter_service.py:234-238 | a reply without fences is only stripped |
| OpenRouter.StripFencesOfOpening | app/services/openrouter_service.py:234-238 | a reply with only an opening json fence loses exactly those seven characters and is stripped |
| OpenRouter.StripFencesOfClosing | app/services/openrouter_service.py:234-238 | a reply with only a closing fence loses exactly those three characters and is stripped |
| OpenRouter.SubGap | app/services/openrouter_service.py:165-169 | a regex substitution of `a\s*b` never lengthens the text |
| OpenRouter.SubGapNoMatch | app/services/openrouter_service.py:165-169 | where the pattern does not occur, the substitution changes nothing |
| OpenRouter.SubGapMatchShortens | app/services/openrouter_service.py:165-169 | where the pattern occurs, the substitution strictly shortens the text |
| OpenRouter.SubGapUnchangedIff | app/services/openrouter_service.py:165-169 | the substitution leaves the text unchanged exactly when the pattern does not occur |
| OpenRouter.FixJson | app/services/openrouter_service.py:162-170 | the repair never lengthens the text |
| OpenRouter.FixJsonShortensOnMatch | app/services/openrouter_service.py:162-170 | each pass that finds its pattern shortens the text, so a repaired text is strictly shorter |
| OpenRouter.FixJsonUnchangedWithoutMatch | app/services/openrouter_service.py:162-170 | a text in which no pass finds its pattern is returned unchanged |
| OpenRouter.FixJsonWithoutClosers | app/services/openrouter_service.py:162-170 | a text with neither `}` nor `]` is returned unchanged |
| OpenRouter.FirstFailing | app/services/openrouter_service.py:149-160 | the reported check is the first that fails, and none is reported exactly when all pass |
| OpenRouter.ValidateStructure | app/services/openrouter_service.py:133-160 | validation passes exactly on the well-formed structure; a non-object is reported as such; otherwise the first failing field in check order, as missing or as of the wrong type |
| OpenRouter.FirstFailingCongruent | app/services/openrouter_service.py:149-160 | the verdict depends only on the checked fields |
| OpenRouter.ExtraKeysIgnored | app/services/openrouter_service.py:133-160 | adding a key the validator does not look at does not change its verdict |
| OpenRouter.AnyConfidencePasses | app/services/openrouter_service.py:151 | `confidence` is never range-checked: any number passes |
| OpenRouter.MissingHasTumorReportedFirst | app/services/openrouter_service.py:135-139 | a missing `has_tumor` is the reported problem, whatever else is wrong |
| OpenRouter.CleanExplanation | app/services/openrouter_service.py:263-273 | every string in `explanation` is cleaned, and every other value and every key stays |
| OpenRouter.FinalResult | app/services/openrouter_service.py:276-288 | the result has the six keys with their types, carrying the cleaned texts, the confidence as a float and `has_tumor` |
| OpenRouter.ReplyContent | app/services/openrouter_service.py:227-230 | a missing or empty `choices` fails, and the content is read exactly when there is a first choice |
| OpenRouter.Decode | app/services/openrouter_service.py:234-290 | the reply fails as invalid JSON exactly when the repaired text does not parse; it succeeds exactly when the parsed value is well-formed, and then yields the six-key final record of that value; an ill-formed value fails with the problem the validator reports |
| OpenRouter.AnalyzeImage | app/services/openrouter_service.py:225-298 | errors reading the reply pass through; otherwise the result is the decoded content, always structured |
| OpenRouter.FencedReplyAccepted | app/services/openrouter_service.py:234-290 | a fenced, well-formed reply is accepted; its four explanation texts reach the result cleaned, `has_tumor` unchanged and the confidence as a float |
| Qwen.RemoveFences | app/services/qwen_service.py:96 | the unfenced reply is no longer than the reply and neither starts nor ends with whitespace; a reply without a backtick is only stripped |
| Qwen.OpeningFenceRemoved | app/services/qwen_service.py:96 | the first `replace` removes the opening json fence of a fenced body and leaves the closing fence |
| Qwen.ClosingFenceRemoved | app/services/qwen_service.py:96 | the second `replace` removes the closing fence after a body without backticks |
| Qwen.RemoveFencesOfFenced | app/services/qwen_service.py:96 | a body without backticks wrapped in json fences yields exactly its stripped body |
| Qwen.JsonCandidate | app/services/qwen_service.py:99-104 | no JSON is found exactly when the text lacks `{` or `}`; a non-empty cut-out is the slice from the first `{` to the last `}`; the cut-out is empty exactly when every `}` comes before every `{` |
| Qwen.CandidateOfObject | app/services/qwen_service.py:99-104 | a text that is one brace-delimited object is cut out whole |
| Qwen.Normalize | app/services/qwen_service.py:107-117 | the normalized candidate has single spaces between words, none at the ends, and no character below `' '` |
| Qwen.FallbackFilterIsIdentity | app/services/qwen_service.py:128 | the second control-character filter drops nothing, since no control character survives normalization |
| Qwen.FallbackRepair | app/services/qwen_service.py:125-128 | the repaired text has no character below `' '` |
| Qwen.FallbackRepairCommaEn | app/services/qwen_service.py:125-128 | a text holding `"supercritical"` and no Chinese term gets a comma after it |
| Qwen.FallbackRepairCommaZh | app/services/qwen_service.py:125-128 | a text holding `"超临界丙酸钠"` but not `"supercritical"` gets a comma after it |
| Qwen.SharedQuoteFirstPass | app/services/qwen_service.py:125 | when the English term ends a text and shares its opening quote with the term before it, the first pass appends the comma at the end |
| Qwen.SharedQuoteSecondPass | app/services/qwen_service.py:126 | the second pass puts its comma inside that shared quote, splitting the English term's comma off |
| Qwen.FallbackRepairSharedQuote | app/services/qwen_service.py:125-128 | in `"超临界丙酸钠"supercritical"` the two terms share a quote, and the repaired text holds no `"supercritical",` |
| Qwen.ParseWithFallback | app/services/qwen_service.py:119-129 | a text that parses is used as is; otherwise the result is ok exactly when the repaired text parses; the only error is invalid JSON |
| Qwen.FallbackWithoutTerms | app/services/qwen_service.py:125-128 | a candidate without the two known terms is retried unchanged |
| Qwen.CleanTextAsWritten | app/services/qwen_service.py:136-140 | the clean-up as written leaves no quote and no control character |
| Qwen.CleanTextAsWrittenLeavesDoubleSpace | app/services/qwen_service.py:136-140 | on `a " b` the clean-up as written leaves a double space, so its result is not normalized |
| Qwen.CleanText | app/services/qwen_service.py:135-140 | the corrected clean-up leaves no quote, no control character and only single spaces between words |
| Qwen.CleanTextKeepsContent | app/services/qwen_service.py:135-140 | every visible character other than `"` survives cleaning as often as it occurred |
| Qwen.CleanTextIdempotent | app/services/qwen_service.py:135-140 | cleaning a cleaned text changes nothing |
| Qwen.FirstNonText | app/services/qwen_service.py:132-137 | the reported key is the first of the four that holds a non-string, and none is reported exactly when all present ones are strings |
| Qwen.CleanFields | app/services/qwen_service.py:132-141 | cleaning fails exactly when a present explanation text is not a string; otherwise the keys stay, the four texts are replaced by the clean-up applied to them and the other values are kept |
| Qwen.Explanation | app/services/qwen_service.py:133 | the explanation is read exactly when the parsed value is an object with an `explanation` object |
| Qwen.Report | app/services/qwen_service.py:144-172 | the report succeeds exactly when `has_tumor` is present, `confidence` is a number and the four texts are present; it then holds the four texts and the confidence as a float |
| Qwen.CleanedTexts | app/services/qwen_service.py:132-141 | after cleaning, each explanation text is present exactly when it was, and is the original under the given clean-up, which the service runs as written (`Qwen.CleanTextAsWritten`) |
| Qwen.Extract | app/services/qwen_service.py:132-172 | extraction succeeds exactly on an acceptable parsed value, and then returns the three reported texts under the given clean-up and the confidence |
| Qwen.Parsed | app/services/qwen_service.py:96-129 | the reply fails for missing JSON exactly when the candidate cut-out fails; every other failure is invalid JSON |
| Qwen.NoJsonWithoutBraces | app/services/qwen_service.py:99-104 | the reply fails for missing JSON exactly when its unfenced text lacks an opening or a closing brace |
| Qwen.ParseCandidate | app/services/qwen_service.py:107-129 | a normalized candidate that parses is used as is, and the only failure is invalid JSON |
| Qwen.Decode | app/services/qwen_service.py:96-172 | parse errors pass through, and the reply is accepted exactly when its parsed value is acceptable, with the extraction under the given clean-up |
| Qwen.AnalyzeImage | app/services/qwen_service.py:92-185 | errors reading the reply pass through as failures of the call; otherwise the result is the content decoded with the clean-up as written, with `{}` standing for absent content |
| Qwen.AnalyzedTexts | app/services/qwen_service.py:132-172 | every text the service reports holds no quote and no control character |
| Qwen.CorrectedTextsSingleSpaced | app/services/qwen_service.py:135-140 | with the corrected clean-up every reported text is also single-spaced |
| Qwen.DecodeEmptyObject | app/services/qwen_service.py:133 | `{}` gets through parsing and then fails for the missing `explanation` |
| Qwen.EmptyReplyFails | app/services/qwen_service.py:92 | a reply without content is read as `{}`, so the analysis fails |
| DeepSeek.Second | app/services/deepseek_service.py:76-77 | `split(sep)[1]` is the start of the text after the first separator, up to the next separator or the end |
| DeepSeek.Field | app/services/deepseek_service.py:76-77 | `split(tag)[1].split(stop)[0].strip()` is the stripped text that starts right after the first tag and ends at the first `stop`, the next tag or the end |
| DeepSeek.Percent | app/services/deepseek_service.py:78 | a parsed score is divided by 100, and a score `float` rejects leaves 0.0 |
| DeepSeek.ParseText | app/services/deepseek_service.py:71-86 | without the `Prediction:` tag the result is `Unknown` with 0.0; with it the verdict is the stripped text after the tag up to `(`; a verdict never holds `(` nor surrounding whitespace; the confidence is 0.0 unless both tags are present, and then it is the score read after `Confidence:` over 100; a non-zero confidence is always a parsed score over 100 |
| DeepSeek.Predict | app/services/deepseek_service.py:66-95 | `predict` fails with the reader's error exactly when reading the reply fails; otherwise it returns the parse of the reply text, with the empty text standing for absent content |
| DeepSeek.EmptyReplyIsUnknown | app/services/deepseek_service.py:66-86 | a reply without content is read as `Unknown` with confidence 0.0 |
| DeepSeek.VerdictOfExpectedFormat | app/services/deepseek_service.py:69-76 | in the documented format the verdict is the stripped text between the tag and `(` |
| DeepSeek.ScoreOfExpectedFormat | app/services/deepseek_service.py:69-77 | in the documented format the score is the stripped text between `Confidence:` and `%` |
| DeepSeek.ParsesExpectedFormat | app/services/deepseek_service.py:69-86 | a reply in the documented format yields its verdict and its score over 100 |
| DeepSeek.UnscoredVerdict | app/services/deepseek_service.py:71-80 | a tagged verdict whose score `float` rejects reads as that verdict with 0.0 |
| DeepSeek.UnknownIsAlsoAVerdict | app/services/deepseek_service.py:71-80 | a reply that says `Prediction: Unknown` with an unreadable score reads exactly like a reply without the tag |

## Left out

- The HTTP calls to OpenRouter, Qwen and DeepSeek, base64 encoding of images, and the prompts. A reply is a parameter, and a failed request is a value of the reply type.
- `_clean_text` and `_validate_medical_terms` of the OpenRouter service. The `clean` parameter stands for their composition.
- The HTML report the Qwen service builds (lines 144-165). Only its key and type accesses are kept, because they decide whether the call raises.
- Floating-point formatting, `nan`/`inf`, and `float()` on text. Numbers are `real`, and text-to-float is a `parseFloat` parameter.
- JWT signing and password hashing. They are the parameters `Codec` and `Hasher`, with the properties `RoundTrips` and `Sound` assumed where a lemma needs them. `app/core/security.py` is not part of this model; `decode_token` and `generate_password_set_token` are covered by `Tokens.Decode` and `Tokens.SetToken`.
- The generic base CRUD class is not part of this model. Its update (overwrite the set fields) and remove (delete the row) are written out in `Users.Put`, `Patients.Put` and `Patients.Remove`.
- The predictions and users endpoints, `whoami`, e-mail sending, `recover_password`, `test_token`, the `ml/` package, `is_superuser` and the counting helpers. They are outside the modelled core.
- The `scope` form field of `login` (not part of the response), creation and update timestamps, and query order. Rows come back in insertion order.
- The clock and the request. They are parameters (`now`, `Deps.Caller`).
- Database unique and not-null errors, and transactions. Uniqueness of ids and emails is the `Valid` invariant that the lemmas carry.
- SQL `ILIKE` wildcards inside the search term (`%`, `_`), and case folding beyond ASCII A-Z and Russian А-Я, Ё. Other Latin letters (À-Þ, Ā and on) and other Cyrillic letters (Є, І, Ї, Ў and the rest of Ѐ-Џ) are not folded, though `ILIKE` folds them.
- Deps.CurrentUser: pydantic's `int` coercion of `sub` is modelled as plain decimal digits. Signs, surrounding whitespace and underscores, which pydantic also accepts, are read as failures.
- Auth.VerifyEmail: `int(sub)` is modelled as plain decimal digits, as for `Deps.CurrentUser`.
- OpenRouter.ValidateStructure: a parsed value that is not an object is reported as `NotAnObject`. Python's `in` on a list or string would report a missing field instead, or raise; all of these are failures of the call.
- Completion.ContentOr: a present `content` of `null` is read like an absent one, as the default. Python returns `None` instead. Qwen then fails on `None.replace` while the model fails later for the missing `explanation`; either way the call fails. DeepSeek raises a `TypeError` at the `in` test, where the model returns `Unknown`.
- Completion.ContentOr: a `content` that is present but not a string (a number, say) is also read as the default, and a `choices` or `message` of `null` cannot be expressed in the reply type at all. In Python, DeepSeek raises on `content: 5` at the `in` test (app/services/deepseek_service.py:74) and on `choices: null` at the subscript (line 66), where the model answers `Unknown` with 0.0. Qwen raises on a non-string content, and the model, reading `{}`, fails too.
- Qwen.FallbackRepair: the comma after a known term is promised only when the two terms do not share a quote. In `"超临界丙酸钠"supercritical"` the second `replace` puts its comma inside the shared quote and splits off the English term's comma, so no `"supercritical",` remains (`Qwen.FallbackRepairSharedQuote`). The comma is proved for a text without the Chinese term (`Qwen.FallbackRepairCommaEn`) and for a text without the English term (`Qwen.FallbackRepairCommaZh`); a text holding both terms apart is not covered.
- DeepSeek.Predict: the returned dictionary's `segmentation_mask` key (app/services/deepseek_service.py:85) is always `None` and carries nothing, so `DeepSeek.Prediction` holds only the verdict and the confidence.
- DeepSeek.ParseText: the result is `Unknown` with 0.0 whenever the tag is absent, but not only then: a reply that names `Unknown` as its verdict and has no readable score gives the same result (`DeepSeek.UnknownIsAlsoAVerdict`).

## Findings

| source | as written | input that shows it | evidently intended | confidence | as-written member | corrected member |
|---|---|---|---|---|---|---|
| app/api/v1/endpoints/auth.py:33-65 | `set_password` checks only the token's signature, type and email. It never compares the token with the stored `password_set_token` or its stored expiry, which it clears after use (lines 62-63). | A user whose stored token was cleared by an earlier set-password presents the same unexpired token again: the password is reset a second time | A password-set token works once, and only while it is the one stored for the user (stored by `create_password_set_token`, app/crud/crud_user.py:69-72) | medium; not executed | Auth.ReplayAcceptedAsWritten | Auth.SetPassword |
| app/services/qwen_service.py:136-140 | Whitespace is collapsed before the quotes are removed, so removing a quote that stood between spaces leaves two spaces | `a " b` becomes `a  b` | The single-spaced text the comment at line 135 describes: remove quotes and control characters, then collapse. `Qwen.AnalyzeImage` keeps the order as written; `Qwen.Decode` with `Qwen.CleanText` is the corrected pipeline (`Qwen.CorrectedTextsSingleSpaced`) | medium; not executed | Qwen.CleanTextAsWrittenLeavesDoubleSpace | Qwen.CleanText |

=== FILE: auth.dfy ===
/**
 * The account endpoints of the auth router as transitions of the user store:
 * each takes the store and the request and returns the new store (or the
 * response) or the `HTTPException` it raises. Sending e-mail is left out;
 * `register` returns the verification token it would send.
 */
module Auth {
  import opened Wrappers
  import opened Text
  import opened Tokens
  import opened Users
  import Deps

  const InvalidToken := HttpError(400, "Invalid token")
  const UserNotFound := HttpError(404, "User not found")
  const UnknownEmail := HttpError(404, "The user with this email does not exist in the system.")
  const InactiveUser := HttpError(400, "Inactive user")
  const EmailTaken := HttpError(400, "The user with this email already exists in the system.")
  const AlreadyVerified := HttpError(400, "Email already verified")
  const UnsupportedGrant := HttpError(400, "Unsupported grant type")
  const BadLogin := HttpError(401, "Incorrect email or password")
  const BadFormLogin := HttpError(400, "Incorrect email or password")
  /** An exception the handler does not catch. */
  const ServerError := HttpError(500, "Internal Server Error")

  /** The `Token` response: the scope a client sends is not part of it. */
  datatype Session = Session(accessToken: string, tokenType: string)

  /** The result of `register`: the new store, the created user and the verification token e-mailed to it. */
  datatype Registered = Registered(store: Store, user: User, verificationToken: string)

  // ---------------------------------------------------------------------------
  // set-password
  // ---------------------------------------------------------------------------

  /** The token checks inside the `try` of `set_password`: it decodes, is typed `password_set` and names `email`. */
  predicate PresentsSetToken(c: Codec, token: string, email: string, now: int) {
    var d := Decode(c, token, now);
    d.Some? && d.value.kind == Some(PasswordSetKind) && d.value.sub == Some(email) && email != ""
  }

  /** The stored user after a password is set: new hash, active, token and expiry cleared. */
  function WithPassword(u: User, h: Hasher, password: string): (r: User)
    ensures r.id == u.id && r.email == u.email && r.isActive
    ensures r.hashedPassword == Some(h.hash(password))
    ensures r.setToken.None? && r.setTokenExpires.None?
    ensures r.fullName == u.fullName && r.isSuperuser == u.isSuperuser
  {
    u.(hashedPassword := Some(h.hash(password)), isActive := true, setToken := None, setTokenExpires := None)
  }

  /**
   * `set_password` as written: every failed token check becomes 400 "Invalid token",
   * but the token is never compared with the one stored for the user.
   */
  function SetPasswordAsWritten(s: Store, c: Codec, h: Hasher, token: string, password: string, email: string, now: int)
    : (r: Result<Store, HttpError>)
    ensures r == Err(InvalidToken) <==> !PresentsSetToken(c, token, email, now)
    ensures r == Err(UserNotFound) <==> PresentsSetToken(c, token, email, now) && GetByEmail(s, email).None?
    ensures r.Ok? ==> var u := GetByEmail(s, email).value;
                      Get(r.value, u.id) == Some(WithPassword(u, h, password))
    ensures PresentsSetToken(c, token, email, now) && GetByEmail(s, email).Some? ==>
              r == Ok(Put(s, WithPassword(GetByEmail(s, email).value, h, password)))
  {
    if !PresentsSetToken(c, token, email, now) then Err(InvalidToken)
    else
      match GetByEmail(s, email)
      case None => Err(UserNotFound)
      case Some(u) => Ok(Put(s, WithPassword(u, h, password)))
  }

  /** The presented token is the one stored for the user and its stored expiry has not passed. */
  predicate MatchesStored(u: User, token: string, now: int) {
    u.setToken == Some(token) && u.setTokenExpires.Some? && now <= u.setTokenExpires.value
  }

  /**
   * `set_password` with the check the token's single use calls for: the token must
   * also be the one currently stored against the user, within its stored expiry.
   */
  function SetPassword(s: Store, c: Codec, h: Hasher, token: string, password: string, email: string, now: int)
    : (r: Result<Store, HttpError>)
    ensures r.Ok? <==> PresentsSetToken(c, token, email, now) && GetByEmail(s, email).Some?
                        && MatchesStored(GetByEmail(s, email).value, token, now)
    ensures r == Err(UserNotFound) <==> PresentsSetToken(c, token, email, now) && GetByEmail(s, email).None?
    ensures r.Err? && r != Err(UserNotFound) ==> r == Err(InvalidToken)
    ensures r.Ok? ==> r == SetPasswordAsWritten(s, c, h, token, password, email, now)
  {
    if !PresentsSetToken(c, token, email, now) then Err(InvalidToken)
    else
      match GetByEmail(s, email)
      case None => Err(UserNotFound)
      case Some(u) =>
        if !MatchesStored(u, token, now) then Err(InvalidToken)
        else Ok(Put(s, WithPassword(u, h, password)))
  }

  /** Setting the password of the user at `k` stores it there and keeps the store valid. */
  lemma SetPasswordStores(s: Store, c: Codec, h: Hasher, token: string, password: string, k: nat, now: int)
    requires Valid(s) && k < |s.rows|
    requires SetPasswordAsWritten(s, c, h, token, password, s.rows[k].email, now).Ok?
    ensures var s' := SetPasswordAsWritten(s, c, h, token, password, s.rows[k].email, now).value;
            Valid(s') && |s'.rows| == |s.rows| && s'.rows[k] == WithPassword(s.rows[k], h, password)
            && forall i :: 0 <= i < |s.rows| && i != k ==> s'.rows[i] == s.rows[i]
  {
    FindsOwnRow(s, k);
    PutPreservesValid(s, WithPassword(s.rows[k], h, password));
  }

  /**
   * As written, a password-set token is accepted again after it was consumed: a user
   * whose stored token is cleared still has its password set by the old token.
   */
  lemma ReplayAcceptedAsWritten(s: Store, c: Codec, h: Hasher, k: nat, issued: int, now: int, password: string)
    requires Valid(s) && RoundTrips(c) && k < |s.rows|
    requires s.rows[k].email != "" && s.rows[k].setToken.None?
    requires issued <= now <= issued + SetTokenSeconds
    ensures SetPasswordAsWritten(s, c, h, SetToken(c, s.rows[k].email, issued), password, s.rows[k].email, now).Ok?
    ensures SetPassword(s, c, h, SetToken(c, s.rows[k].email, issued), password, s.rows[k].email, now) == Err(InvalidToken)
  {
    SetTokenClaims(c, s.rows[k].email, issued, now);
    FindsOwnRow(s, k);
  }

  /** With the stored-token check a token is good for one use: presenting it again is refused. */
  lemma SetTokenSingleUse(s: Store, c: Codec, h: Hasher, token: string, password: string, again: string, k: nat, now: int, later: int)
    requires Valid(s) && k < |s.rows|
    requires SetPassword(s, c, h, token, password, s.rows[k].email, now).Ok?
    ensures SetPassword(SetPassword(s, c, h, token, password, s.rows[k].email, now).value,
                        c, h, token, again, s.rows[k].email, later).Err?
  {
    FindsOwnRow(s, k);
    SetPasswordStores(s, c, h, token, password, k, now);
    var s' := SetPassword(s, c, h, token, password, s.rows[k].email, now).value;
    FindsOwnRow(s', k);
  }

  /** Issuing a password-set token and presenting it within 24 hours sets the password and activates the user. */
  lemma IssueThenSetPassword(s: Store, c: Codec, h: Hasher, k: nat, issued: int, now: int, password: string)
    requires Valid(s) && RoundTrips(c) && Sound(h) && k < |s.rows|
    requires s.rows[k].email != ""
    requires issued <= now <= issued + SetTokenSeconds
    ensures var (s1, token) := IssueSetToken(s, s.rows[k], c, issued);
            var r := SetPassword(s1, c, h, token, password, s.rows[k].email, now);
            r.Ok? && Authenticate(r.value, s.rows[k].email, password, h) == Some(r.value.rows[k])
            && r.value.rows[k].isActive
  {
    var u := s.rows[k];
    var (s1, token) := IssueSetToken(s, u, c, issued);
    var v := u.(setToken := Some(token), setTokenExpires := Some(issued + SetTokenSeconds), isActive := false);
    PutOwnRow(s, k, v);
    SetTokenClaims(c, u.email, issued, now);
    var w := WithPassword(v, h, password);
    assert SetPassword(s1, c, h, token, password, u.email, now) == Ok(Put(s1, w));
    AuthenticateAfterPut(s1, k, w, h, password);
    PutOwnRow(s1, k, w);
  }

  // ---------------------------------------------------------------------------
  // login and login/access-token
  // ---------------------------------------------------------------------------

  /** `login`: the grant type is checked before any lookup, and the active flag is not checked at all. */
  function Login(s: Store, c: Codec, h: Hasher, username: string, password: string, grantType: string, now: int)
    : (r: Result<Session, HttpError>)
    ensures grantType != "password" ==> r == Err(UnsupportedGrant)
    ensures grantType == "password" ==> (r == Err(BadLogin) <==> Authenticate(s, username, password, h).None?)
    ensures r.Ok? ==> r.value.tokenType == "bearer"
                      && r.value.accessToken == AccessToken(c, Authenticate(s, username, password, h).value.id, now, AccessTokenMinutes)
    ensures grantType == "password" && Authenticate(s, username, password, h).Some? ==> r.Ok?
  {
    if grantType != "password" then Err(UnsupportedGrant)
    else
      match Authenticate(s, username, password, h)
      case None => Err(BadLogin)
      case Some(u) => Ok(Session(AccessToken(c, u.id, now, AccessTokenMinutes), "bearer"))
  }

  /** `login_access_token`: 400 for a wrong password and 400 for an inactive user. */
  function LoginAccessToken(s: Store, c: Codec, h: Hasher, username: string, password: string, now: int)
    : (r: Result<Session, HttpError>)
    ensures r == Err(BadFormLogin) <==> Authenticate(s, username, password, h).None?
    ensures r == Err(InactiveUser) <==>
              Authenticate(s, username, password, h).Some? && !Authenticate(s, username, password, h).value.isActive
    ensures r.Ok? ==> r == Login(s, c, h, username, password, "password", now)
    ensures Authenticate(s, username, password, h).Some? && Authenticate(s, username, password, h).value.isActive ==>
              r == Login(s, c, h, username, password, "password", now)
  {
    match Authenticate(s, username, password, h)
    case None => Err(BadFormLogin)
    case Some(u) =>
      if !u.isActive then Err(InactiveUser)
      else Ok(Session(AccessToken(c, u.id, now, AccessTokenMinutes), "bearer"))
  }

  /** A token from `login` identifies the signed-in user to the resolver for eight days. */
  lemma LoginTokenResolves(s: Store, c: Codec, h: Hasher, username: string, password: string, issued: int, now: int)
    requires Valid(s) && RoundTrips(c)
    requires issued <= now <= issued + AccessTokenMinutes * 60
    requires Login(s, c, h, username, password, "password", issued).Ok?
    ensures var token := Login(s, c, h, username, password, "password", issued).value.accessToken;
            Deps.CurrentUser(s, c, Some(token), now) == Ok(Authenticate(s, username, password, h).value)
  {
    var u := Authenticate(s, username, password, h).value;
    var k :| 0 <= k < |s.rows| && s.rows[k] == u && forall i :: 0 <= i < k ==> s.rows[i].email != username;
    Deps.AccessTokenResolves(s, c, k, issued, AccessTokenMinutes, now);
  }

  /** `login` hands an inactive user a token, which the active-user check then refuses. */
  lemma InactiveLoginRefusedLater(s: Store, c: Codec, h: Hasher, username: string, password: string, issued: int, now: int)
    requires Valid(s) && RoundTrips(c)
    requires issued <= now <= issued + AccessTokenMinutes * 60
    requires Authenticate(s, username, password, h).Some? && !Authenticate(s, username, password, h).value.isActive
    ensures Login(s, c, h, username, password, "password", issued).Ok?
    ensures Deps.CurrentActiveUser(s, c, Some(Login(s, c, h, username, password, "password", issued).value.accessToken), now)
              == Err(Deps.InactiveUser)
  {
    LoginTokenResolves(s, c, h, username, password, issued, now);
  }

  // ---------------------------------------------------------------------------
  // register and verify-email
  // ---------------------------------------------------------------------------

  /** `register`: refuses a known email; otherwise creates the user and a 24-hour verification token for its id. */
  function Register(s: Store, c: Codec, h: Hasher, obj: NewUser, now: int): (r: Result<Registered, HttpError>)
    ensures r == Err(EmailTaken) <==> GetByEmail(s, obj.email).Some?
    ensures r.Ok? ==> (r.value.store, r.value.user) == Create(s, obj, h)
    ensures r.Ok? ==> r.value.verificationToken == AccessToken(c, r.value.user.id, now, VerificationTokenMinutes)
    ensures GetByEmail(s, obj.email).None? ==> r.Ok?
  {
    if GetByEmail(s, obj.email).Some? then Err(EmailTaken)
    else
      var (s', u) := Create(s, obj, h);
      Ok(Registered(s', u, AccessToken(c, u.id, now, VerificationTokenMinutes)))
  }

  /** Registration keeps the store valid: no two users share an id or an email. */
  lemma RegisterPreservesValid(s: Store, c: Codec, h: Hasher, obj: NewUser, now: int)
    requires Valid(s)
    requires Register(s, c, h, obj, now).Ok?
    ensures Valid(Register(s, c, h, obj, now).value.store)
  {
    CreatePreservesValid(s, obj, h);
  }

  /**
   * `verify_email`: a failed decode or a missing subject is 400, a subject `int()`
   * rejects raises outside the `try`, and only an inactive user is activated.
   */
  function VerifyEmail(s: Store, c: Codec, h: Hasher, token: string, now: int): (r: Result<Store, HttpError>)
    ensures r == Err(InvalidToken) <==>
              var d := Decode(c, token, now); d.None? || d.value.sub.None? || d.value.sub.value == ""
    ensures r.Ok? || r == Err(AlreadyVerified) ==>
              var d := Decode(c, token, now);
              d.Some? && d.value.sub.Some? && ParseNat(d.value.sub.value).Some?
              && Get(s, ParseNat(d.value.sub.value).value).Some?
    ensures r.Ok? ==> var u := Get(s, ParseNat(Decode(c, token, now).value.sub.value).value).value;
                      !u.isActive && Get(r.value, u.id) == Some(u.(isActive := true))
    ensures r == Err(AlreadyVerified) ==> Get(s, ParseNat(Decode(c, token, now).value.sub.value).value).value.isActive
    ensures var d := Decode(c, token, now);
            d.Some? && d.value.sub.Some? && d.value.sub.value != "" ==>
              var n := ParseNat(d.value.sub.value);
              && (n.None? ==> r == Err(ServerError))
              && (n.Some? && Get(s, n.value).None? ==> r == Err(UserNotFound))
              && (n.Some? && Get(s, n.value).Some? ==>
                    (r == Err(AlreadyVerified) <==> Get(s, n.value).value.isActive)
                    && (!Get(s, n.value).value.isActive ==> r.Ok?))
  {
    match Decode(c, token, now)
    case None => Err(InvalidToken)
    case Some(claims) =>
      if claims.sub.None? || claims.sub.value == "" then Err(InvalidToken)
      else
        match ParseNat(claims.sub.value)
        case None => Err(ServerError)
        case Some(id) =>
          match Get(s, id)
          case None => Err(UserNotFound)
          case Some(u) =>
            if u.isActive then Err(AlreadyVerified)
            else Ok(Update(s, u, Patch(None, None, None, Some(true), None), h).0)
  }

  /**
   * Registering without a password and following the e-mailed link within a day
   * activates the new user; a user registered with a password is active at once,
   * so the link is refused as already verified.
   */
  lemma RegisterThenVerify(s: Store, c: Codec, h: Hasher, obj: NewUser, issued: int, now: int)
    requires Valid(s) && RoundTrips(c)
    requires issued <= now <= issued + VerificationTokenMinutes * 60
    requires GetByEmail(s, obj.email).None?
    ensures var reg := Register(s, c, h, obj, issued).value;
            var r := VerifyEmail(reg.store, c, h, reg.verificationToken, now);
            (Truthy(obj.password) ==> r == Err(AlreadyVerified))
            && (!Truthy(obj.password) ==> r.Ok? && Get(r.value, reg.user.id).Some? && Get(r.value, reg.user.id).value.isActive)
  {
    var (s1, u) := Create(s, obj, h);
    CreatePreservesValid(s, obj, h);
    FindsOwnRow(s1, |s.rows|);
    AccessTokenClaims(c, u.id, issued, VerificationTokenMinutes, now);
    ParseNatToString(u.id);
  }

  // ---------------------------------------------------------------------------
  // reset-password
  // ---------------------------------------------------------------------------

  /**
   * `reset_password`: the subject of any token that decodes is taken as the email;
   * a decoded token without `sub` raises outside the `except`. Checks run in order:
   * token, user, active flag; then only the hash changes.
   */
  function ResetPassword(s: Store, c: Codec, h: Hasher, token: string, newPassword: string, now: int)
    : (r: Result<Store, HttpError>)
    ensures Decode(c, token, now).None? ==> r == Err(InvalidToken)
    ensures Decode(c, token, now).Some? && Decode(c, token, now).value.sub.None? ==> r == Err(ServerError)
    ensures r.Ok? ==> var d := Decode(c, token, now);
                      d.Some? && d.value.sub.Some? && GetByEmail(s, d.value.sub.value).Some?
    ensures r.Ok? ==> var u := GetByEmail(s, Decode(c, token, now).value.sub.value).value;
                      u.isActive && Get(r.value, u.id) == Some(u.(hashedPassword := Some(h.hash(newPassword))))
    ensures r == Err(UnknownEmail) <==>
              Decode(c, token, now).Some? && Decode(c, token, now).value.sub.Some?
              && Decode(c, token, now).value.sub.value != ""
              && GetByEmail(s, Decode(c, token, now).value.sub.value).None?
    ensures var d := Decode(c, token, now); d.Some? && d.value.sub == Some("") ==> r == Err(InvalidToken)
    ensures var d := Decode(c, token, now);
            d.Some? && d.value.sub.Some? && d.value.sub.value != "" && GetByEmail(s, d.value.sub.value).Some? ==>
              var u := GetByEmail(s, d.value.sub.value).value;
              (r == Err(InactiveUser) <==> !u.isActive) && (u.isActive ==> r.Ok?)
  {
    match Decode(c, token, now)
    case None => Err(InvalidToken)
    case Some(claims) =>
      match claims.sub
      case None => Err(ServerError)
      case Some(email) =>
        if email == "" then Err(InvalidToken)
        else
          match GetByEmail(s, email)
          case None => Err(UnknownEmail)
          case Some(u) =>
            if !u.isActive then Err(InactiveUser)
            else Ok(Put(s, u.(hashedPassword := Some(h.hash(newPassword)))))
  }

  /** A reset changes the password hash of one user and nothing else in the store. */
  lemma ResetChangesOnlyHash(s: Store, c: Codec, h: Hasher, token: string, newPassword: string, now: int)
    requires Valid(s)
    requires ResetPassword(s, c, h, token, newPassword, now).Ok?
    ensures var s' := ResetPassword(s, c, h, token, newPassword, now).value;
            s'.nextId == s.nextId && |s'.rows| == |s.rows|
            && forall i :: 0 <= i < |s.rows| ==> s'.rows[i] == s.rows[i].(hashedPassword := s'.rows[i].hashedPassword)
  {
    var email := Decode(c, token, now).value.sub.value;
    var u := GetByEmail(s, email).value;
    var k :| 0 <= k < |s.rows| && s.rows[k] == u && forall i :: 0 <= i < k ==> s.rows[i].email != email;
    var v := u.(hashedPassword := Some(h.hash(newPassword)));
    assert ResetPassword(s, c, h, token, newPassword, now) == Ok(Put(s, v));
    var s' := Put(s, v);
    forall i | 0 <= i < |s.rows| ensures s'.rows[i] == s.rows[i].(hashedPassword := s'.rows[i].hashedPassword) {
      if s.rows[i].id == u.id {
        assert i == k;
      }
    }
  }

  /** After a reset the user signs in with the new password and with no other. */
  lemma ResetThenLogin(s: Store, c: Codec, h: Hasher, token: string, newPassword: string, password: string, now: int, later: int)
    requires Valid(s) && Sound(h)
    requires ResetPassword(s, c, h, token, newPassword, now).Ok?
    ensures var email := Decode(c, token, now).value.sub.value;
            (Login(ResetPassword(s, c, h, token, newPassword, now).value, c, h, email, password, "password", later).Ok?
             <==> password == newPassword)
  {
    var email := Decode(c, token, now).value.sub.value;
    var u := GetByEmail(s, email).value;
    var k :| 0 <= k < |s.rows| && s.rows[k] == u && forall i :: 0 <= i < k ==> s.rows[i].email != email;
    AuthenticateAfterPut(s, k, u.(hashedPassword := Some(h.hash(newPassword))), h, password);
    assert h.verify(password, h.hash(newPassword)) <==> password == newPassword;
  }
}

=== FILE: completion.dfy ===
/**
 * The decoded reply of a chat-completions HTTP call, as the three analysis
 * services read it: `response["choices"][0]["message"]["content"]`.
 * The HTTP request itself, the base64 image encoding and the prompt are not modelled;
 * the reply is an input.
 */
module Completion {
  import opened Wrappers

  /** A `message` object; `content` is `None` when the key is absent or holds no string. */
  datatype Message = Message(content: Option<string>)

  /** One element of `choices`; `message` is `None` when the key is absent. */
  datatype Choice = Choice(message: Option<Message>)

  /**
   * `RequestFailed`: the request raised, the status was not a success, or the body
   * was not JSON. Otherwise `choices` is `None` when the key is absent.
   */
  datatype Reply = RequestFailed | Reply(choices: Option<seq<Choice>>)

  /** Why reading the content raised: the call failed, or `choices` was an empty list. */
  datatype ReadFailure = CallFailed | NoChoices

  /**
   * `result.get('choices', [{}])[0].get('message', {}).get('content', default)`: an absent
   * `choices`, `message` or `content` reads as `default`; indexing an empty `choices` raises.
   */
  function ContentOr(reply: Reply, default: string): (r: Result<string, ReadFailure>)
    ensures reply.RequestFailed? <==> r == Err(CallFailed)
    ensures r == Err(NoChoices) <==> reply == Reply(Some([]))
    ensures reply.Reply? && reply.choices.Some? && reply.choices.value != []
            && reply.choices.value[0].message.Some? && reply.choices.value[0].message.value.content.Some? ==>
              r == Ok(reply.choices.value[0].message.value.content.value)
    ensures reply.Reply? && (reply.choices.None? || (reply.choices.value != []
            && (reply.choices.value[0].message.None? || reply.choices.value[0].message.value.content.None?))) ==>
              r == Ok(default)
  {
    match reply
    case RequestFailed => Err(CallFailed)
    case Reply(choices) =>
      match choices
      case None => Ok(default)
      case Some(cs) =>
        if cs == [] then Err(NoChoices)
        else
          match cs[0].message
          case None => Ok(default)
          case Some(m) => Ok(m.content.GetOr(default))
  }
}

=== FILE: deepseek.dfy ===
/**
 * `DeepSeekService.predict`: reading a prediction verdict and a confidence out of
 * a free-text reply of the form `Prediction: <verdict> (Confidence: <score>%)`.
 *
 * Python's `float(str)` is the parameter `parseFloat`; `None` stands for the
 * `ValueError` it raises.
 */
module DeepSeek {
  import opened Wrappers
  import opened Text
  import opened Completion

  /** The dictionary `predict` returns; `segmentation_mask` is always `None` and is not stored. */
  datatype Prediction = Prediction(verdict: string, confidence: real)

  const PredictionTag: string := "Prediction:"
  const ConfidenceTag: string := "Confidence:"
  /** The verdict of a reply that holds no prediction. */
  const Unknown: string := "Unknown"

  lemma UnknownFacts()
    ensures '(' !in Unknown && Trimmed(Unknown)
  {
  }

  /** `text.split(sep)[1]`: the text between the first and the second `sep`. */
  function Second(text: string, sep: string): (r: string)
    requires Contains(text, sep)
    ensures StartsWith(After(text, sep), r)
    ensures forall j :: 0 <= j < |r| ==> !Occurs(After(text, sep), sep, j)
    ensures |r| < |After(text, sep)| ==> Occurs(After(text, sep), sep, |r|)
  {
    Before(After(text, sep), sep)
  }

  /**
   * `v` is what `text.split(tag)[1].split(stop)[0].strip()` reads: the stripped
   * text that starts right after the first `tag` and ends at the first `stop`,
   * at the next `tag`, or at the end of the text.
   */
  ghost predicate ReadAfter(text: string, tag: string, stop: char, v: string)
    requires Contains(text, tag)
  {
    var a := After(text, tag);
    exists k :: 0 <= k <= |a| && v == Strip(a[..k]) && stop !in a[..k]
                && (forall j :: 0 <= j < k ==> !Occurs(a, tag, j))
                && (k == |a| || a[k] == stop || Occurs(a, tag, k))
  }

  /**
   * `text.split(tag)[1].split(stop)[0].strip()`: the field after the first `tag`;
   * it holds no `stop` and no whitespace at either end.
   */
  function Field(text: string, tag: string, stop: char): (r: string)
    requires Contains(text, tag)
    ensures ReadAfter(text, tag, stop, r)
    ensures stop !in r
    ensures Trimmed(r)
  {
    FieldRead(text, tag, stop);
    Strip(Before(Second(text, tag), [stop]))
  }

  lemma FieldRead(text: string, tag: string, stop: char)
    requires Contains(text, tag)
    ensures var r := Strip(Before(Second(text, tag), [stop]));
            ReadAfter(text, tag, stop, r) && stop !in r
  {
    var a := After(text, tag);
    var b := Second(text, tag);
    var c := Before(b, [stop]);
    var k := |c|;
    assert b == a[..|b|];
    assert c == a[..k];
    forall i | 0 <= i < k ensures a[i] != stop {
      OccursChar(b, stop, i);
    }
    if k < |b| {
      OccursChar(b, stop, k);
    }
    StripKeeps(c, stop);
  }

  /** Stripping adds no character: one absent before is absent after. */
  lemma StripKeeps(s: string, c: char)
    requires c !in s
    ensures c !in Strip(s)
  {
    var l := LStrip(s);
    forall i | 0 <= i < |l| ensures l[i] != c {
      assert l[i] == s[|s| - |l| + i];
    }
    var r := RStrip(l);
    forall i | 0 <= i < |r| ensures r[i] != c {
      assert r[i] == l[i];
    }
  }

  /** A percentage as a fraction; a score `float` rejects leaves the default 0.0. */
  function Percent(score: Option<real>): (r: real)
    ensures score.None? ==> r == 0.0
    ensures score.Some? ==> r * 100.0 == score.value
  {
    match score
    case None => 0.0
    case Some(x) => x / 100.0
  }

  /**
   * The verdict and score extraction; any exception inside it leaves the
   * defaults in place: a reply without the `Prediction:` tag is `Unknown` with
   * 0.0, and the confidence is 0.0 unless both tags are there and `float`
   * accepts the score.
   */
  function ParseText(text: string, parseFloat: string -> Option<real>): (r: Prediction)
    ensures !Contains(text, PredictionTag) ==> r == Prediction(Unknown, 0.0)
    ensures Contains(text, PredictionTag) ==> ReadAfter(text, PredictionTag, '(', r.verdict)
    ensures '(' !in r.verdict
    ensures Trimmed(r.verdict)
    ensures !Contains(text, PredictionTag) || !Contains(text, ConfidenceTag) ==> r.confidence == 0.0
    ensures Contains(text, PredictionTag) && Contains(text, ConfidenceTag) ==>
              exists x :: ReadAfter(text, ConfidenceTag, '%', x) && r.confidence == Percent(parseFloat(x))
    ensures r.confidence == 0.0 || exists x :: parseFloat(x).Some? && r.confidence * 100.0 == parseFloat(x).value
  {
    if !Contains(text, PredictionTag) then
      UnknownFacts();
      Prediction(Unknown, 0.0)
    else
      var verdict := Field(text, PredictionTag, '(');
      if !Contains(text, ConfidenceTag) then Prediction(verdict, 0.0)
      else Prediction(verdict, Percent(parseFloat(Field(text, ConfidenceTag, '%'))))
  }

  /** `predict` after the HTTP call. */
  function Predict(reply: Reply, parseFloat: string -> Option<real>): (r: Result<Prediction, ReadFailure>)
    ensures ContentOr(reply, "").Err? ==> r == Err(ContentOr(reply, "").error)
    ensures ContentOr(reply, "").Ok? ==> r == Ok(ParseText(ContentOr(reply, "").value, parseFloat))
  {
    var text :- ContentOr(reply, "");
    Ok(ParseText(text, parseFloat))
  }

  /** A reply without any content is read as "no prediction". */
  lemma EmptyReplyIsUnknown(parseFloat: string -> Option<real>)
    ensures Predict(Reply(None), parseFloat) == Ok(Prediction("Unknown", 0.0))
  {
    assert !Contains("", PredictionTag) by {
      assert !Occurs("", PredictionTag, 0);
    }
  }

  /** The verdict part of the expected format: the text between the tag and the `(`. */
  lemma VerdictOfExpectedFormat(verdict: string, rest: string)
    requires '(' !in verdict && ':' !in verdict
    ensures var text := PredictionTag + " " + verdict + " (" + rest;
            Contains(text, PredictionTag)
            && Before(Second(text, PredictionTag), "(") == " " + verdict + " "
  {
    var text := PredictionTag + " " + verdict + " (" + rest;
    assert text[..11] == PredictionTag;
    SplitAt(text, PredictionTag, 0);
    assert After(text, PredictionTag) == " " + verdict + " (" + rest;
    VerdictTail(verdict, rest);
  }

  lemma VerdictTail(verdict: string, rest: string)
    requires '(' !in verdict && ':' !in verdict
    ensures Before(Before(" " + verdict + " (" + rest, PredictionTag), "(") == " " + verdict + " "
  {
    var after := " " + verdict + " (" + rest;
    var m := |verdict| + 2;
    assert after[m] == '(';
    assert forall i :: 0 <= i < m ==> after[i] != ':' && after[i] != '(' by {
      forall i | 0 <= i < m ensures after[i] != ':' && after[i] != '(' {
        if 1 <= i < m - 1 {
          assert after[i] == verdict[i - 1];
        }
      }
    }
    assert PredictionTag[10] == ':';
    NoOccurrenceUpTo(after, PredictionTag, m, 10, 0);
    var second := BeforeKeepsPrefix(after, PredictionTag, m);
    OccursChar(second, '(', m);
    forall j | 0 <= j < m ensures !Occurs(second, "(", j) {
      OccursChar(second, '(', j);
    }
    SplitAt(second, "(", m);
    assert after[..m] == " " + verdict + " ";
  }

  /** Cutting before a separator that does not occur up to `m` keeps the first `m + 1` characters. */
  lemma BeforeKeepsPrefix(s: string, sep: string, m: nat) returns (b: string)
    requires m < |s| && sep != []
    requires forall j :: 0 <= j <= m ==> !Occurs(s, sep, j)
    ensures b == Before(s, sep) && m < |b| && b[..m + 1] == s[..m + 1]
  {
    b := Before(s, sep);
    match Find(s, sep)
    case None =>
    case Some(i) =>
  }

  /** The score part of the expected format: the text between `Confidence:` and `%`. */
  lemma ScoreOfExpectedFormat(verdict: string, score: string)
    requires '(' !in verdict && ':' !in verdict
    requires '%' !in score && ':' !in score
    ensures var text := PredictionTag + " " + verdict + " (" + ConfidenceTag + " " + score + "%)";
            Contains(text, ConfidenceTag)
            && Before(Second(text, ConfidenceTag), "%") == " " + score
  {
    var head := PredictionTag + " " + verdict + " (";
    var tail := " " + score + "%)";
    var text := head + ConfidenceTag + tail;
    assert text == PredictionTag + " " + verdict + " (" + ConfidenceTag + " " + score + "%)";
    var m := |head| - 1;
    assert text[m] == '(';
    forall i | 11 <= i < m ensures text[i] != ':' {
      if 12 <= i < m - 1 {
        assert text[i] == verdict[i - 12];
      }
    }
    assert ConfidenceTag[10] == ':';
    NoOccurrenceUpTo(text, ConfidenceTag, m, 10, 1);
    assert text[..11][0] == 'P';
    assert !Occurs(text, ConfidenceTag, 0);
    assert text[|head|..|head| + 11] == ConfidenceTag;
    SplitAt(text, ConfidenceTag, |head|);
    assert After(text, ConfidenceTag) == tail;
    ScoreTail(score);
  }

  lemma ScoreTail(score: string)
    requires '%' !in score && ':' !in score
    ensures Before(Before(" " + score + "%)", ConfidenceTag), "%") == " " + score
  {
    var tail := " " + score + "%)";
    var n := |score| + 1;
    assert forall i :: 0 <= i < n ==> tail[i] != '%' && tail[i] != ':' by {
      forall i | 0 <= i < n ensures tail[i] != '%' && tail[i] != ':' {
        if i >= 1 {
          assert tail[i] == score[i - 1];
        }
      }
    }
    assert tail[n] == '%' && tail[n + 1] == ')';
    assert ConfidenceTag[10] !in tail;
    AbsentCharExcludes(tail, ConfidenceTag, 10);
    BeforeAbsent(tail, ConfidenceTag);
    forall j | 0 <= j < n ensures !Occurs(tail, "%", j) {
      OccursChar(tail, '%', j);
    }
    OccursChar(tail, '%', n);
    SplitAt(tail, "%", n);
    assert tail[..n] == " " + score;
  }

  /**
   * The reply format the service expects is read back as written: the verdict
   * stripped, and the score divided by 100 when `float` accepts it.
   */
  lemma ParsesExpectedFormat(verdict: string, score: string, parseFloat: string -> Option<real>)
    requires '(' !in verdict && ':' !in verdict
    requires '%' !in score && ':' !in score
    ensures var text := PredictionTag + " " + verdict + " (" + ConfidenceTag + " " + score + "%)";
            Contains(text, PredictionTag) && Contains(text, ConfidenceTag)
            && ParseText(text, parseFloat) == Prediction(Strip(verdict), Percent(parseFloat(Strip(score))))
  {
    var rest := ConfidenceTag + " " + score + "%)";
    var text := PredictionTag + " " + verdict + " (" + rest;
    assert text == PredictionTag + " " + verdict + " (" + ConfidenceTag + " " + score + "%)";
    VerdictOfExpectedFormat(verdict, rest);
    ScoreOfExpectedFormat(verdict, score);
    StripPadded(verdict);
    assert Strip(Before(Second(text, PredictionTag), "(")) == Strip(verdict);
    LStripAfterSpace(score);
    assert Strip(Before(Second(text, ConfidenceTag), "%")) == Strip(score);
  }

  /** A tagged verdict with a score `float` rejects reads as that verdict with 0.0. */
  lemma UnscoredVerdict(v: string, score: string, parseFloat: string -> Option<real>)
    requires '(' !in v && ':' !in v && Strip(v) == v
    requires '%' !in score && ':' !in score && parseFloat(Strip(score)).None?
    ensures var text := PredictionTag + " " + v + " (" + ConfidenceTag + " " + score + "%)";
            Contains(text, PredictionTag) && ParseText(text, parseFloat) == Prediction(v, 0.0)
  {
    ParsesExpectedFormat(v, score, parseFloat);
  }

  /**
   * The default is also a verdict a reply can give: `Prediction: Unknown` with
   * a score `float` rejects reads the same as a reply without the tag.
   */
  lemma UnknownIsAlsoAVerdict(score: string, parseFloat: string -> Option<real>)
    requires '%' !in score && ':' !in score && parseFloat(Strip(score)).None?
    ensures var text := PredictionTag + " " + Unknown + " (" + ConfidenceTag + " " + score + "%)";
            Contains(text, PredictionTag) && ParseText(text, parseFloat) == Prediction(Unknown, 0.0)
  {
    UnknownStripped(Unknown);
    UnscoredVerdict(Unknown, score, parseFloat);
  }

  lemma UnknownStripped(v: string)
    requires v == Unknown
    ensures '(' !in v && ':' !in v && Strip(v) == v
  {
    assert v[0] == 'U' && v[|v| - 1] == 'n';
    assert LStrip(v) == v;
  }
}

=== FILE: deps.dfy ===
/**
 * The dependency chain that resolves the bearer token of a request to a user:
 * `OAuth2PasswordBearer`, then `get_current_user`, then `get_current_active_user`.
 */
module Deps {
  import opened Wrappers
  import opened Text
  import opened Tokens
  import opened Users

  /** `OAuth2PasswordBearer` finds no `Authorization: Bearer` header. */
  const NotAuthenticated := HttpError(401, "Not authenticated")
  const BadCredentials := HttpError(403, "Could not validate credentials")
  const UserNotFound := HttpError(404, "User not found")
  const InactiveUser := HttpError(400, "Inactive user")

  /**
   * `get_current_user`: `token` is `None` when the request carries no bearer token.
   * A payload without `sub` passes `TokenPayload` and then finds no user.
   */
  function CurrentUser(s: Store, c: Codec, token: Option<string>, now: int): (r: Result<User, HttpError>)
    ensures token.None? ==> r == Err(NotAuthenticated)
    ensures r == Err(BadCredentials) <==>
              token.Some? && var d := Decode(c, token.value, now);
              (d.None? || (d.value.sub.Some? && ParseNat(d.value.sub.value).None?))
    ensures r.Ok? ==> r.value in s.rows && token.Some?
                      && var d := Decode(c, token.value, now);
                      d.Some? && d.value.sub.Some? && ParseNat(d.value.sub.value) == Some(r.value.id)
    ensures r == Err(UserNotFound) ==>
              var sub := Decode(c, token.value, now).value.sub;
              sub.None? || forall i :: 0 <= i < |s.rows| ==> Some(s.rows[i].id) != ParseNat(sub.value)
    ensures token.Some? && Decode(c, token.value, now).Some? && Decode(c, token.value, now).value.sub.None? ==>
              r == Err(UserNotFound)
    ensures token.Some? && Decode(c, token.value, now).Some? && Decode(c, token.value, now).value.sub.Some? ==>
              var n := ParseNat(Decode(c, token.value, now).value.sub.value);
              && (n.Some? && Get(s, n.value).None? ==> r == Err(UserNotFound))
              && (n.Some? && Get(s, n.value).Some? ==> r == Ok(Get(s, n.value).value))
  {
    if token.None? then Err(NotAuthenticated)
    else
      match Decode(c, token.value, now)
      case None => Err(BadCredentials)
      case Some(claims) =>
        match claims.sub
        case None => Err(UserNotFound)
        case Some(sub) =>
          match ParseNat(sub)
          case None => Err(BadCredentials)
          case Some(id) =>
            match Get(s, id)
            case None => Err(UserNotFound)
            case Some(u) => Ok(u)
  }

  /** `get_current_active_user`: the resolved user, unless it is inactive. */
  function CurrentActiveUser(s: Store, c: Codec, token: Option<string>, now: int): (r: Result<User, HttpError>)
    ensures r.Ok? <==> CurrentUser(s, c, token, now).Ok? && CurrentUser(s, c, token, now).value.isActive
    ensures r.Ok? ==> r == CurrentUser(s, c, token, now)
    ensures CurrentUser(s, c, token, now).Err? ==> r == CurrentUser(s, c, token, now)
    ensures CurrentUser(s, c, token, now).Ok? && !CurrentUser(s, c, token, now).value.isActive ==> r == Err(InactiveUser)
  {
    var u :- CurrentUser(s, c, token, now);
    if u.isActive then Ok(u) else Err(InactiveUser)
  }

  /** What a protected route resolves its user from: the user table, the token codec, the bearer token and the time. */
  datatype Caller = Caller(users: Store, codec: Codec, token: Option<string>, now: int)

  /** `Depends(get_current_active_user)`, resolved before the route body runs. */
  function Active(caller: Caller): (r: Result<User, HttpError>)
    ensures r == CurrentActiveUser(caller.users, caller.codec, caller.token, caller.now)
    ensures r.Ok? ==> r.value in caller.users.rows && r.value.isActive
  {
    CurrentActiveUser(caller.users, caller.codec, caller.token, caller.now)
  }

  /** An access token issued for a stored user resolves to that user until it expires, and is refused after. */
  lemma AccessTokenResolves(s: Store, c: Codec, k: nat, issued: int, minutes: nat, now: int)
    requires Valid(s) && RoundTrips(c) && k < |s.rows|
    requires issued <= now
    ensures var token := Some(AccessToken(c, s.rows[k].id, issued, minutes));
            (now <= issued + minutes * 60 ==> CurrentUser(s, c, token, now) == Ok(s.rows[k]))
            && (now > issued + minutes * 60 ==> CurrentUser(s, c, token, now) == Err(BadCredentials))
  {
    var u := s.rows[k];
    DecodeIssued(c, Claims(Some(NatToString(u.id)), None, issued + minutes * 60), now);
    ParseNatToString(u.id);
    FindsOwnRow(s, k);
  }

  /** The active-user check passes exactly the active users among the resolved ones. */
  lemma ActiveTokenResolves(s: Store, c: Codec, k: nat, issued: int, now: int)
    requires Valid(s) && RoundTrips(c) && k < |s.rows|
    requires issued <= now <= issued + AccessTokenMinutes * 60
    ensures var token := Some(AccessToken(c, s.rows[k].id, issued, AccessTokenMinutes));
            CurrentActiveUser(s, c, token, now) == if s.rows[k].isActive then Ok(s.rows[k]) else Err(InactiveUser)
  {
    AccessTokenResolves(s, c, k, issued, AccessTokenMinutes, now);
  }
}

=== FILE: images.dfy ===
/**
 * The image table (`CRUDImage.get`, `CRUDImage.create_with_file`) and the two
 * routes of the images router: an upload for active users and an
 * unauthenticated view.
 */
module Images {
  import opened Wrappers
  import opened Text
  import opened Rows
  import Deps

  /** A row of `images`; the creation timestamp is not kept. */
  datatype Image = Image(id: nat, filename: string, contentType: string, data: seq<bv8>)

  datatype Store = Store(rows: seq<Image>, nextId: nat)

  /** Ids are unique and below the counter. */
  ghost predicate Valid(s: Store) {
    && (forall i :: 0 <= i < |s.rows| ==> s.rows[i].id < s.nextId)
    && (forall i, j :: 0 <= i < j < |s.rows| ==> s.rows[i].id != s.rows[j].id)
  }

  /** An uploaded file: `content_type` is `None` when the part carried no type. */
  datatype Upload = Upload(filename: string, contentType: Option<string>, data: seq<bv8>)

  /** The response of the view route: the stored bytes with the stored type as media type. */
  datatype View = View(content: seq<bv8>, mediaType: string)

  /** "Файл должен быть изображением". */
  const NotAnImage := HttpError(400, "\U{0424}\U{0430}\U{0439}\U{043b} \U{0434}\U{043e}\U{043b}\U{0436}\U{0435}\U{043d} \U{0431}\U{044b}\U{0442}\U{044c} \U{0438}\U{0437}\U{043e}\U{0431}\U{0440}\U{0430}\U{0436}\U{0435}\U{043d}\U{0438}\U{0435}\U{043c}")
  /** "Изображение не найдено". */
  const NotFound := HttpError(404, "\U{0418}\U{0437}\U{043e}\U{0431}\U{0440}\U{0430}\U{0436}\U{0435}\U{043d}\U{0438}\U{0435} \U{043d}\U{0435} \U{043d}\U{0430}\U{0439}\U{0434}\U{0435}\U{043d}\U{043e}")
  /** Calling `startswith` on a missing content type raises. */
  const ServerError := HttpError(500, "Internal Server Error")
  const ImagePrefix: string := "image/"

  function ImageId(m: Image): int { m.id }

  function IdIs(id: int): Image -> bool {
    HasId(ImageId, id)
  }

  /** `get`: the first row whose id is `id`. */
  function Get(s: Store, id: int): Option<Image> {
    GetById(s.rows, ImageId, id)
  }

  /** `create_with_file`: one new row holding exactly the given name, type and bytes. */
  function CreateWithFile(s: Store, filename: string, contentType: string, data: seq<bv8>): (r: (Store, Image))
    ensures r.1 == Image(s.nextId, filename, contentType, data)
    ensures |r.0.rows| == |s.rows| + 1 && r.0.rows[..|s.rows|] == s.rows && r.0.rows[|s.rows|] == r.1
    ensures r.0.nextId == s.nextId + 1
  {
    var m := Image(s.nextId, filename, contentType, data);
    (Store(s.rows + [m], s.nextId + 1), m)
  }

  /** A created image is found by its id with the fields it was created with, and the table stays valid. */
  lemma CreateThenGet(s: Store, filename: string, contentType: string, data: seq<bv8>)
    requires Valid(s)
    ensures var (s', m) := CreateWithFile(s, filename, contentType, data);
            Valid(s') && Get(s', m.id) == Some(m)
            && m.filename == filename && m.contentType == contentType && m.data == data
  {
    var (s', m) := CreateWithFile(s, filename, contentType, data);
    assert ImageId(s'.rows[|s.rows|]) == m.id;
    assert IdIs(m.id)(s'.rows[|s.rows|]);
  }

  /** Creating an image leaves every existing image where and as it was. */
  lemma CreateKeepsOthers(s: Store, filename: string, contentType: string, data: seq<bv8>, id: int)
    requires Valid(s) && Get(s, id).Some?
    ensures Get(CreateWithFile(s, filename, contentType, data).0, id) == Get(s, id)
  {
    var s' := CreateWithFile(s, filename, contentType, data).0;
    var k := IndexWhere(s.rows, IdIs(id)).value;
    assert ImageId(s'.rows[k]) == ImageId(s.rows[k]);
    assert IdIs(id)(s'.rows[k]);
  }

  /**
   * `POST /images/`: after the caller is resolved, a type not starting with
   * `image/` is refused and nothing is stored; otherwise the response is the new id.
   */
  function CreateImage(caller: Deps.Caller, s: Store, file: Upload): (r: Result<(Store, nat), HttpError>)
    ensures Deps.Active(caller).Err? ==> r == Err(Deps.Active(caller).error)
    ensures Deps.Active(caller).Ok? && file.contentType.None? ==> r == Err(ServerError)
    ensures Deps.Active(caller).Ok? && file.contentType.Some? ==>
              (r == Err(NotAnImage) <==> !StartsWith(file.contentType.value, ImagePrefix))
    ensures r.Ok? ==> file.contentType.Some? && StartsWith(file.contentType.value, ImagePrefix)
                      && r.value.1 == s.nextId
                      && r.value.0 == CreateWithFile(s, file.filename, file.contentType.value, file.data).0
    ensures Deps.Active(caller).Ok? && file.contentType.Some? && StartsWith(file.contentType.value, ImagePrefix) ==> r.Ok?
  {
    var _ :- Deps.Active(caller);
    match file.contentType
    case None => Err(ServerError)
    case Some(t) =>
      if !StartsWith(t, ImagePrefix) then Err(NotAnImage)
      else
        var (s', m) := CreateWithFile(s, file.filename, t, file.data);
        Ok((s', m.id))
  }

  /** `GET /images/{id}/view`: no caller is resolved; a missing row is 404. */
  function GetImage(s: Store, id: int): (r: Result<View, HttpError>)
    ensures r == Err(NotFound) <==> Get(s, id).None?
    ensures r.Ok? ==> exists m :: m in s.rows && m.id == id && r.value == View(m.data, m.contentType)
    ensures Get(s, id).Some? ==> r == Ok(View(Get(s, id).value.data, Get(s, id).value.contentType))
  {
    match Get(s, id)
    case None => Err(NotFound)
    case Some(m) => Ok(View(m.data, m.contentType))
  }

  /** An accepted upload is viewed back as exactly the uploaded bytes with the uploaded type. */
  lemma UploadThenView(caller: Deps.Caller, s: Store, file: Upload)
    requires Valid(s)
    requires CreateImage(caller, s, file).Ok?
    ensures var (s', id) := CreateImage(caller, s, file).value;
            GetImage(s', id) == Ok(View(file.data, file.contentType.value))
  {
    CreateThenGet(s, file.filename, file.contentType.value, file.data);
  }
}

=== FILE: json.dfy ===
/** A parsed JSON value (RFC 8259) as `json.loads` hands it to Python code. */
module Json {

  /**
   * `JNum` stands for both Python `int` and `float` results; `JObj` is the
   * resulting `dict`, in which a repeated key keeps its last value.
   */
  datatype Value =
    | JNull
    | JBool(b: bool)
    | JNum(n: real)
    | JStr(s: string)
    | JArr(items: seq<Value>)
    | JObj(fields: map<string, Value>)

  /** Python's `float(v)` on a value that `isinstance(v, (int, float))` accepts: `True` is 1.0, `False` is 0.0. */
  function AsFloat(v: Value): (x: real)
    requires v.JNum? || v.JBool?
    ensures v.JNum? ==> x == v.n
    ensures v.JBool? ==> (x == 1.0 <==> v.b) && (x == 0.0 <==> !v.b)
  {
    match v
    case JNum(n) => n
    case JBool(b) => if b then 1.0 else 0.0
  }
}

=== FILE: openrouter.dfy ===
/**
 * `OpenRouterService.analyze_image`: turning the model's reply text into the
 * structured result `{description, conclusions, recommendations, confidence,
 * has_tumor, medical_context}`.
 *
 * `json.loads` is the parameter `parse`; the per-field text clean-up
 * (`_clean_text` followed by `_validate_medical_terms`) is the parameter `clean`.
 */
module OpenRouter {
  import opened Wrappers
  import opened Text
  import opened Json
  import opened Completion

  // ---------------------------------------------------------------------------
  // Markdown fences
  // ---------------------------------------------------------------------------

  /** Drops a leading "```json", then a trailing "```", then the surrounding whitespace. */
  function StripFences(content: string): (r: string)
    ensures |r| <= |content|
    ensures r != [] ==> !IsSpace(r[0]) && !IsSpace(r[|r| - 1])
    ensures !StartsWith(content, "```json") && !EndsWith(content, "```") ==> r == Strip(content)
  {
    var a := if StartsWith(content, "```json") then content[7..] else content;
    var b := if EndsWith(a, "```") then a[..|a| - 3] else a;
    Strip(b)
  }

  /** A fenced reply yields exactly its stripped body. */
  lemma StripFencesOfFenced(body: string)
    ensures StripFences("```json" + body + "```") == Strip(body)
  {
    var s := "```json" + body + "```";
    assert s[..7] == "```json";
    assert s[7..] == body + "```";
    var a := s[7..];
    assert a[|a| - 3..] == "```";
    assert a[..|a| - 3] == body;
  }

  /** A reply with only the opening fence loses the fence and keeps its end. */
  lemma StripFencesOfOpening(body: string)
    requires !EndsWith(body, "```")
    ensures StripFences("```json" + body) == Strip(body)
  {
    var s := "```json" + body;
    assert s[..7] == "```json";
    assert s[7..] == body;
  }

  /** A reply with only the closing fence loses the fence and keeps its start. */
  lemma StripFencesOfClosing(body: string)
    requires !StartsWith(body + "```", "```json")
    ensures StripFences(body + "```") == Strip(body)
  {
    var s := body + "```";
    assert s[|s| - 3..] == "```";
    assert s[..|s| - 3] == body;
  }

  /** An unfenced reply is only stripped. */
  lemma StripFencesOfPlain(content: string)
    requires !StartsWith(content, "```json") && !EndsWith(content, "```")
    ensures StripFences(content) == Strip(content)
  {
  }

  // ---------------------------------------------------------------------------
  // _fix_json
  // ---------------------------------------------------------------------------

  /** `s[i]` is `a`, `s[j]` is `b`, and only whitespace lies between: a match of the regex `a\s*b`. */
  ghost predicate GapMatch(s: string, a: char, b: char, i: int, j: int) {
    0 <= i < j < |s| && s[i] == a && s[j] == b && forall k :: i < k < j ==> IsSpace(s[k])
  }

  ghost predicate HasGap(s: string, a: char, b: char) {
    exists i, j :: GapMatch(s, a, b, i, j)
  }

  /**
   * `re.sub(a + r'\s*' + b, rep, s)` for single non-whitespace characters `a` and `b`:
   * scanning left to right, each match is replaced by `rep` and scanning resumes after it.
   */
  function SubGap(s: string, a: char, b: char, rep: char): (r: string)
    ensures |r| <= |s|
    decreases |s|
  {
    if s == [] then []
    else
      var rest := LStrip(s[1..]);
      if s[0] == a && rest != [] && rest[0] == b then [rep] + SubGap(rest[1..], a, b, rep)
      else [s[0]] + SubGap(s[1..], a, b, rep)
  }

  lemma GapMatchShift(s: string, a: char, b: char, i: int, j: int)
    requires s != []
    ensures GapMatch(s[1..], a, b, i, j) ==> GapMatch(s, a, b, i + 1, j + 1)
    ensures i >= 0 && GapMatch(s, a, b, i + 1, j + 1) ==> GapMatch(s[1..], a, b, i, j)
  {
    if GapMatch(s[1..], a, b, i, j) {
      forall k | i + 1 < k < j + 1 ensures IsSpace(s[k]) {
        assert s[k] == s[1..][k - 1];
      }
    }
    if i >= 0 && GapMatch(s, a, b, i + 1, j + 1) {
      forall k | i < k < j ensures IsSpace(s[1..][k]) {
        assert s[1..][k] == s[k + 1];
      }
    }
  }

  /** Where the scan matches at the front of `s`, the match is a `GapMatch` at index 0. */
  lemma SubGapFrontMatch(s: string, a: char, b: char)
    requires s != [] && s[0] == a
    requires LStrip(s[1..]) != [] && LStrip(s[1..])[0] == b
    ensures GapMatch(s, a, b, 0, |s| - |LStrip(s[1..])|)
  {
    var x := s[1..];
    var p := |x| - |LStrip(x)|;
    assert s[p + 1] == x[p];
    forall k | 0 < k < p + 1 ensures IsSpace(s[k]) {
      assert s[k] == x[k - 1];
    }
  }

  /** A match at the front of `s` is found by the scan. */
  lemma GapMatchAtFront(s: string, a: char, b: char, j: int)
    requires !IsSpace(b)
    requires GapMatch(s, a, b, 0, j)
    ensures LStrip(s[1..]) != [] && LStrip(s[1..])[0] == b
  {
    var x := s[1..];
    var rest := LStrip(x);
    var p := |x| - |rest|;
    assert x[j - 1] == b;
    if p > j - 1 {
      assert false;
    }
    if p < j - 1 {
      assert false;
    }
    assert rest[0] == x[j - 1];
  }

  /** Without a match the substitution changes nothing. */
  lemma {:induction false} SubGapNoMatch(s: string, a: char, b: char, rep: char)
    requires !HasGap(s, a, b)
    ensures SubGap(s, a, b, rep) == s
    decreases |s|
  {
    if s != [] {
      if s[0] == a && LStrip(s[1..]) != [] && LStrip(s[1..])[0] == b {
        FrontMatchHasGap(s, a, b);
        assert false;
      }
      assert !HasGap(s[1..], a, b) by {
        if HasGap(s[1..], a, b) {
          var i, j :| GapMatch(s[1..], a, b, i, j);
          GapMatchShift(s, a, b, i, j);
          assert false;
        }
      }
      SubGapSkip(s, a, b, rep);
      SubGapNoMatch(s[1..], a, b, rep);
      assert s == [s[0]] + s[1..];
    }
  }

  /** Any match, wherever it lies, makes the substitution shorten the text. */
  lemma {:induction false} SubGapMatchShortensAt(s: string, a: char, b: char, rep: char, i: int, j: int)
    requires !IsSpace(b)
    requires GapMatch(s, a, b, i, j)
    ensures |SubGap(s, a, b, rep)| < |s|
    decreases |s|
  {
    FrontOrSkip(s, a, b, rep, i, j);
    if |SubGap(s, a, b, rep)| >= |s| {
      SubGapMatchShortensAt(s[1..], a, b, rep, i - 1, j - 1);
    }
  }

  /** A match is either replaced at the front, or lies wholly after a first character the scan copies. */
  lemma FrontOrSkip(s: string, a: char, b: char, rep: char, i: int, j: int)
    requires !IsSpace(b)
    requires GapMatch(s, a, b, i, j)
    ensures || |SubGap(s, a, b, rep)| < |s|
            || (i > 0 && SubGap(s, a, b, rep) == [s[0]] + SubGap(s[1..], a, b, rep)
                && GapMatch(s[1..], a, b, i - 1, j - 1))
  {
    var rest := LStrip(s[1..]);
    if s[0] == a && rest != [] && rest[0] == b {
      SubGapFrontShortens(s, a, b, rep);
    } else {
      if i == 0 {
        GapMatchAtFront(s, a, b, j);
        assert false;
      }
      GapMatchShift(s, a, b, i - 1, j - 1);
      SubGapSkip(s, a, b, rep);
    }
  }

  /** A match the scan finds at the front is a match of the pattern. */
  lemma FrontMatchHasGap(s: string, a: char, b: char)
    requires s != [] && s[0] == a
    requires LStrip(s[1..]) != [] && LStrip(s[1..])[0] == b
    ensures HasGap(s, a, b)
  {
    SubGapFrontMatch(s, a, b);
    assert GapMatch(s, a, b, 0, |s| - |LStrip(s[1..])|);
  }

  /** Where the scan does not match at the front, the first character is copied. */
  lemma SubGapSkip(s: string, a: char, b: char, rep: char)
    requires s != []
    requires !(s[0] == a && LStrip(s[1..]) != [] && LStrip(s[1..])[0] == b)
    ensures SubGap(s, a, b, rep) == [s[0]] + SubGap(s[1..], a, b, rep)
  {
  }

  /** A match at the front is replaced by one character. */
  lemma SubGapFrontShortens(s: string, a: char, b: char, rep: char)
    requires s != [] && s[0] == a
    requires LStrip(s[1..]) != [] && LStrip(s[1..])[0] == b
    ensures |SubGap(s, a, b, rep)| < |s|
  {
    var rest := LStrip(s[1..]);
    assert SubGap(s, a, b, rep) == [rep] + SubGap(rest[1..], a, b, rep);
  }

  /** With a match the substitution strictly shortens the text. */
  lemma SubGapMatchShortens(s: string, a: char, b: char, rep: char)
    requires !IsSpace(b)
    requires HasGap(s, a, b)
    ensures |SubGap(s, a, b, rep)| < |s|
  {
    var i, j :| GapMatch(s, a, b, i, j);
    SubGapMatchShortensAt(s, a, b, rep, i, j);
  }

  /** The substitution leaves the text unchanged exactly when the pattern does not occur. */
  lemma SubGapUnchangedIff(s: string, a: char, b: char, rep: char)
    requires !IsSpace(b)
    ensures SubGap(s, a, b, rep) == s <==> !HasGap(s, a, b)
  {
    if HasGap(s, a, b) {
      SubGapMatchShortens(s, a, b, rep);
    } else {
      SubGapNoMatch(s, a, b, rep);
    }
  }

  /** `_fix_json`: `}\s*{` becomes `,`, then `,\s*}` becomes `}`, then `,\s*]` becomes `]`. */
  function FixJson(content: string): (r: string)
    ensures |r| <= |content|
  {
    var s1 := SubGap(content, '}', '{', ',');
    var s2 := SubGap(s1, ',', '}', '}');
    SubGap(s2, ',', ']', ']')
  }

  /** Each pass that finds its pattern shortens the text, so a repaired text is strictly shorter. */
  lemma FixJsonShortensOnMatch(content: string)
    ensures var s1 := SubGap(content, '}', '{', ',');
            var s2 := SubGap(s1, ',', '}', '}');
            HasGap(content, '}', '{') || HasGap(s1, ',', '}') || HasGap(s2, ',', ']')
            ==> |FixJson(content)| < |content|
  {
    var s1 := SubGap(content, '}', '{', ',');
    var s2 := SubGap(s1, ',', '}', '}');
    if HasGap(content, '}', '{') {
      SubGapMatchShortens(content, '}', '{', ',');
    }
    if HasGap(s1, ',', '}') {
      SubGapMatchShortens(s1, ',', '}', '}');
    }
    if HasGap(s2, ',', ']') {
      SubGapMatchShortens(s2, ',', ']', ']');
    }
  }

  /** A text in which no pass finds its pattern is returned unchanged. */
  lemma FixJsonUnchangedWithoutMatch(content: string)
    requires !HasGap(content, '}', '{')
    requires !HasGap(content, ',', '}')
    requires !HasGap(content, ',', ']')
    ensures FixJson(content) == content
  {
    SubGapNoMatch(content, '}', '{', ',');
    SubGapNoMatch(content, ',', '}', '}');
    SubGapNoMatch(content, ',', ']', ']');
  }

  /** A text with neither `}` nor `]` (so no pattern can match) is returned unchanged. */
  lemma FixJsonWithoutClosers(content: string)
    requires '}' !in content && ']' !in content
    ensures FixJson(content) == content
  {
    FixJsonUnchangedWithoutMatch(content);
  }

  // ---------------------------------------------------------------------------
  // _validate_json_structure
  // ---------------------------------------------------------------------------

  /** The fields the validator checks, in the order it checks them. */
  datatype Field =
    | HasTumor | Confidence | Explanation
    | VisualDescription | Analysis | Recommendations | MedicalContext
  {
    function Key(): string {
      match this
      case HasTumor => "has_tumor"
      case Confidence => "confidence"
      case Explanation => "explanation"
      case VisualDescription => "visual_description"
      case Analysis => "analysis"
      case Recommendations => "recommendations"
      case MedicalContext => "medical_context"
    }

    /** Position of the check; the first three are top-level keys, the rest live in `explanation`. */
    function Rank(): nat {
      match this
      case HasTumor => 0
      case Confidence => 1
      case Explanation => 2
      case VisualDescription => 3
      case Analysis => 4
      case Recommendations => 5
      case MedicalContext => 6
    }

    predicate InExplanation() { Rank() >= 3 }

    /** `isinstance(v, t)` for the type the source requires; a Python `bool` is also an `int`. */
    predicate Accepts(v: Value) {
      match this
      case HasTumor => v.JBool?
      case Confidence => v.JNum? || v.JBool?
      case Explanation => v.JObj?
      case _ => v.JStr?
    }
  }

  const CheckOrder: seq<Field> :=
    [HasTumor, Confidence, Explanation, VisualDescription, Analysis, Recommendations, MedicalContext]

  /** The object a check looks into: the top level, or the `explanation` object. */
  function Scope(d: map<string, Value>, f: Field): Option<map<string, Value>> {
    if !f.InExplanation() then Some(d)
    else if "explanation" in d && d["explanation"].JObj? then Some(d["explanation"].fields)
    else None
  }

  /** The key of `f` is present where the validator looks for it. */
  predicate Present(d: map<string, Value>, f: Field) {
    var scope := Scope(d, f);
    scope.Some? && f.Key() in scope.value
  }

  /** Check `f` passes on the top-level object `d`. */
  predicate Passes(d: map<string, Value>, f: Field) {
    var scope := Scope(d, f);
    scope.Some? && f.Key() in scope.value && f.Accepts(scope.value[f.Key()])
  }

  /** The structure the validator accepts, stated field by field. */
  ghost predicate WellFormed(v: Value) {
    && v.JObj?
    && "has_tumor" in v.fields && v.fields["has_tumor"].JBool?
    && "confidence" in v.fields && (v.fields["confidence"].JNum? || v.fields["confidence"].JBool?)
    && "explanation" in v.fields && v.fields["explanation"].JObj?
    && var e := v.fields["explanation"].fields;
       && "visual_description" in e && e["visual_description"].JStr?
       && "analysis" in e && e["analysis"].JStr?
       && "recommendations" in e && e["recommendations"].JStr?
       && "medical_context" in e && e["medical_context"].JStr?
  }

  /** Why validation failed: the value is not an object, or a field is absent or of the wrong type. */
  datatype Problem = NotAnObject | Missing(field: Field) | WrongType(field: Field)

  /** The first field of `fs` whose check fails on `d`, if any. */
  function FirstFailing(d: map<string, Value>, fs: seq<Field>): (r: Option<nat>)
    ensures r.Some? ==> r.value < |fs| && !Passes(d, fs[r.value])
                        && forall k :: 0 <= k < r.value ==> Passes(d, fs[k])
    ensures r.None? ==> forall k :: 0 <= k < |fs| ==> Passes(d, fs[k])
  {
    if fs == [] then None
    else if !Passes(d, fs[0]) then Some(0)
    else
      match FirstFailing(d, fs[1..])
      case None => None
      case Some(k) => Some(k + 1)
  }

  /** `_validate_json_structure`: `None` when the value passes, otherwise the first problem. */
  function ValidateStructure(data: Value): (r: Option<Problem>)
    ensures r.None? <==> WellFormed(data)
    ensures r == Some(NotAnObject) <==> !data.JObj?
    ensures r.Some? && data.JObj? ==>
              && r.value != NotAnObject
              && !Passes(data.fields, r.value.field)
              && forall g: Field :: g.Rank() < r.value.field.Rank() ==> Passes(data.fields, g)
    ensures r.Some? && r.value.Missing? ==>
              data.JObj? && !Present(data.fields, r.value.field)
    ensures r.Some? && r.value.WrongType? ==>
              data.JObj? && Present(data.fields, r.value.field)
  {
    if !data.JObj? then Some(NotAnObject)
    else
      var d := data.fields;
      match FirstFailing(d, CheckOrder)
      case None =>
        assert forall k :: 0 <= k < |CheckOrder| ==> Passes(d, CheckOrder[k]);
        assert Passes(d, CheckOrder[2]) && Passes(d, CheckOrder[3]) && Passes(d, CheckOrder[4]);
        assert Passes(d, CheckOrder[0]) && Passes(d, CheckOrder[1]);
        assert Passes(d, CheckOrder[5]) && Passes(d, CheckOrder[6]);
        None
      case Some(k) =>
        var f := CheckOrder[k];
        assert forall g: Field :: g.Rank() < f.Rank() ==> Passes(d, g) by {
          forall g: Field | g.Rank() < f.Rank() ensures Passes(d, g) {
            assert CheckOrder[g.Rank()] == g;
          }
        }
        assert !WellFormed(data) by {
          if WellFormed(data) {
            assert Passes(d, f);
          }
        }
        assert f.InExplanation() ==> Passes(d, Explanation);
        if Present(d, f) then Some(WrongType(f)) else Some(Missing(f))
  }

  lemma {:induction false} FirstFailingCongruent(d: map<string, Value>, d': map<string, Value>, fs: seq<Field>)
    requires forall f: Field :: Passes(d, f) == Passes(d', f)
    ensures FirstFailing(d, fs) == FirstFailing(d', fs)
  {
    if fs != [] {
      FirstFailingCongruent(d, d', fs[1..]);
    }
  }

  /** Keys the validator does not look at have no influence on its verdict. */
  lemma ExtraKeysIgnored(d: map<string, Value>, k: string, v: Value)
    requires k != "has_tumor" && k != "confidence" && k != "explanation"
    ensures ValidateStructure(JObj(d[k := v])) == ValidateStructure(JObj(d))
  {
    var d' := d[k := v];
    forall f: Field ensures Passes(d', f) == Passes(d, f) && Present(d', f) == Present(d, f) {
      assert Scope(d', f) == Scope(d, f) || !f.InExplanation();
    }
    FirstFailingCongruent(d, d', CheckOrder);
  }

  /** `confidence` is never range-checked: any number passes. */
  lemma AnyConfidencePasses(d: map<string, Value>, x: real)
    requires WellFormed(JObj(d))
    ensures ValidateStructure(JObj(d["confidence" := JNum(x)])).None?
  {
  }

  /** A missing `has_tumor` is reported first, whatever else is wrong. */
  lemma MissingHasTumorReportedFirst(d: map<string, Value>)
    requires "has_tumor" !in d
    ensures ValidateStructure(JObj(d)) == Some(Missing(HasTumor))
  {
    assert !Passes(d, HasTumor);
  }

  // ---------------------------------------------------------------------------
  // The final result
  // ---------------------------------------------------------------------------

  /** Every string in `explanation` is passed through the clean-up; other values stay. */
  function CleanExplanation(e: map<string, Value>, clean: string -> string): (r: map<string, Value>)
    ensures r.Keys == e.Keys
    ensures forall k :: k in e && e[k].JStr? ==> r[k] == JStr(clean(e[k].s))
    ensures forall k :: k in e && !e[k].JStr? ==> r[k] == e[k]
  {
    map k | k in e :: if e[k].JStr? then JStr(clean(e[k].s)) else e[k]
  }

  const ResultKeys: set<string> :=
    {"description", "conclusions", "recommendations", "confidence", "has_tumor", "medical_context"}

  /** The schema of the structured analysis result: four texts, a number and a flag. */
  ghost predicate IsStructuredResult(r: map<string, Value>) {
    && r.Keys == ResultKeys
    && r["description"].JStr? && r["conclusions"].JStr? && r["recommendations"].JStr?
    && r["medical_context"].JStr? && r["confidence"].JNum? && r["has_tumor"].JBool?
  }

  /** The validated reply flattened into the six-key result, each explanation text cleaned. */
  function FinalResult(data: Value, clean: string -> string): (r: map<string, Value>)
    requires WellFormed(data)
    ensures IsStructuredResult(r)
    ensures var e := data.fields["explanation"].fields;
            && r["description"] == JStr(clean(e["visual_description"].s))
            && r["conclusions"] == JStr(clean(e["analysis"].s))
            && r["recommendations"] == JStr(clean(e["recommendations"].s))
            && r["medical_context"] == JStr(clean(e["medical_context"].s))
            && r["confidence"] == JNum(AsFloat(data.fields["confidence"]))
            && r["has_tumor"] == data.fields["has_tumor"]
  {
    var e := CleanExplanation(data.fields["explanation"].fields, clean);
    map[
      "description" := e["visual_description"],
      "conclusions" := e["analysis"],
      "recommendations" := e["recommendations"],
      "confidence" := JNum(AsFloat(data.fields["confidence"])),
      "has_tumor" := JBool(data.fields["has_tumor"].b),
      "medical_context" := e["medical_context"]
    ]
  }

  // ---------------------------------------------------------------------------
  // analyze_image
  // ---------------------------------------------------------------------------

  /** Every failure of `analyze_image` is re-raised as a `ValueError` carrying one of these causes. */
  datatype ValueError =
    | RequestError
    | EmptyChoices
    | MalformedReply
    | InvalidJson
    | InvalidStructure(problem: Problem)

  /** The reply text of the first choice, or the error reading it raises. */
  function ReplyContent(reply: Reply): (r: Result<string, ValueError>)
    ensures reply.RequestFailed? ==> r == Err(RequestError)
    ensures r == Err(EmptyChoices) <==> reply.Reply? && (reply.choices == None || reply.choices == Some([]))
    ensures r.Ok? <==> reply.Reply? && reply.choices.Some? && |reply.choices.value| > 0
                       && reply.choices.value[0].message.Some?
                       && reply.choices.value[0].message.value.content.Some?
  {
    match reply
    case RequestFailed => Err(RequestError)
    case Reply(choices) =>
      if choices.None? || choices.value == [] then Err(EmptyChoices)
      else
        match choices.value[0].message
        case None => Err(MalformedReply)
        case Some(m) => if m.content.None? then Err(MalformedReply) else Ok(m.content.value)
  }

  /** The decoding pipeline on the reply text: fences, repair, parse, validate, flatten. */
  function Decode(content: string, parse: string -> Option<Value>, clean: string -> string)
    : (r: Result<map<string, Value>, ValueError>)
    ensures r.Ok? ==> IsStructuredResult(r.value)
    ensures r == Err(InvalidJson) <==> parse(FixJson(StripFences(content))).None?
    ensures r.Ok? <==> match parse(FixJson(StripFences(content)))
                       case None => false
                       case Some(v) => WellFormed(v)
    ensures r.Err? ==> r.error.InvalidJson? || r.error.InvalidStructure?
    ensures r.Ok? ==> var p := parse(FixJson(StripFences(content)));
                      p.Some? && WellFormed(p.value) && r.value == FinalResult(p.value, clean)
    ensures var p := parse(FixJson(StripFences(content)));
            p.Some? && ValidateStructure(p.value).Some? ==> r == Err(InvalidStructure(ValidateStructure(p.value).value))
  {
    match parse(FixJson(StripFences(content)))
    case None => Err(InvalidJson)
    case Some(v) =>
      match ValidateStructure(v)
      case Some(p) => Err(InvalidStructure(p))
      case None => Ok(FinalResult(v, clean))
  }

  /** `analyze_image` after the HTTP call. */
  function AnalyzeImage(reply: Reply, parse: string -> Option<Value>, clean: string -> string)
    : (r: Result<map<string, Value>, ValueError>)
    ensures r.Ok? ==> IsStructuredResult(r.value)
    ensures ReplyContent(reply).Err? ==> r == Err(ReplyContent(reply).error)
    ensures ReplyContent(reply).Ok? ==> r == Decode(ReplyContent(reply).value, parse, clean)
  {
    var content :- ReplyContent(reply);
    Decode(content, parse, clean)
  }

  /** A fenced, well-formed reply is accepted and its texts and numbers reach the result. */
  lemma FencedReplyAccepted(body: string, v: Value, parse: string -> Option<Value>, clean: string -> string)
    requires parse(FixJson(Strip(body))) == Some(v)
    requires WellFormed(v)
    ensures var r := Decode("```json" + body + "```", parse, clean);
            && r.Ok?
            && r.value["has_tumor"] == v.fields["has_tumor"]
            && r.value["confidence"] == JNum(AsFloat(v.fields["confidence"]))
            && var e := v.fields["explanation"].fields;
            && r.value["description"] == JStr(clean(e["visual_description"].s))
            && r.value["conclusions"] == JStr(clean(e["analysis"].s))
            && r.value["recommendations"] == JStr(clean(e["recommendations"].s))
            && r.value["medical_context"] == JStr(clean(e["medical_context"].s))
  {
    StripFencesOfFenced(body);
  }
}

=== FILE: patients.dfy ===
/**
 * The patient table, `CRUDPatient.get_multi_with_search`, and the five routes of
 * the patients router. Every route first resolves an active user; a route that
 * changes the table returns the new table with its response.
 */
module Patients {
  import opened Wrappers
  import opened Text
  import opened Rows
  import Deps

  /** A row of `patients`; the birth date is a day number. */
  datatype Patient = Patient(id: nat, fullName: string, birthDate: int, externalId: Option<string>)

  /** `PatientCreate`. */
  datatype NewPatient = NewPatient(fullName: string, birthDate: int, externalId: Option<string>)

  /** `PatientUpdate` with `exclude_unset`: an unset `external_id` is `None` and keeps the stored one. */
  datatype PatientPatch = PatientPatch(fullName: string, birthDate: int, externalId: Option<Option<string>>)

  datatype Store = Store(rows: seq<Patient>, nextId: nat)

  /** Ids are unique and below the counter. */
  ghost predicate Valid(s: Store) {
    && (forall i :: 0 <= i < |s.rows| ==> s.rows[i].id < s.nextId)
    && (forall i, j :: 0 <= i < j < |s.rows| ==> s.rows[i].id != s.rows[j].id)
  }

  /** "Пациент не найден". */
  const NotFound := HttpError(404, "\U{041f}\U{0430}\U{0446}\U{0438}\U{0435}\U{043d}\U{0442} \U{043d}\U{0435} \U{043d}\U{0430}\U{0439}\U{0434}\U{0435}\U{043d}")
  /** A query parameter outside its declared bounds. */
  const InvalidQuery := HttpError(422, "Unprocessable Entity")
  /** The bounds of `limit` declared on the listing route. */
  const MaxLimit: nat := 100

  // ---------------------------------------------------------------------------
  // The table
  // ---------------------------------------------------------------------------

  function PatientId(p: Patient): int { p.id }

  function IdIs(id: int): Patient -> bool {
    HasId(PatientId, id)
  }

  /** `get`: the row whose id is `id`. */
  function Get(s: Store, id: int): Option<Patient> {
    GetById(s.rows, PatientId, id)
  }

  /** In a valid table the row at `k` is the one found by its id. */
  lemma FindsOwnRow(s: Store, k: nat)
    requires Valid(s) && k < |s.rows|
    ensures Get(s, s.rows[k].id) == Some(s.rows[k])
  {
    assert PatientId(s.rows[k]) == s.rows[k].id;
    assert IdIs(s.rows[k].id)(s.rows[k]);
  }

  /** `create`: a new row with the next id holding the input's fields. */
  function Create(s: Store, obj: NewPatient): (r: (Store, Patient))
    ensures r.1 == Patient(s.nextId, obj.fullName, obj.birthDate, obj.externalId)
    ensures r.0 == Store(s.rows + [r.1], s.nextId + 1)
  {
    var p := Patient(s.nextId, obj.fullName, obj.birthDate, obj.externalId);
    (Store(s.rows + [p], s.nextId + 1), p)
  }

  /** `update`: the fields the request set, the others kept. */
  function Apply(p: Patient, patch: PatientPatch): (r: Patient)
    ensures r.id == p.id && r.fullName == patch.fullName && r.birthDate == patch.birthDate
    ensures r.externalId == patch.externalId.GetOr(p.externalId)
  {
    p.(fullName := patch.fullName, birthDate := patch.birthDate, externalId := patch.externalId.GetOr(p.externalId))
  }

  /** The rows with the id of `p` overwritten by `p`. */
  function Put(s: Store, p: Patient): (r: Store)
    ensures r.nextId == s.nextId && |r.rows| == |s.rows|
    ensures forall i :: 0 <= i < |s.rows| ==> r.rows[i] == (if s.rows[i].id == p.id then p else s.rows[i])
  {
    Store(seq(|s.rows|, i requires 0 <= i < |s.rows| => if s.rows[i].id == p.id then p else s.rows[i]), s.nextId)
  }

  /** `remove`: the table without the row whose id is `id`. */
  function Remove(s: Store, id: int): (r: Store)
    ensures r.nextId == s.nextId
    ensures forall x :: x in r.rows <==> x in s.rows && x.id != id
  {
    var keep := (p: Patient) => p.id != id;
    forall x ensures x in Select(s.rows, keep) <==> x in s.rows && x.id != id {
      SelectMembers(s.rows, keep, x);
    }
    Store(Select(s.rows, keep), s.nextId)
  }

  // ---------------------------------------------------------------------------
  // get_multi_with_search
  // ---------------------------------------------------------------------------

  /** `full_name ILIKE '%term%' OR external_id ILIKE '%term%'`; a NULL external id never matches. */
  function Matches(term: string): (r: Patient -> bool)
    ensures forall p: Patient :: r(p) <==> ContainsCI(p.fullName, term) || (p.externalId.Some? && ContainsCI(p.externalId.value, term))
    ensures forall p: Patient :: Contains(p.fullName, term) ==> r(p)
    ensures forall p: Patient :: p.externalId.None? ==> (r(p) <==> ContainsCI(p.fullName, term))
    ensures term == [] ==> forall p: Patient :: r(p)
  {
    assert forall t :: Contains(t, term) ==> ContainsCI(t, term) by {
      forall t | Contains(t, term) ensures ContainsCI(t, term) {
        ContainsIsContainsCI(t, term);
      }
    }
    (p: Patient) => ContainsCI(p.fullName, term) || (p.externalId.Some? && ContainsCI(p.externalId.value, term))
  }

  /** `get_multi_with_search`: a missing or empty search filters nothing; the result is one page. */
  function Search(s: Store, skip: nat, limit: nat, search: Option<string>): (r: seq<Patient>)
    ensures search.None? || search == Some("") ==> r == Page(s.rows, skip, limit)
    ensures search.Some? && search.value != "" ==> r == Page(Select(s.rows, Matches(search.value)), skip, limit)
    ensures |r| <= limit
    ensures forall i :: 0 <= i < |r| ==> r[i] in s.rows
    ensures search.Some? && search.value != "" ==>
              forall i :: 0 <= i < |r| ==>
                (ContainsCI(r[i].fullName, search.value)
                 || (r[i].externalId.Some? && ContainsCI(r[i].externalId.value, search.value)))
  {
    if search.None? || search.value == "" then Page(s.rows, skip, limit)
    else
      var hits := Select(s.rows, Matches(search.value));
      var r := Page(hits, skip, limit);
      assert forall i :: 0 <= i < |r| ==> r[i] in hits && Matches(search.value)(r[i]) by {
        forall i | 0 <= i < |r| ensures r[i] in hits && Matches(search.value)(r[i]) {
          assert r[i] == hits[skip + i];
          SelectMembers(s.rows, Matches(search.value), r[i]);
        }
      }
      forall i | 0 <= i < |r| ensures r[i] in s.rows {
        SelectMembers(s.rows, Matches(search.value), r[i]);
      }
      r
  }

  /** A page at least as long as the table, read from the start, holds exactly the matching patients. */
  lemma {:induction false} SearchFindsAll(s: Store, term: string, limit: nat, x: Patient)
    requires term != "" && |s.rows| <= limit
    ensures x in Search(s, 0, limit, Some(term)) <==> x in s.rows && Matches(term)(x)
  {
    var hits := Select(s.rows, Matches(term));
    assert Page(hits, 0, limit) == hits;
    SelectMembers(s.rows, Matches(term), x);
  }

  /** Consecutive pages of one search join into the longer page: paging skips and repeats nothing. */
  lemma SearchPagesJoin(s: Store, search: Option<string>, skip: nat, a: nat, b: nat)
    ensures Search(s, skip, a, search) + Search(s, skip + a, b, search) == Search(s, skip, a + b, search)
  {
    if search.None? || search.value == "" {
      PagesJoin(s.rows, skip, a, b);
    } else {
      PagesJoin(Select(s.rows, Matches(search.value)), skip, a, b);
    }
  }

  // ---------------------------------------------------------------------------
  // Routes
  // ---------------------------------------------------------------------------

  /** `GET /patients/`: `skip >= 0` and `1 <= limit <= 100` are checked after the caller is resolved. */
  function ReadPatients(caller: Deps.Caller, s: Store, skip: int, limit: int, search: Option<string>)
    : (r: Result<seq<Patient>, HttpError>)
    ensures Deps.Active(caller).Err? ==> r == Err(Deps.Active(caller).error)
    ensures Deps.Active(caller).Ok? ==> (r == Err(InvalidQuery) <==> !(0 <= skip && 1 <= limit <= MaxLimit))
    ensures r.Ok? ==> 0 <= skip && 1 <= limit && r.value == Search(s, skip, limit, search) && |r.value| <= MaxLimit
    ensures Deps.Active(caller).Ok? && 0 <= skip && 1 <= limit <= MaxLimit ==> r == Ok(Search(s, skip, limit, search))
  {
    var _ :- Deps.Active(caller);
    if !(0 <= skip && 1 <= limit <= MaxLimit) then Err(InvalidQuery)
    else Ok(Search(s, skip, limit, search))
  }

  /** `POST /patients/`. */
  function CreatePatient(caller: Deps.Caller, s: Store, obj: NewPatient): (r: Result<(Store, Patient), HttpError>)
    ensures Deps.Active(caller).Err? ==> r == Err(Deps.Active(caller).error)
    ensures Deps.Active(caller).Ok? ==> r == Ok(Create(s, obj))
  {
    var _ :- Deps.Active(caller);
    Ok(Create(s, obj))
  }

  /** `GET /patients/{id}`: 404 for a missing row. */
  function ReadPatient(caller: Deps.Caller, s: Store, id: int): (r: Result<Patient, HttpError>)
    ensures Deps.Active(caller).Err? ==> r == Err(Deps.Active(caller).error)
    ensures Deps.Active(caller).Ok? ==> (r == Err(NotFound) <==> Get(s, id).None?)
    ensures r.Ok? ==> r.value in s.rows && r.value.id == id
    ensures Deps.Active(caller).Ok? && Get(s, id).Some? ==> r == Ok(Get(s, id).value)
  {
    var _ :- Deps.Active(caller);
    match Get(s, id)
    case None => Err(NotFound)
    case Some(p) => Ok(p)
  }

  /** `PUT /patients/{id}`: 404 and no write for a missing row; otherwise the row is overwritten. */
  function UpdatePatient(caller: Deps.Caller, s: Store, id: int, patch: PatientPatch)
    : (r: Result<(Store, Patient), HttpError>)
    ensures Deps.Active(caller).Err? ==> r == Err(Deps.Active(caller).error)
    ensures Deps.Active(caller).Ok? ==> (r == Err(NotFound) <==> Get(s, id).None?)
    ensures r.Ok? ==> Get(s, id).Some? && r.value == (Put(s, Apply(Get(s, id).value, patch)), Apply(Get(s, id).value, patch))
    ensures Deps.Active(caller).Ok? && Get(s, id).Some? ==> r.Ok?
  {
    var _ :- Deps.Active(caller);
    match Get(s, id)
    case None => Err(NotFound)
    case Some(p) => var q := Apply(p, patch); Ok((Put(s, q), q))
  }

  /** `DELETE /patients/{id}`: 404 for a missing row; otherwise the row is removed and returned. */
  function DeletePatient(caller: Deps.Caller, s: Store, id: int): (r: Result<(Store, Patient), HttpError>)
    ensures Deps.Active(caller).Err? ==> r == Err(Deps.Active(caller).error)
    ensures Deps.Active(caller).Ok? ==> (r == Err(NotFound) <==> Get(s, id).None?)
    ensures r.Ok? ==> r.value.1 in s.rows && r.value.1.id == id && r.value.1 !in r.value.0.rows
    ensures r.Ok? ==> forall x :: x in s.rows && x.id != id ==> x in r.value.0.rows
    ensures r.Ok? ==> r.value == (Remove(s, id), Get(s, id).value)
    ensures Deps.Active(caller).Ok? && Get(s, id).Some? ==> r.Ok?
  {
    var _ :- Deps.Active(caller);
    match Get(s, id)
    case None => Err(NotFound)
    case Some(p) => Ok((Remove(s, id), p))
  }

  /** A created patient is read back by its id, and the table stays valid. */
  lemma CreateThenRead(caller: Deps.Caller, s: Store, obj: NewPatient)
    requires Valid(s) && Deps.Active(caller).Ok?
    ensures var (s', p) := CreatePatient(caller, s, obj).value;
            Valid(s') && ReadPatient(caller, s', p.id) == Ok(p)
  {
    var (s', p) := Create(s, obj);
    FindsOwnRow(s', |s.rows|);
  }

  /** An updated patient is read back with the new fields; the table stays valid. */
  lemma UpdateThenRead(caller: Deps.Caller, s: Store, id: int, patch: PatientPatch)
    requires Valid(s) && UpdatePatient(caller, s, id, patch).Ok?
    ensures var (s', q) := UpdatePatient(caller, s, id, patch).value;
            Valid(s') && ReadPatient(caller, s', id) == Ok(q)
  {
    var p := Get(s, id).value;
    var k :| 0 <= k < |s.rows| && s.rows[k] == p;
    var s' := Put(s, Apply(p, patch));
    assert s'.rows[k] == Apply(p, patch);
    assert Valid(s') by {
      forall i, j | 0 <= i < j < |s'.rows| ensures s'.rows[i].id != s'.rows[j].id {
        assert s.rows[i].id != s.rows[j].id;
      }
    }
    FindsOwnRow(s', k);
  }

  /** A deleted patient is gone: reading it afterwards is a 404. */
  lemma DeleteThenRead(caller: Deps.Caller, s: Store, id: int)
    requires Valid(s) && DeletePatient(caller, s, id).Ok?
    ensures ReadPatient(caller, DeletePatient(caller, s, id).value.0, id) == Err(NotFound)
  {
    var s' := DeletePatient(caller, s, id).value.0;
    forall i | 0 <= i < |s'.rows| ensures s'.rows[i].id != id {
      assert s'.rows[i] in s'.rows;
    }
  }

  /** A caller that is not an active user is refused by every patient route with the resolver's error. */
  lemma RoutesNeedActiveUser(caller: Deps.Caller, s: Store, skip: int, limit: int, search: Option<string>,
                             obj: NewPatient, id: int, patch: PatientPatch)
    requires Deps.Active(caller).Err?
    ensures var e := Deps.Active(caller).error;
            ReadPatients(caller, s, skip, limit, search) == Err(e)
            && CreatePatient(caller, s, obj) == Err(e)
            && ReadPatient(caller, s, id) == Err(e)
            && UpdatePatient(caller, s, id, patch) == Err(e)
            && DeletePatient(caller, s, id) == Err(e)
  {
  }
}

=== FILE: predictions.dfy ===
/**
 * The prediction table: `CRUDPrediction.create` and `get_multi_by_user`.
 */
module Predictions {
  import opened Rows

  /** A row of `predictions`; the creation timestamp is not kept. */
  datatype Prediction = Prediction(id: nat, userId: nat, imagePath: string, result: real, confidence: real)

  /** `PredictionCreate`. */
  datatype NewPrediction = NewPrediction(userId: nat, imagePath: string, result: real, confidence: real)

  datatype Store = Store(rows: seq<Prediction>, nextId: nat)

  /** `create`: one new row holding every field of the input unchanged. */
  function Create(s: Store, obj: NewPrediction): (r: (Store, Prediction))
    ensures r.1.id == s.nextId && r.1.userId == obj.userId && r.1.imagePath == obj.imagePath
    ensures r.1.result == obj.result && r.1.confidence == obj.confidence
    ensures r.0.rows == s.rows + [r.1] && r.0.nextId == s.nextId + 1
  {
    var p := Prediction(s.nextId, obj.userId, obj.imagePath, obj.result, obj.confidence);
    (Store(s.rows + [p], s.nextId + 1), p)
  }

  /** The rows of one user: those whose `user_id` is `userId`. */
  function OwnedBy(userId: int): (r: Prediction -> bool)
    ensures forall p: Prediction :: r(p) <==> p.userId == userId
  {
    (p: Prediction) => p.userId == userId
  }

  /** `get_multi_by_user`: one page of the user's own rows, in table order. */
  function GetMultiByUser(s: Store, userId: int, skip: nat, limit: nat): (r: seq<Prediction>)
    ensures r == Page(Select(s.rows, OwnedBy(userId)), skip, limit)
    ensures |r| <= limit
    ensures forall i :: 0 <= i < |r| ==> r[i].userId == userId && r[i] in s.rows
  {
    var own := Select(s.rows, OwnedBy(userId));
    var r := Page(own, skip, limit);
    forall i | 0 <= i < |r| ensures r[i].userId == userId && r[i] in s.rows {
      assert OwnedBy(userId)(own[skip + i]);
      SelectMembers(s.rows, OwnedBy(userId), r[i]);
    }
    r
  }

  /** Read from the start with a limit no smaller than the table, the listing holds exactly the user's rows. */
  lemma {:induction false} ListsAllOwn(s: Store, userId: int, limit: nat, x: Prediction)
    requires |s.rows| <= limit
    ensures x in GetMultiByUser(s, userId, 0, limit) <==> x in s.rows && x.userId == userId
  {
    var own := Select(s.rows, OwnedBy(userId));
    assert Page(own, 0, limit) == own;
    SelectMembers(s.rows, OwnedBy(userId), x);
  }

  /** A row created for a user is listed for that user and for no other. */
  lemma CreatedIsListed(s: Store, obj: NewPrediction, other: int, limit: nat)
    requires |s.rows| < limit
    ensures var (s', p) := Create(s, obj);
            p in GetMultiByUser(s', obj.userId, 0, limit)
            && (other != obj.userId ==> p !in GetMultiByUser(s', other, 0, limit))
  {
    var (s', p) := Create(s, obj);
    ListsAllOwn(s', obj.userId, limit, p);
    ListsAllOwn(s', other, limit, p);
  }

  /** Consecutive pages of a user's listing join into the longer page. */
  lemma ListingPagesJoin(s: Store, userId: int, skip: nat, a: nat, b: nat)
    ensures GetMultiByUser(s, userId, skip, a) + GetMultiByUser(s, userId, skip + a, b)
            == GetMultiByUser(s, userId, skip, a + b)
  {
    PagesJoin(Select(s.rows, OwnedBy(userId)), skip, a, b);
  }
}

=== FILE: qwen.dfy ===
/**
 * `QwenService.analyze_image`: cutting a JSON object out of the model's reply,
 * repairing and normalizing it, parsing it, cleaning its texts, and returning
 * `{description, conclusions, recommendations, confidence}`.
 *
 * `json.loads` is the parameter `parse`. The HTML report the source builds is
 * discarded by it, so only the key and type accesses it makes are kept.
 */
module Qwen {
  import opened Wrappers
  import opened Text
  import opened Json
  import opened Completion

  /** Why `analyze_image` raised; every cause is re-raised as a generic exception. */
  datatype Failure =
    | ReadFailed(cause: ReadFailure)
    | NoJson
    | InvalidJson
    | MissingKey(key: string)
    | WrongType(key: string)

  /** Removes every "```json", then every "```", then the surrounding whitespace. */
  function RemoveFences(content: string): (r: string)
    ensures |r| <= |content|
    ensures r != [] ==> !IsSpace(r[0]) && !IsSpace(r[|r| - 1])
    ensures '`' !in content ==> r == Strip(content)
  {
    if '`' in content then
      Strip(ReplaceAll(ReplaceAll(content, "```json", ""), "```", ""))
    else
      ReplaceAllWithoutHead(content, "```json", "");
      ReplaceAllWithoutHead(content, "```", "");
      Strip(ReplaceAll(ReplaceAll(content, "```json", ""), "```", ""))
  }

  /** The first pass removes the opening fence and nothing from a body without backticks. */
  lemma OpeningFenceRemoved(body: string)
    requires '`' !in body
    ensures ReplaceAll("```json" + body + "```", "```json", "") == body + "```"
  {
    var open, fence := "```json", "```";
    assert open + body + fence == open + (body + fence);
    ReplaceAllHead(open, body + fence, "");
    ReplaceAllSkips(body, fence, open, "");
    assert ReplaceAll(fence, open, "") == fence;
  }

  /** The second pass removes the closing fence. */
  lemma ClosingFenceRemoved(body: string)
    requires '`' !in body
    ensures ReplaceAll(body + "```", "```", "") == body
  {
    var fence := "```";
    ReplaceAllSkips(body, fence, fence, "");
    assert fence == fence + [];
    ReplaceAllHead(fence, [], "");
  }

  /** A fenced reply whose body has no backtick yields its stripped body. */
  lemma RemoveFencesOfFenced(body: string)
    requires '`' !in body
    ensures RemoveFences("```json" + body + "```") == Strip(body)
  {
    var s := "```json" + body + "```";
    assert s[0] == '`';
    OpeningFenceRemoved(body);
    ClosingFenceRemoved(body);
  }

  /** The text before the first occurrence of `c` does not hold `c`. */
  lemma BeforeFirst(s: string, c: char)
    requires Find(s, [c]).Some?
    ensures s[Find(s, [c]).value] == c && c !in s[..Find(s, [c]).value]
  {
    var n := Find(s, [c]).value;
    FindChar(s, c);
    forall j | 0 <= j < n ensures s[j] != c {
      OccursChar(s, c, j);
    }
  }

  /** `c` is a piece of `content` with no `{` before it and no `}` after it. */
  ghost predicate OuterSlice(content: string, c: string) {
    exists i :: 0 <= i <= |content| - |c| && c == content[i..i + |c|]
                && '{' !in content[..i] && '}' !in content[i + |c|..]
  }

  /** Both braces occur, and every `}` comes before every `{`. */
  ghost predicate BracesReversed(content: string) {
    && '{' in content && '}' in content
    && forall i, j :: 0 <= i < |content| && 0 <= j < |content| && content[i] == '}' && content[j] == '{' ==> i < j
  }

  /**
   * `content[content.find('{') : content.rfind('}') + 1]`, or `NoJson` when
   * either brace is missing. Python slicing yields "" when the last `}` comes
   * before the first `{`.
   */
  function JsonCandidate(content: string): (r: Result<string, Failure>)
    ensures r.Err? ==> r == Err(NoJson)
    ensures r == Err(NoJson) <==> '{' !in content || '}' !in content
    ensures r.Ok? && r.value != [] ==> r.value[0] == '{' && r.value[|r.value| - 1] == '}'
    ensures r.Ok? && r.value != [] ==> OuterSlice(content, r.value)
    ensures r == Ok([]) <==> BracesReversed(content)
  {
    var start := Find(content, "{");
    var end := RFindChar(content, '}');
    FindChar(content, '{');
    assert end.None? <==> '}' !in content by {
      if end.Some? {
        assert content[end.value] in content;
      }
    }
    if start.None? || end.None? then Err(NoJson)
    else
      BeforeFirst(content, '{');
      var tail := content[end.value + 1..];
      assert '}' !in tail by {
        forall k | 0 <= k < |tail| ensures tail[k] != '}' {
          assert tail[k] == content[end.value + 1 + k];
        }
      }
      if start.value <= end.value then
        var r := content[start.value..end.value + 1];
        assert r == content[start.value..start.value + |r|] && content[start.value + |r|..] == content[end.value + 1..];
        Ok(r)
      else
        Ok([])
  }

  /** An object whose braces enclose the whole text is cut out whole. */
  lemma CandidateOfObject(body: string)
    requires '{' !in body && '}' !in body
    ensures JsonCandidate("{" + body + "}") == Ok("{" + body + "}")
  {
    var s := "{" + body + "}";
    OccursChar(s, '{', 0);
    assert Find(s, "{") == Some(0);
    assert s[|s| - 1] == '}';
    assert RFindChar(s, '}') == Some(|s| - 1);
    assert s[0..|s|] == s;
  }

  /** The line-break characters the first clean-up keeps. */
  predicate KeptControl(c: char) {
    c >= ' ' || c == '\n' || c == '\r' || c == '\t'
  }

  /** `ord(c) >= 32`. */
  predicate Printable(c: char) {
    c >= ' '
  }

  const ObjectBreak: string := "}\n    \""
  const ObjectBreakFixed: string := "},\n    \""
  const StringBreak: string := "\"\n    \""
  const StringBreakFixed: string := "\",\n    \""

  /**
   * Lines 107-117: drop control characters except line breaks and tabs, add the
   * comma missing between an object or a string and the next key, turn line
   * breaks into spaces, and collapse whitespace runs. What comes out has single
   * spaces between words and no character below `' '`.
   */
  function Normalize(candidate: string): (r: string)
    ensures Normalized(r)
    ensures forall c :: c in r ==> Printable(c)
  {
    var kept := Filter(KeptControl, candidate);
    var commas := ReplaceAll(ReplaceAll(kept, ObjectBreak, ObjectBreakFixed), StringBreak, StringBreakFixed);
    var flat := ReplaceAll(ReplaceAll(commas, "\n", " "), "\r", " ");
    var r := Collapse(flat);
    assert forall c :: c in kept ==> KeptControl(c) by {
      forall c | c in kept ensures KeptControl(c) {
        var i :| 0 <= i < |kept| && kept[i] == c;
      }
    }
    FlatChars(kept);
    CollapseChars(flat);
    assert forall c :: c in r ==> Printable(c) by {
      forall c | c in r ensures Printable(c) {
        if c != ' ' {
          assert NoBreak(c) && !IsSpace(c);
        }
      }
    }
    r
  }

  /** Replacing keeps a character property that both the text and the replacement have. */
  lemma ReplaceKeeps(s: string, pat: string, rep: string, p: char -> bool)
    requires pat != []
    requires forall c :: c in s ==> p(c)
    requires forall c :: c in rep ==> p(c)
    ensures forall c :: c in ReplaceAll(s, pat, rep) ==> p(c)
  {
    ReplaceAllChars(s, pat, rep);
  }

  predicate NoLineFeed(c: char) { Printable(c) || c == '\r' || c == '\t' }

  predicate NoBreak(c: char) { Printable(c) || c == '\t' }

  lemma LineFeedsReplaced(s: string)
    requires forall c :: c in s ==> KeptControl(c)
    ensures forall c :: c in ReplaceAll(s, "\n", " ") ==> NoLineFeed(c)
  {
    ReplaceAllChars(s, "\n", " ");
    ReplaceCharRemoves(s, '\n', " ");
  }

  lemma ReturnsReplaced(s: string)
    requires forall c :: c in s ==> NoLineFeed(c)
    ensures forall c :: c in ReplaceAll(s, "\r", " ") ==> NoBreak(c)
  {
    ReplaceAllChars(s, "\r", " ");
    ReplaceCharRemoves(s, '\r', " ");
  }

  /** After the comma fixes and the line-break replacement only tabs remain below `' '`. */
  lemma FlatChars(kept: string)
    requires forall c :: c in kept ==> KeptControl(c)
    ensures var commas := ReplaceAll(ReplaceAll(kept, ObjectBreak, ObjectBreakFixed), StringBreak, StringBreakFixed);
            forall c :: c in ReplaceAll(ReplaceAll(commas, "\n", " "), "\r", " ") ==> NoBreak(c)
  {
    var c1 := ReplaceAll(kept, ObjectBreak, ObjectBreakFixed);
    var commas := ReplaceAll(c1, StringBreak, StringBreakFixed);
    ReplaceKeeps(kept, ObjectBreak, ObjectBreakFixed, KeptControl);
    ReplaceKeeps(c1, StringBreak, StringBreakFixed, KeptControl);
    LineFeedsReplaced(commas);
    ReturnsReplaced(ReplaceAll(commas, "\n", " "));
  }

  /** The second clean-up of the fallback path drops nothing: no control character survives normalization. */
  lemma FallbackFilterIsIdentity(candidate: string)
    ensures Filter(Printable, Normalize(candidate)) == Normalize(candidate)
  {
    var s := Normalize(candidate);
    assert forall i :: 0 <= i < |s| ==> Printable(s[i]) by {
      forall i | 0 <= i < |s| ensures Printable(s[i]) {
        assert s[i] in s;
      }
    }
    FilterKeepsAll(Printable, s);
  }

  /** The two quoted terms ("supercritical" and 超临界丙酸钠) after which the fallback path adds a comma. */
  const Supercritical: string := "\"supercritical\""
  const SupercriticalZh: string := "\"\U{8d85}\U{4e34}\U{754c}\U{4e19}\U{9178}\U{94a0}\""

  /** The fallback repair: a comma after the two known terms, then only characters from `' '` up. */
  function FallbackRepair(s: string): (r: string)
    ensures forall i :: 0 <= i < |r| ==> Printable(r[i])
  {
    var s1 := ReplaceAll(s, Supercritical, Supercritical + ",");
    var s2 := ReplaceAll(s1, SupercriticalZh, SupercriticalZh + ",");
    Filter(Printable, s2)
  }

  /** The character facts about the two terms that the lemmas below need. */
  lemma TermFacts()
    ensures SupercriticalZh[1] !in Supercritical + ","
    ensures forall i :: 0 <= i < |Supercritical + ","| ==> Printable((Supercritical + ",")[i])
    ensures forall i :: 0 <= i < |SupercriticalZh + ","| ==> Printable((SupercriticalZh + ",")[i])
    ensures 's' !in (SupercriticalZh + ",")[1..]
    ensures forall i :: 0 <= i < |Supercritical[1..] + ","| ==> Printable((Supercritical[1..] + ",")[i])
  {
  }

  /** Without 超 in the text the English term keeps the comma the repair adds after it. */
  lemma FallbackRepairCommaEn(s: string)
    requires Contains(s, Supercritical) && SupercriticalZh[1] !in s
    ensures Contains(FallbackRepair(s), Supercritical + ",")
  {
    var s1 := ReplaceAll(s, Supercritical, Supercritical + ",");
    TermFacts();
    ReplaceAppends(s, Supercritical, ",");
    ReplaceAllChars(s, Supercritical, Supercritical + ",");
    AbsentCharExcludes(s1, SupercriticalZh, 1);
    assert ReplaceAll(s1, SupercriticalZh, SupercriticalZh + ",") == s1;
    FilterKeepsOccurrence(Printable, s1, Supercritical + ",");
  }

  /** Without the English term in the text the Chinese term gets its comma. */
  lemma FallbackRepairCommaZh(s: string)
    requires Contains(s, SupercriticalZh) && !Contains(s, Supercritical)
    ensures Contains(FallbackRepair(s), SupercriticalZh + ",")
  {
    var s2 := ReplaceAll(s, SupercriticalZh, SupercriticalZh + ",");
    assert ReplaceAll(s, Supercritical, Supercritical + ",") == s;
    TermFacts();
    ReplaceAppends(s, SupercriticalZh, ",");
    FilterKeepsOccurrence(Printable, s2, SupercriticalZh + ",");
  }

  /**
   * The first pass on a text `z + p[1..]` whose last character `z` shares with the
   * start of `p`: `p` matches only at the end, and its comma ends the text.
   */
  lemma SharedQuoteFirstPass(s: string, z: string, p: string)
    requires 3 <= |z| && 2 <= |p| && z[|z| - 1] == p[0] && p[0] !in z[1..|z| - 1] && z[1] != p[1]
    requires s == z + p[1..]
    ensures ReplaceAll(s, p, p + ",") == s + ","
  {
    var mid := z[1..|z| - 1];
    assert s[1..] == mid + p;
    ReplaceAllAtEnd(s, mid, p, p + ",");
  }

  /** The second pass then finds `z` at the start and nowhere else. */
  lemma SharedQuoteSecondPass(z: string, t: string)
    requires 3 <= |z| && t != [] && z[0] !in t[..|t| - 1]
    ensures ReplaceAll(z + t + ",", z, z + ",") == (z + ",") + (t + ",")
  {
    ReplaceAllHead(z, t + ",", z + ",");
    assert z + t + "," == z + (t + ",");
    var w, e := t[..|t| - 1], [t[|t| - 1], ','];
    assert t + "," == w + e;
    ReplaceAllSkips(w, e, z, z + ",");
    assert ReplaceAll(e, z, z + ",") == e;
  }

  /**
   * Without those provisos the comma can be lost: in `"超临界丙酸钠"supercritical"`
   * the terms share a quote, the first pass writes the English term's comma,
   * and the second pass puts the Chinese term's comma inside the English term.
   */
  lemma FallbackRepairSharedQuote()
    ensures var s := SupercriticalZh + Supercritical[1..];
            Contains(s, Supercritical) && !Contains(FallbackRepair(s), Supercritical + ",")
  {
    var z, t := SupercriticalZh, Supercritical[1..];
    var s := z + t;
    SharedQuoteFacts();
    assert Occurs(s, Supercritical, 7);
    SharedQuoteFirstPass(s, z, Supercritical);
    SharedQuoteSecondPass(z, t);
    var x, y := z + ",", t + ",";
    TermFacts();
    FilterConcat(Printable, x, y);
    FilterKeepsAll(Printable, x);
    FilterKeepsAll(Printable, y);
    NoOccurrenceAcross(x, y, Supercritical + ",");
  }

  /** The character facts about `"超临界丙酸钠"supercritical"` that the lemma above needs. */
  lemma SharedQuoteFacts()
    ensures var z, t := SupercriticalZh, Supercritical[1..];
            && (z + t)[7..22] == Supercritical
            && 3 <= |z| && z[|z| - 1] == Supercritical[0] && Supercritical[0] !in z[1..|z| - 1] && z[1] != Supercritical[1]
            && t != [] && z[0] !in t[..|t| - 1]
  {
  }

  /** `json.loads`, retried once on the repaired text when it fails. */
  function ParseWithFallback(s: string, parse: string -> Option<Value>): (r: Result<Value, Failure>)
    ensures parse(s).Some? ==> r == Ok(parse(s).value)
    ensures parse(s).None? ==> (r.Ok? <==> parse(FallbackRepair(s)).Some?)
    ensures r.Err? ==> r.error == InvalidJson
  {
    match parse(s)
    case Some(v) => Ok(v)
    case None =>
      match parse(FallbackRepair(s))
      case Some(v) => Ok(v)
      case None => Err(InvalidJson)
  }

  /** Text without the two known terms is retried unchanged. */
  lemma FallbackWithoutTerms(candidate: string)
    requires !Contains(Normalize(candidate), Supercritical)
    requires !Contains(Normalize(candidate), SupercriticalZh)
    ensures FallbackRepair(Normalize(candidate)) == Normalize(candidate)
  {
    FallbackFilterIsIdentity(candidate);
  }

  // ---------------------------------------------------------------------------
  // Cleaning the explanation texts
  // ---------------------------------------------------------------------------

  /**
   * Lines 136-140 as written: collapse whitespace first, then remove every `"`
   * and every character below `' '`. The removals can leave two spaces side by side.
   */
  function CleanTextAsWritten(text: string): (r: string)
    ensures '"' !in r
    ensures forall i :: 0 <= i < |r| ==> Printable(r[i])
  {
    var collapsed := Collapse(text);
    var unquoted := ReplaceAll(ReplaceAll(ReplaceAll(collapsed, "\"", ""), "\"", ""), "\"", "");
    var r := Filter(Printable, unquoted);
    assert '"' !in r by {
      ReplaceCharRemoves(collapsed, '"', "");
      FindChar(ReplaceAll(collapsed, "\"", ""), '"');
      FindChar(unquoted, '"');
      FilterCounts(Printable, unquoted);
    }
    r
  }

  /** A visible character that is neither whitespace nor a quote: a one-character word that cleaning keeps. */
  predicate Plain(c: char) {
    Printable(c) && !IsSpace(c) && c != '"'
  }

  lemma RemoveQuoteBetween(a: char, b: char)
    requires a != '"' && b != '"'
    ensures ReplaceAll([a, ' ', '"', ' ', b], "\"", "") == [a, ' ', ' ', b]
  {
    assert ReplaceAll([], "\"", "") == [];
    ReplaceCharHead(b, [], '"', "");
    ReplaceCharHead(' ', [b], '"', "");
    ReplaceCharHead('"', [' ', b], '"', "");
    ReplaceCharHead(' ', ['"', ' ', b], '"', "");
    ReplaceCharHead(a, [' ', '"', ' ', b], '"', "");
  }

  lemma CollapseOfQuotedWord(a: char, b: char)
    requires !IsSpace(a) && !IsSpace(b)
    ensures Collapse([a, ' ', '"', ' ', b]) == [a, ' ', '"', ' ', b]
  {
    var ws := [[a], ['"'], [b]];
    assert IsWord(ws[0]) && IsWord(ws[1]) && IsWord(ws[2]);
    assert ws[1..][1..] == [[b]] && Join([[b]]) == [b];
    assert Join(ws[1..]) == ['"', ' ', b];
    assert Join(ws) == [a, ' ', '"', ' ', b];
    WordsOfJoin(ws);
  }

  /** A quoted word between spaces (for instance `a " b`) leaves a double space behind. */
  lemma CleanTextAsWrittenLeavesDoubleSpace(a: char, b: char)
    requires Plain(a) && Plain(b)
    ensures CleanTextAsWritten([a, ' ', '"', ' ', b]) == [a, ' ', ' ', b]
    ensures !Normalized(CleanTextAsWritten([a, ' ', '"', ' ', b]))
  {
    var r := [a, ' ', ' ', b];
    CollapseOfQuotedWord(a, b);
    RemoveQuoteBetween(a, b);
    FindChar(r, '"');
    FilterKeepsAll(Printable, r);
    assert IsSpace(r[1]) && IsSpace(r[2]);
  }

  /**
   * The cleaning with the whitespace collapse done last, so that the text comes
   * out in the single-spaced form the step promises.
   */
  function CleanText(text: string): (r: string)
    ensures '"' !in r
    ensures forall i :: 0 <= i < |r| ==> Printable(r[i])
    ensures Normalized(r)
  {
    var unquoted := ReplaceAll(text, "\"", "");
    var printable := Filter(Printable, unquoted);
    var r := Collapse(printable);
    ReplaceCharRemoves(text, '"', "");
    FilterCounts(Printable, unquoted);
    CollapseChars(printable);
    assert forall c :: c in printable ==> c != '"' && Printable(c) by {
      forall c | c in printable ensures c != '"' && Printable(c) {
        assert multiset(printable)[c] > 0;
      }
    }
    assert forall i :: 0 <= i < |r| ==> Printable(r[i]) by {
      forall i | 0 <= i < |r| ensures Printable(r[i]) {
        assert r[i] in r;
      }
    }
    r
  }

  /** Every visible character other than `"` survives cleaning, as often as it occurred. */
  lemma CleanTextKeepsContent(text: string)
    ensures forall c :: Printable(c) && !IsSpace(c) && c != '"' ==>
              multiset(CleanText(text))[c] == multiset(text)[c]
  {
    var unquoted := ReplaceAll(text, "\"", "");
    var printable := Filter(Printable, unquoted);
    ReplaceCharRemoves(text, '"', "");
    FilterCounts(Printable, unquoted);
    FilterCounts(NotSpace, Collapse(printable));
    FilterCounts(NotSpace, printable);
  }

  /** Cleaning a cleaned text changes nothing. */
  lemma CleanTextIdempotent(text: string)
    ensures CleanText(CleanText(text)) == CleanText(text)
  {
    var r := CleanText(text);
    FindChar(r, '"');
    FilterKeepsAll(Printable, r);
    var unquoted := ReplaceAll(text, "\"", "");
    CollapseIdempotent(Filter(Printable, unquoted));
  }

  const ExplanationKeys: seq<string> := ["visual_description", "analysis", "recommendations", "medical_context"]

  /** The first key of `keys` that `e` holds with a value other than a string. */
  function FirstNonText(e: map<string, Value>, keys: seq<string>): (r: Option<nat>)
    ensures r.Some? ==> r.value < |keys| && keys[r.value] in e && !e[keys[r.value]].JStr?
    ensures r.Some? ==> forall i :: 0 <= i < r.value ==> keys[i] !in e || e[keys[i]].JStr?
    ensures r.None? <==> forall i :: 0 <= i < |keys| ==> keys[i] !in e || e[keys[i]].JStr?
  {
    if keys == [] then None
    else if keys[0] in e && !e[keys[0]].JStr? then Some(0)
    else
      match FirstNonText(e, keys[1..])
      case None => None
      case Some(i) => Some(i + 1)
  }

  /**
   * Lines 132-141: each of the four keys present in `e` must hold a string (a
   * non-string raises on `.split()`), and that string is cleaned by `clean`
   * (`CleanTextAsWritten` for the source, `CleanText` for the corrected step).
   */
  function CleanFields(e: map<string, Value>, clean: string -> string): (r: Result<map<string, Value>, Failure>)
    ensures r.Ok? <==> forall k :: k in ExplanationKeys && k in e ==> e[k].JStr?
    ensures r.Err? ==> exists i :: 0 <= i < |ExplanationKeys| && r.error == WrongType(ExplanationKeys[i])
    ensures r.Ok? ==> r.value.Keys == e.Keys
    ensures r.Ok? ==> forall k :: k in e && k !in ExplanationKeys ==> r.value[k] == e[k]
    ensures r.Ok? ==> forall k :: k in e && k in ExplanationKeys ==> r.value[k] == JStr(clean(e[k].s))
  {
    match FirstNonText(e, ExplanationKeys)
    case Some(i) => Err(WrongType(ExplanationKeys[i]))
    case None =>
      assert forall k :: k in ExplanationKeys && k in e ==> e[k].JStr? by {
        forall k | k in ExplanationKeys && k in e ensures e[k].JStr? {
          var i :| 0 <= i < |ExplanationKeys| && ExplanationKeys[i] == k;
        }
      }
      Ok(map k | k in e :: if k in ExplanationKeys && e[k].JStr? then JStr(clean(e[k].s)) else e[k])
  }

  /** What the source needs of the parsed reply to get through to its `return`. */
  ghost predicate Acceptable(v: Value) {
    && v.JObj?
    && "has_tumor" in v.fields
    && "confidence" in v.fields && (v.fields["confidence"].JNum? || v.fields["confidence"].JBool?)
    && "explanation" in v.fields && v.fields["explanation"].JObj?
    && var e := v.fields["explanation"].fields;
       && "visual_description" in e && e["visual_description"].JStr?
       && "analysis" in e && e["analysis"].JStr?
       && "recommendations" in e && e["recommendations"].JStr?
       && "medical_context" in e && e["medical_context"].JStr?
  }

  const ResultKeys: set<string> := {"description", "conclusions", "recommendations", "confidence"}

  /** Line 132: the `explanation` object of the parsed reply. */
  function Explanation(v: Value): (r: Result<map<string, Value>, Failure>)
    ensures r.Ok? <==> v.JObj? && "explanation" in v.fields && v.fields["explanation"].JObj?
    ensures r.Ok? ==> r.value == v.fields["explanation"].fields
    ensures r.Err? ==> r.error == WrongType("explanation") || r.error == MissingKey("explanation")
  {
    if !v.JObj? then Err(WrongType("explanation"))
    else if "explanation" !in v.fields then Err(MissingKey("explanation"))
    else if !v.fields["explanation"].JObj? then Err(WrongType("explanation"))
    else Ok(v.fields["explanation"].fields)
  }

  /**
   * Lines 144-172 after cleaning: the key accesses of the report and of the
   * `return`, in the order Python evaluates them, then the result dictionary.
   */
  function Report(v: Value, e: map<string, Value>): (r: Result<map<string, Value>, Failure>)
    requires v.JObj?
    ensures r.Ok? <==>
              && "has_tumor" in v.fields
              && "confidence" in v.fields && (v.fields["confidence"].JNum? || v.fields["confidence"].JBool?)
              && "visual_description" in e && "analysis" in e
              && "recommendations" in e && "medical_context" in e
    ensures r.Ok? ==> r.value.Keys == ResultKeys
    ensures r.Ok? ==>
              && r.value["description"] == e["visual_description"]
              && r.value["conclusions"] == e["analysis"]
              && r.value["recommendations"] == e["recommendations"]
              && r.value["confidence"] == JNum(AsFloat(v.fields["confidence"]))
  {
    if "has_tumor" !in v.fields then Err(MissingKey("has_tumor"))
    else if "confidence" !in v.fields then Err(MissingKey("confidence"))
    else if !(v.fields["confidence"].JNum? || v.fields["confidence"].JBool?) then Err(WrongType("confidence"))
    else if "visual_description" !in e then Err(MissingKey("visual_description"))
    else if "analysis" !in e then Err(MissingKey("analysis"))
    else if "recommendations" !in e then Err(MissingKey("recommendations"))
    else if "medical_context" !in e then Err(MissingKey("medical_context"))
    else
      Ok(map[
        "description" := e["visual_description"],
        "conclusions" := e["analysis"],
        "recommendations" := e["recommendations"],
        "confidence" := JNum(AsFloat(v.fields["confidence"]))
      ])
  }

  /** Cleaning keeps the four explanation keys, requires them to be strings and cleans each. */
  lemma CleanedTexts(e0: map<string, Value>, e: map<string, Value>, k: string, clean: string -> string)
    requires CleanFields(e0, clean) == Ok(e)
    requires k in ExplanationKeys
    ensures k in e <==> k in e0
    ensures k in e0 ==> e0[k].JStr? && e[k] == JStr(clean(e0[k].s))
  {
  }

  /**
   * Lines 132-172 on the parsed reply: the explanation texts are cleaned, the
   * report's key and type accesses are made, and the result dictionary is built.
   */
  function Extract(v: Value, clean: string -> string): (r: Result<map<string, Value>, Failure>)
    ensures r.Ok? <==> Acceptable(v)
    ensures r.Ok? ==> r.value.Keys == ResultKeys
    ensures r.Ok? ==>
              var e := v.fields["explanation"].fields;
              && r.value["description"] == JStr(clean(e["visual_description"].s))
              && r.value["conclusions"] == JStr(clean(e["analysis"].s))
              && r.value["recommendations"] == JStr(clean(e["recommendations"].s))
              && r.value["confidence"] == JNum(AsFloat(v.fields["confidence"]))
  {
    var e0 :- Explanation(v);
    ExplanationTexts(e0);
    var e :- CleanFields(e0, clean);
    CleanedTexts(e0, e, "visual_description", clean);
    CleanedTexts(e0, e, "analysis", clean);
    CleanedTexts(e0, e, "recommendations", clean);
    CleanedTexts(e0, e, "medical_context", clean);
    Report(v, e)
  }

  lemma ExplanationTexts(e: map<string, Value>)
    ensures (forall k :: k in ExplanationKeys && k in e ==> e[k].JStr?) <==>
              && ("visual_description" in e ==> e["visual_description"].JStr?)
              && ("analysis" in e ==> e["analysis"].JStr?)
              && ("recommendations" in e ==> e["recommendations"].JStr?)
              && ("medical_context" in e ==> e["medical_context"].JStr?)
  {
    assert ExplanationKeys[0] == "visual_description";
    assert ExplanationKeys[1] == "analysis";
    assert ExplanationKeys[2] == "recommendations";
    assert ExplanationKeys[3] == "medical_context";
  }

  /** Lines 96-129: the reply text up to the parsed value. */
  function Parsed(content: string, parse: string -> Option<Value>): (r: Result<Value, Failure>)
    ensures r == Err(NoJson) <==> JsonCandidate(RemoveFences(content)).Err?
    ensures r.Err? ==> r.error == NoJson || r.error == InvalidJson
  {
    match JsonCandidate(RemoveFences(content))
    case Err(e) => Err(e)
    case Ok(candidate) => ParseCandidate(candidate, parse)
  }

  /** The reply fails with `NoJson` exactly when its unfenced text lacks an opening or a closing brace. */
  lemma NoJsonWithoutBraces(content: string, parse: string -> Option<Value>)
    ensures Parsed(content, parse) == Err(NoJson) <==> '{' !in RemoveFences(content) || '}' !in RemoveFences(content)
  {
    var fenced := RemoveFences(content);
    assert JsonCandidate(fenced).Err? <==> '{' !in fenced || '}' !in fenced;
  }

  /** Lines 107-129: the candidate is normalized and parsed, with one repaired retry. */
  function ParseCandidate(candidate: string, parse: string -> Option<Value>): (r: Result<Value, Failure>)
    ensures r.Err? ==> r.error == InvalidJson
    ensures parse(Normalize(candidate)).Some? ==> r == Ok(parse(Normalize(candidate)).value)
  {
    ParseWithFallback(Normalize(candidate), parse)
  }

  /** The decoding pipeline on the reply text, with `clean` as the text clean-up. */
  function Decode(content: string, parse: string -> Option<Value>, clean: string -> string): (r: Result<map<string, Value>, Failure>)
    ensures Parsed(content, parse).Err? ==> r == Err(Parsed(content, parse).error)
    ensures r.Ok? <==> Parsed(content, parse).Ok? && Acceptable(Parsed(content, parse).value)
    ensures r.Ok? ==> r == Extract(Parsed(content, parse).value, clean)
  {
    var v :- Parsed(content, parse);
    Extract(v, clean)
  }

  /** `analyze_image` after the HTTP call, cleaning the texts as lines 136-140 are written. */
  function AnalyzeImage(reply: Reply, parse: string -> Option<Value>): (r: Result<map<string, Value>, Failure>)
    ensures ContentOr(reply, "{}").Err? ==> r == Err(ReadFailed(ContentOr(reply, "{}").error))
    ensures ContentOr(reply, "{}").Ok? ==> r == Decode(ContentOr(reply, "{}").value, parse, CleanTextAsWritten)
  {
    match ContentOr(reply, "{}")
    case Err(e) => Err(ReadFailed(e))
    case Ok(content) => Decode(content, parse, CleanTextAsWritten)
  }

  /** The three texts of a decoded report are strings that satisfy `ok`. */
  predicate TextsSatisfy(r: map<string, Value>, ok: string -> bool) {
    && "description" in r && r["description"].JStr? && ok(r["description"].s)
    && "conclusions" in r && r["conclusions"].JStr? && ok(r["conclusions"].s)
    && "recommendations" in r && r["recommendations"].JStr? && ok(r["recommendations"].s)
  }

  predicate Unquoted(t: string) {
    '"' !in t && forall i :: 0 <= i < |t| ==> Printable(t[i])
  }

  ghost predicate SingleSpaced(t: string) {
    Unquoted(t) && Normalized(t)
  }

  /** As written, a returned text holds no `"` and no control character, but may hold double spaces. */
  lemma AnalyzedTexts(reply: Reply, parse: string -> Option<Value>)
    ensures AnalyzeImage(reply, parse).Ok? ==> TextsSatisfy(AnalyzeImage(reply, parse).value, Unquoted)
  {
  }

  /** With the corrected clean-up of Finding 2 every returned text is also single-spaced. */
  lemma CorrectedTextsSingleSpaced(content: string, parse: string -> Option<Value>)
    ensures Decode(content, parse, CleanText).Ok? ==> TextsSatisfy(Decode(content, parse, CleanText).value, SingleSpaced)
  {
  }

  lemma FencesOfEmptyObject()
    ensures RemoveFences("{}") == "{}"
  {
    var s := "{}";
    assert ReplaceAll(s, "```json", "") == s;
    assert ReplaceAll(s, "```", "") == s;
    StripFixpoint(s);
  }

  lemma NormalizeOfEmptyObject()
    ensures Normalize("{}") == "{}"
  {
    var s := "{}";
    FilterKeepsAll(KeptControl, s);
    assert ReplaceAll(s, ObjectBreak, ObjectBreakFixed) == s;
    assert ReplaceAll(s, StringBreak, StringBreakFixed) == s;
    assert ReplaceAll([], "\n", " ") == [];
    assert s[..1] != "\n" && s[1..] == "}" && "}"[..1] != "\n" && "}"[1..] == [];
    assert ReplaceAll("}", "\n", " ") == "}";
    assert ReplaceAll(s, "\n", " ") == s;
    assert ReplaceAll([], "\r", " ") == [];
    assert s[..1] != "\r" && "}"[..1] != "\r";
    assert ReplaceAll("}", "\r", " ") == "}";
    assert ReplaceAll(s, "\r", " ") == s;
    CollapseOfWord(s);
  }

  lemma CandidateOfEmptyObject(s: string)
    requires s == "{}"
    ensures JsonCandidate(s) == Ok(s)
  {
    CandidateOfObject("");
    assert "{" + "" + "}" == s;
  }

  /** `{}` gets through parsing and then fails for the missing `explanation`. */
  lemma DecodeEmptyObject(parse: string -> Option<Value>, clean: string -> string)
    requires parse("{}") == Some(JObj(map[]))
    ensures Decode("{}", parse, clean) == Err(MissingKey("explanation"))
  {
    FencesOfEmptyObject();
    CandidateOfEmptyObject("{}");
    NormalizeOfEmptyObject();
    assert JsonCandidate(RemoveFences("{}")) == Ok("{}");
    assert ParseCandidate("{}", parse) == Ok(JObj(map[]));
    assert Parsed("{}", parse) == Ok(JObj(map[]));
    assert Explanation(JObj(map[])) == Err(MissingKey("explanation"));
  }

  /** A reply without content is read as `{}`, which lacks `explanation`: the call fails. */
  lemma EmptyReplyFails(parse: string -> Option<Value>)
    requires parse("{}") == Some(JObj(map[]))
    ensures AnalyzeImage(Reply(None), parse) == Err(MissingKey("explanation"))
  {
    DecodeEmptyObject(parse, CleanTextAsWritten);
  }
}

=== FILE: rows.dfy ===
/**
 * The relational queries the CRUD layer issues, over a table held as the
 * sequence of its rows in query order: `.filter(...).first()`, `.filter(...)`,
 * and `.offset(skip).limit(limit)`.
 */
module Rows {
  import opened Wrappers

  /** The position of the first row `p` accepts (`query.filter(p).first()`). */
  function IndexWhere<T>(xs: seq<T>, p: T -> bool): (r: Option<nat>)
    ensures r.None? <==> forall i :: 0 <= i < |xs| ==> !p(xs[i])
    ensures r.Some? ==> r.value < |xs| && p(xs[r.value])
    ensures r.Some? ==> forall i :: 0 <= i < r.value ==> !p(xs[i])
  {
    if xs == [] then None
    else if p(xs[0]) then Some(0)
    else
      match IndexWhere(xs[1..], p)
      case None => None
      case Some(k) => Some(k + 1)
  }

  /** The filter `model.id == id`, for a table whose rows carry their id as `idOf`. */
  function HasId<T>(idOf: T -> int, id: int): T -> bool {
    (x: T) => idOf(x) == id
  }

  /** `get(db, id)`: the first row whose id is `id` (`query.filter(model.id == id).first()`). */
  function GetById<T>(xs: seq<T>, idOf: T -> int, id: int): (r: Option<T>)
    ensures r.None? <==> forall i :: 0 <= i < |xs| ==> idOf(xs[i]) != id
    ensures r.Some? ==> r.value in xs && idOf(r.value) == id
  {
    match IndexWhere(xs, HasId(idOf, id))
    case None => None
    case Some(k) => Some(xs[k])
  }

  /** The rows `p` accepts, in their original order (`query.filter(p).all()`). */
  function Select<T>(xs: seq<T>, p: T -> bool): (r: seq<T>)
    ensures |r| <= |xs|
    ensures forall i :: 0 <= i < |r| ==> p(r[i])
  {
    if xs == [] then []
    else if p(xs[0]) then [xs[0]] + Select(xs[1..], p)
    else Select(xs[1..], p)
  }

  /** Selecting loses no accepted row: the result holds exactly the accepted rows of the table. */
  lemma {:induction false} SelectMembers<T>(xs: seq<T>, p: T -> bool, x: T)
    ensures x in Select(xs, p) <==> x in xs && p(x)
  {
    if xs != [] {
      SelectMembers(xs[1..], p, x);
      assert xs == [xs[0]] + xs[1..];
    }
  }

  /** Selecting keeps every accepted row as often as the table holds it, and no other row. */
  lemma {:induction false} SelectCounts<T>(xs: seq<T>, p: T -> bool, x: T)
    ensures multiset(Select(xs, p))[x] == if p(x) then multiset(xs)[x] else 0
  {
    if xs != [] {
      SelectCounts(xs[1..], p, x);
      assert xs == [xs[0]] + xs[1..];
    }
  }

  /** Selecting keeps table order: the accepted rows of a front part come before those of the rest. */
  lemma {:induction false} SelectConcat<T>(a: seq<T>, b: seq<T>, p: T -> bool)
    ensures Select(a + b, p) == Select(a, p) + Select(b, p)
    decreases |a|
  {
    if a != [] {
      assert (a + b)[1..] == a[1..] + b;
      SelectConcat(a[1..], b, p);
    } else {
      assert a + b == b;
    }
  }

  /** `.offset(skip).limit(limit)`: the rows at positions `skip` up to `skip + limit`, in order. */
  function Page<T>(xs: seq<T>, skip: nat, limit: nat): (r: seq<T>)
    ensures |r| <= limit
    ensures skip >= |xs| ==> r == []
    ensures skip < |xs| ==> |r| == if skip + limit <= |xs| then limit else |xs| - skip
    ensures forall i :: 0 <= i < |r| ==> skip + i < |xs| && r[i] == xs[skip + i]
  {
    if skip >= |xs| then []
    else if skip + limit <= |xs| then xs[skip..skip + limit]
    else xs[skip..]
  }

  /** Two consecutive pages together are the page as long as both. */
  lemma PagesJoin<T>(xs: seq<T>, skip: nat, a: nat, b: nat)
    ensures Page(xs, skip, a) + Page(xs, skip + a, b) == Page(xs, skip, a + b)
  {
    var l := Page(xs, skip, a);
    var m := Page(xs, skip + a, b);
    var whole := Page(xs, skip, a + b);
    assert |l + m| == |whole|;
    forall i | 0 <= i < |whole| ensures (l + m)[i] == whole[i] {
      if i >= |l| {
        assert skip + a + (i - |l|) == skip + i;
      }
    }
  }

  /** Paging from the start with a limit no smaller than the table returns the whole table. */
  lemma PageAll<T>(xs: seq<T>, limit: nat)
    requires |xs| <= limit
    ensures Page(xs, 0, limit) == xs
  {
  }
}

=== FILE: text.dfy ===
/**
 * The Python string primitives the services and repositories rely on:
 * `str.isspace`, `strip`, `' '.join(s.split())`, `replace`, `find`/`rfind`, `in`,
 * `split(sep)[k]`, decimal `str(int)`/`int(str)` and the case folding of SQL `ILIKE`.
 */
module Text {
  import opened Wrappers

  /** Python's `str.isspace()`: the characters `str.split()`, `str.strip()` and the regex class `\s` treat as whitespace. */
  predicate IsSpace(c: char) {
    || ('\t' <= c <= '\r')
    || ('\U{1c}' <= c <= '\U{1f}')
    || c == ' '
    || c == '\U{85}'
    || c == '\U{a0}'
    || c == '\U{1680}'
    || ('\U{2000}' <= c <= '\U{200a}')
    || c == '\U{2028}'
    || c == '\U{2029}'
    || c == '\U{202f}'
    || c == '\U{205f}'
    || c == '\U{3000}'
  }

  predicate NotSpace(c: char) { !IsSpace(c) }

  predicate StartsWith(s: string, prefix: string) {
    |prefix| <= |s| && s[..|prefix|] == prefix
  }

  predicate EndsWith(s: string, suffix: string) {
    |suffix| <= |s| && s[|s| - |suffix|..] == suffix
  }

  // ---------------------------------------------------------------------------
  // Filtering characters
  // ---------------------------------------------------------------------------

  /** The characters of `s` that satisfy `keep`, in their original order (a Python generator join). */
  function Filter(keep: char -> bool, s: string): (r: string)
    ensures |r| <= |s|
    ensures forall i :: 0 <= i < |r| ==> keep(r[i])
  {
    if s == [] then [] else (if keep(s[0]) then [s[0]] else []) + Filter(keep, s[1..])
  }

  /** Filtering keeps every occurrence of a kept character and none of a dropped one. */
  lemma {:induction false} FilterCounts(keep: char -> bool, s: string)
    ensures forall c :: multiset(Filter(keep, s))[c] == if keep(c) then multiset(s)[c] else 0
  {
    if s != [] {
      FilterCounts(keep, s[1..]);
      assert s == [s[0]] + s[1..];
    }
  }

  /** Filtering distributes over concatenation, so the kept characters stay in their order. */
  lemma {:induction false} FilterConcat(keep: char -> bool, a: string, b: string)
    ensures Filter(keep, a + b) == Filter(keep, a) + Filter(keep, b)
  {
    if a == [] {
      assert a + b == b;
    } else {
      assert (a + b)[0] == a[0];
      assert (a + b)[1..] == a[1..] + b;
      FilterConcat(keep, a[1..], b);
    }
  }

  /** A string whose characters all pass the filter is left as it is. */
  lemma {:induction false} FilterKeepsAll(keep: char -> bool, s: string)
    requires forall i :: 0 <= i < |s| ==> keep(s[i])
    ensures Filter(keep, s) == s
  {
    if s != [] {
      FilterKeepsAll(keep, s[1..]);
    }
  }

  /** A string none of whose characters pass the filter vanishes. */
  lemma {:induction false} FilterDropsAll(keep: char -> bool, s: string)
    requires forall i :: 0 <= i < |s| ==> !keep(s[i])
    ensures Filter(keep, s) == []
  {
    if s != [] {
      FilterDropsAll(keep, s[1..]);
    }
  }

  /** Filtering twice with the same predicate is filtering once. */
  lemma FilterIdempotent(keep: char -> bool, s: string)
    ensures Filter(keep, Filter(keep, s)) == Filter(keep, s)
  {
    FilterKeepsAll(keep, Filter(keep, s));
  }

  // ---------------------------------------------------------------------------
  // strip()
  // ---------------------------------------------------------------------------

  /** `s.lstrip()`: drops the leading whitespace. */
  function LStrip(s: string): (r: string)
    ensures |r| <= |s| && r == s[|s| - |r|..]
    ensures r != [] ==> !IsSpace(r[0])
    ensures forall i :: 0 <= i < |s| - |r| ==> IsSpace(s[i])
  {
    if s != [] && IsSpace(s[0]) then LStrip(s[1..]) else s
  }

  /** `s.rstrip()`: drops the trailing whitespace. */
  function RStrip(s: string): (r: string)
    ensures |r| <= |s| && r == s[..|r|]
    ensures r != [] ==> !IsSpace(r[|r| - 1])
    ensures forall i :: |r| <= i < |s| ==> IsSpace(s[i])
  {
    if s != [] && IsSpace(s[|s| - 1]) then RStrip(s[..|s| - 1]) else s
  }

  /** No whitespace at either end: what `strip()` leaves. */
  predicate Trimmed(s: string) {
    s != [] ==> !IsSpace(s[0]) && !IsSpace(s[|s| - 1])
  }

  /** `s.strip()`. */
  function Strip(s: string): (r: string)
    ensures |r| <= |s|
    ensures r != [] ==> !IsSpace(r[0]) && !IsSpace(r[|r| - 1])
  {
    RStrip(LStrip(s))
  }

  lemma {:induction false} LStripAppendSpace(s: string)
    ensures LStrip(s + " ") == if LStrip(s) == [] then [] else LStrip(s) + " "
  {
    if s == [] {
      assert LStrip(" ") == LStrip(" "[1..]);
    } else if IsSpace(s[0]) {
      LStripAppendSpace(s[1..]);
      LStripSpaceHead(s);
    } else {
      assert (s + " ")[0] == s[0];
    }
  }

  /** Leading whitespace is dropped one character at a time, also with a space appended. */
  lemma LStripSpaceHead(s: string)
    requires s != [] && IsSpace(s[0])
    ensures LStrip(s) == LStrip(s[1..]) && LStrip(s + " ") == LStrip(s[1..] + " ")
  {
    var t := s + " ";
    assert t[0] == s[0] && t[1..] == s[1..] + " ";
  }

  lemma LStripAfterSpace(s: string)
    ensures LStrip(" " + s) == LStrip(s)
  {
    assert (" " + s)[1..] == s;
  }

  lemma RStripBeforeSpace(s: string)
    ensures RStrip(s + " ") == RStrip(s)
  {
    assert (s + " ")[..|s|] == s;
  }

  /** Surrounding a text with single spaces does not change what `strip()` returns. */
  lemma StripPadded(s: string)
    ensures Strip(" " + s + " ") == Strip(s)
  {
    assert " " + s + " " == " " + (s + " ");
    LStripAfterSpace(s + " ");
    LStripAppendSpace(s);
    if LStrip(s) != [] {
      RStripBeforeSpace(LStrip(s));
    }
  }

  /** Stripping removes whitespace only: every other character of `s` survives, in order. */
  lemma StripKeepsContent(s: string)
    ensures Filter(NotSpace, Strip(s)) == Filter(NotSpace, s)
  {
    LStripKeepsContent(s);
    RStripKeepsContent(LStrip(s));
  }

  lemma LStripKeepsContent(s: string)
    ensures Filter(NotSpace, LStrip(s)) == Filter(NotSpace, s)
  {
    var l := LStrip(s);
    var pre := s[..|s| - |l|];
    assert s == pre + l;
    FilterConcat(NotSpace, pre, l);
    FilterDropsAll(NotSpace, pre);
  }

  lemma RStripKeepsContent(s: string)
    ensures Filter(NotSpace, RStrip(s)) == Filter(NotSpace, s)
  {
    var r := RStrip(s);
    var post := s[|r|..];
    assert s == r + post;
    FilterConcat(NotSpace, r, post);
    FilterDropsAll(NotSpace, post);
  }

  /** A string with no surrounding whitespace is its own strip. */
  lemma StripFixpoint(s: string)
    requires s != [] ==> !IsSpace(s[0]) && !IsSpace(s[|s| - 1])
    ensures Strip(s) == s
  {
  }

  // ---------------------------------------------------------------------------
  // ' '.join(s.split())
  // ---------------------------------------------------------------------------

  /** Length of the run of non-whitespace characters that starts `s`. */
  function WordLen(s: string): (n: nat)
    ensures n <= |s|
    ensures forall i :: 0 <= i < n ==> !IsSpace(s[i])
    ensures n < |s| ==> IsSpace(s[n])
  {
    if s == [] || IsSpace(s[0]) then 0 else 1 + WordLen(s[1..])
  }

  /** One item of `s.split()`: non-empty and free of whitespace. */
  ghost predicate IsWord(w: string) {
    w != [] && forall i :: 0 <= i < |w| ==> !IsSpace(w[i])
  }

  /** `s.split()` with no separator: the maximal runs of non-whitespace characters. */
  function Words(s: string): (ws: seq<string>)
    ensures forall k :: 0 <= k < |ws| ==> IsWord(ws[k])
    decreases |s|
  {
    if s == [] then []
    else if IsSpace(s[0]) then Words(s[1..])
    else
      var n := WordLen(s);
      [s[..n]] + Words(s[n..])
  }

  /** `' '.join(ws)`. */
  function Join(ws: seq<string>): string
  {
    if ws == [] then []
    else if |ws| == 1 then ws[0]
    else ws[0] + " " + Join(ws[1..])
  }

  /**
   * `' '.join(s.split())`: the words of `s` separated by single spaces. The
   * result has the normalized shape and keeps every other character, in order.
   */
  function Collapse(s: string): (r: string)
    ensures Normalized(r)
    ensures Filter(NotSpace, r) == Filter(NotSpace, s)
  {
    JoinNormalized(Words(s));
    JoinKeepsContent(Words(s));
    WordsKeepContent(s);
    Join(Words(s))
  }

  /**
   * The shape `' '.join(s.split())` produces: the only whitespace is the plain
   * space, never first, never last, and never next to more whitespace.
   */
  ghost predicate Normalized(r: string) {
    && (forall i :: 0 <= i < |r| && IsSpace(r[i]) ==> r[i] == ' ' && 0 < i < |r| - 1)
    && (forall i, j :: 0 <= i && j == i + 1 && j < |r| ==> !IsSpace(r[i]) || !IsSpace(r[j]))
  }

  /** Joining a word and a non-empty normalized text with one space keeps the text normalized. */
  lemma NormalizedJoinStep(w: string, rest: string)
    requires IsWord(w)
    requires rest != [] && Normalized(rest)
    ensures Normalized(w + " " + rest)
  {
    var r := w + " " + rest;
    forall i | 0 <= i < |r| && IsSpace(r[i])
      ensures r[i] == ' ' && 0 < i < |r| - 1
    {
      if i < |w| {
        assert false;
      } else if i > |w| {
        assert r[i] == rest[i - |w| - 1];
      }
    }
    forall i, j | 0 <= i && j == i + 1 && j < |r|
      ensures !IsSpace(r[i]) || !IsSpace(r[j])
    {
      if i == |w| {
        assert r[j] == rest[0];
      } else if i > |w| {
        assert r[i] == rest[i - |w| - 1] && r[j] == rest[j - |w| - 1];
      }
    }
  }

  /** Words joined by single spaces are normalized. */
  lemma {:induction false} JoinNormalized(ws: seq<string>)
    requires forall k :: 0 <= k < |ws| ==> IsWord(ws[k])
    ensures Normalized(Join(ws))
    ensures ws != [] ==> Join(ws) != []
  {
    if |ws| > 1 {
      JoinNormalized(ws[1..]);
      NormalizedJoinStep(ws[0], Join(ws[1..]));
    }
  }

  /** A word followed by whitespace (or by nothing) is exactly the first run. */
  lemma {:induction false} WordLenOfWord(w: string, x: string)
    requires IsWord(w)
    requires x == [] || IsSpace(x[0])
    ensures WordLen(w + x) == |w|
    decreases |w|
  {
    assert (w + x)[0] == w[0];
    if |w| > 1 {
      assert (w + x)[1..] == w[1..] + x;
      WordLenOfWord(w[1..], x);
    } else {
      assert (w + x)[1..] == x;
    }
  }

  /** Splitting words that were joined by single spaces gives the words back. */
  lemma {:induction false} WordsOfJoin(ws: seq<string>)
    requires forall k :: 0 <= k < |ws| ==> IsWord(ws[k])
    ensures Words(Join(ws)) == ws
  {
    if ws == [] {
    } else if |ws| == 1 {
      var w := ws[0];
      WordLenOfWord(w, []);
      assert w + [] == w;
      assert w[|w|..] == [];
    } else {
      var w, rest := ws[0], Join(ws[1..]);
      var j := w + " " + rest;
      WordLenOfWord(w, " " + rest);
      assert j == w + (" " + rest);
      assert j[..|w|] == w;
      assert j[|w|..] == " " + rest;
      assert (" " + rest)[1..] == rest;
      WordsOfJoin(ws[1..]);
      assert Words(j) == [w] + Words(" " + rest);
    }
  }

  /** A single word is its own collapsed form. */
  lemma CollapseOfWord(w: string)
    requires IsWord(w)
    ensures Collapse(w) == w
  {
    WordsOfJoin([w]);
  }

  /** `' '.join(s.split())` is idempotent. */
  lemma CollapseIdempotent(s: string)
    ensures Collapse(Collapse(s)) == Collapse(s)
  {
    WordsOfJoin(Words(s));
  }

  /** The non-whitespace characters of a text, concatenated word by word. */
  function Concat(ws: seq<string>): string {
    if ws == [] then [] else ws[0] + Concat(ws[1..])
  }

  lemma {:induction false} WordsKeepContent(s: string)
    ensures Concat(Words(s)) == Filter(NotSpace, s)
    decreases |s|
  {
    if s != [] {
      if IsSpace(s[0]) {
        WordsKeepContent(s[1..]);
      } else {
        var n := WordLen(s);
        assert s == s[..n] + s[n..];
        FilterConcat(NotSpace, s[..n], s[n..]);
        FilterKeepsAll(NotSpace, s[..n]);
        WordsKeepContent(s[n..]);
        assert Words(s)[1..] == Words(s[n..]);
      }
    }
  }

  lemma {:induction false} JoinKeepsContent(ws: seq<string>)
    requires forall k :: 0 <= k < |ws| ==> IsWord(ws[k])
    ensures Filter(NotSpace, Join(ws)) == Concat(ws)
  {
    if |ws| == 1 {
      FilterKeepsAll(NotSpace, ws[0]);
      assert Concat(ws) == ws[0] + Concat([]);
    } else if |ws| > 1 {
      JoinKeepsContent(ws[1..]);
      FilterConcat(NotSpace, ws[0] + " ", Join(ws[1..]));
      FilterConcat(NotSpace, ws[0], " ");
      FilterKeepsAll(NotSpace, ws[0]);
      assert Filter(NotSpace, " ") == [];
    }
  }

  /** Every character of a collapsed text is a plain space or a non-whitespace character of the input. */
  lemma CollapseChars(s: string)
    ensures forall c :: c in Collapse(s) ==> c == ' ' || (!IsSpace(c) && c in s)
  {
    var r := Collapse(s);
    FilterCounts(NotSpace, r);
    FilterCounts(NotSpace, s);
    forall c | c in r ensures c == ' ' || (!IsSpace(c) && c in s) {
      var i :| 0 <= i < |r| && r[i] == c;
      if !IsSpace(c) {
        assert multiset(Filter(NotSpace, r))[c] > 0;
      }
    }
  }

  // ---------------------------------------------------------------------------
  // find, in, replace, split
  // ---------------------------------------------------------------------------

  /** `pat` occurs in `s` starting at index `i`. */
  predicate Occurs(s: string, pat: string, i: int) {
    0 <= i && i + |pat| <= |s| && s[i..i + |pat|] == pat
  }

  lemma OccursShift(s: string, pat: string, j: int)
    requires s != [] && 0 <= j
    ensures Occurs(s, pat, j + 1) <==> Occurs(s[1..], pat, j)
  {
    if 0 <= j && j + 1 + |pat| <= |s| {
      assert s[j + 1..j + 1 + |pat|] == s[1..][j..j + |pat|];
    }
  }

  /** A one-character pattern occurs exactly where that character stands. */
  lemma OccursChar(s: string, c: char, i: int)
    ensures Occurs(s, [c], i) <==> 0 <= i < |s| && s[i] == c
  {
    if 0 <= i < |s| {
      assert s[i..i + 1] == [s[i]];
    }
  }

  /** A one-character pattern is found exactly when the character is in the text. */
  lemma FindChar(s: string, c: char)
    ensures Find(s, [c]).None? <==> c !in s
    ensures Contains(s, [c]) <==> c in s
    ensures Find(s, [c]).Some? ==> s[Find(s, [c]).value] == c
  {
    if c in s {
      var i :| 0 <= i < |s| && s[i] == c;
      OccursChar(s, c, i);
    }
    if Find(s, [c]).Some? {
      OccursChar(s, c, Find(s, [c]).value);
    }
  }

  /** `s.find(pat)`: the first index where `pat` occurs, `None` for Python's `-1`. */
  function Find(s: string, pat: string): (r: Option<nat>)
    ensures r.Some? ==> Occurs(s, pat, r.value) && forall j :: 0 <= j < r.value ==> !Occurs(s, pat, j)
    ensures r.None? ==> forall j :: !Occurs(s, pat, j)
    decreases |s|
  {
    if |s| < |pat| then None
    else if s[..|pat|] == pat then Some(0)
    else
      match Find(s[1..], pat)
      case None =>
        assert forall j :: !Occurs(s, pat, j) by {
          forall j ensures !Occurs(s, pat, j) {
            if j >= 1 {
              OccursShift(s, pat, j - 1);
            }
          }
        }
        None
      case Some(i) =>
        assert forall j :: 0 <= j < i + 1 ==> !Occurs(s, pat, j) by {
          forall j | 0 <= j < i + 1 ensures !Occurs(s, pat, j) {
            if j >= 1 {
              OccursShift(s, pat, j - 1);
            }
          }
        }
        OccursShift(s, pat, i);
        Some(i + 1)
  }

  /** Python's `pat in s`. */
  predicate Contains(s: string, pat: string) {
    Find(s, pat).Some?
  }

  /** `s.rfind(c)` for one character: the last index holding `c`. */
  function RFindChar(s: string, c: char): (r: Option<nat>)
    ensures r.Some? ==> r.value < |s| && s[r.value] == c && forall j :: r.value < j < |s| ==> s[j] != c
    ensures r.None? ==> forall j :: 0 <= j < |s| ==> s[j] != c
  {
    if s == [] then None
    else if s[|s| - 1] == c then Some(|s| - 1)
    else RFindChar(s[..|s| - 1], c)
  }

  /** `s.replace(pat, rep)`: every non-overlapping occurrence, scanning left to right. */
  function ReplaceAll(s: string, pat: string, rep: string): (r: string)
    requires pat != []
    ensures !Contains(s, pat) ==> r == s
    ensures |rep| <= |pat| ==> |r| <= |s|
    decreases |s|
  {
    if |s| < |pat| then s
    else if s[..|pat|] == pat then rep + ReplaceAll(s[|pat|..], pat, rep)
    else [s[0]] + ReplaceAll(s[1..], pat, rep)
  }

  /** A text that starts with the pattern has its start replaced. */
  lemma ReplaceAllHead(pat: string, rest: string, rep: string)
    requires pat != []
    ensures ReplaceAll(pat + rest, pat, rep) == rep + ReplaceAll(rest, pat, rep)
  {
    var s := pat + rest;
    assert s[..|pat|] == pat && s[|pat|..] == rest;
  }

  /** A prefix without the pattern's first character is copied unchanged. */
  lemma {:induction false} ReplaceAllSkips(a: string, b: string, pat: string, rep: string)
    requires pat != [] && pat[0] !in a
    ensures ReplaceAll(a + b, pat, rep) == a + ReplaceAll(b, pat, rep)
    decreases |a|
  {
    if a != [] {
      var s := a + b;
      if |s| < |pat| {
        assert ReplaceAll(b, pat, rep) == b;
      } else {
        assert s[..|pat|] != pat by {
          assert s[..|pat|][0] == a[0];
        }
        assert s[1..] == a[1..] + b;
        ReplaceAllSkips(a[1..], b, pat, rep);
        var t := ReplaceAll(b, pat, rep);
        assert ReplaceAll(s, pat, rep) == [a[0]] + (a[1..] + t);
        assert a == [a[0]] + a[1..];
      }
    } else {
      assert a + b == b;
    }
  }

  /** A text that does not start with the pattern keeps its first character. */
  lemma ReplaceAllPastHead(s: string, pat: string, rep: string)
    requires pat != [] && s != [] && !StartsWith(s, pat)
    ensures ReplaceAll(s, pat, rep) == [s[0]] + ReplaceAll(s[1..], pat, rep)
  {
  }

  /** The pattern at the end of a text without its first character is the only one replaced. */
  lemma ReplaceAllLast(mid: string, pat: string, rep: string)
    requires pat != [] && pat[0] !in mid
    ensures ReplaceAll(mid + pat, pat, rep) == mid + rep
  {
    ReplaceAllSkips(mid, pat, pat, rep);
    assert pat == pat + [];
    ReplaceAllHead(pat, [], rep);
    assert ReplaceAll([], pat, rep) == [];
  }

  /** A text that ends with the pattern and cannot hold it earlier has only its end replaced. */
  lemma ReplaceAllAtEnd(s: string, mid: string, pat: string, rep: string)
    requires 2 <= |pat| && mid != [] && mid[0] != pat[1] && pat[0] !in mid
    requires |s| == |mid| + |pat| + 1 && s[1..] == mid + pat
    ensures ReplaceAll(s, pat, rep) == [s[0]] + mid + rep
  {
    assert !StartsWith(s, pat) by {
      assert s[..|pat|][1] == s[1..][0];
    }
    ReplaceAllPastHead(s, pat, rep);
    ReplaceAllLast(mid, pat, rep);
  }

  /** A text without the pattern's first character is left as it is. */
  lemma ReplaceAllWithoutHead(s: string, pat: string, rep: string)
    requires pat != [] && pat[0] !in s
    ensures ReplaceAll(s, pat, rep) == s
  {
    ReplaceAllSkips(s, [], pat, rep);
    assert s + [] == s;
  }

  /** Replacing a one-character pattern handles the first character on its own. */
  lemma ReplaceCharHead(x: char, rest: string, c: char, rep: string)
    ensures ReplaceAll([x] + rest, [c], rep) == (if x == c then rep else [x]) + ReplaceAll(rest, [c], rep)
  {
    var s := [x] + rest;
    assert s[..1] == [x] && s[1..] == rest;
  }

  /** Every character of the result comes from the input or from the replacement. */
  lemma {:induction false} ReplaceAllChars(s: string, pat: string, rep: string)
    requires pat != []
    ensures forall c :: c in ReplaceAll(s, pat, rep) ==> c in s || c in rep
    decreases |s|
  {
    if |s| >= |pat| {
      if s[..|pat|] == pat {
        ReplaceAllChars(s[|pat|..], pat, rep);
        forall c | c in s[|pat|..] ensures c in s {
          var i :| 0 <= i < |s[|pat|..]| && s[|pat|..][i] == c;
          assert s[i + |pat|] == c;
        }
      } else {
        ReplaceAllChars(s[1..], pat, rep);
        forall c | c in s[1..] ensures c in s {
          var i :| 0 <= i < |s[1..]| && s[1..][i] == c;
          assert s[i + 1] == c;
        }
      }
    }
  }

  /** Replacing a single character by text that does not contain it removes it entirely. */
  lemma {:induction false} ReplaceCharRemoves(s: string, c: char, rep: string)
    requires c !in rep
    ensures c !in ReplaceAll(s, [c], rep)
    ensures forall d :: d != c && d !in rep ==> multiset(ReplaceAll(s, [c], rep))[d] == multiset(s)[d]
    decreases |s|
  {
    if |s| >= 1 {
      ReplaceCharRemoves(s[1..], c, rep);
      assert s == [s[0]] + s[1..];
      assert s[..1] == [s[0]];
    }
  }

  /** Replacing each occurrence by itself plus `suffix` leaves `pat + suffix` in the text. */
  lemma {:induction false} ReplaceAppends(s: string, pat: string, suffix: string)
    requires pat != [] && Contains(s, pat)
    ensures Contains(ReplaceAll(s, pat, pat + suffix), pat + suffix)
    decreases |s|
  {
    var p := pat + suffix;
    var r := ReplaceAll(s, pat, p);
    var j := Find(s, pat).value;
    if s[..|pat|] == pat {
      assert r[..|p|] == p;
      assert Occurs(r, p, 0);
    } else {
      OccursShift(s, pat, j - 1);
      assert Occurs(s[1..], pat, j - 1);
      ReplaceAppends(s[1..], pat, suffix);
      var t := ReplaceAll(s[1..], pat, p);
      var k := Find(t, p).value;
      assert r == [s[0]] + t;
      OccursShift(r, p, k);
      assert Occurs(r, p, k + 1);
    }
  }

  /** Filtering keeps an occurrence whose characters all pass. */
  lemma FilterKeepsOccurrence(keep: char -> bool, s: string, pat: string)
    requires Contains(s, pat)
    requires forall i :: 0 <= i < |pat| ==> keep(pat[i])
    ensures Contains(Filter(keep, s), pat)
  {
    var j := Find(s, pat).value;
    var a, b := s[..j], s[j + |pat|..];
    assert s == a + pat + b;
    FilterConcat(keep, a + pat, b);
    FilterConcat(keep, a, pat);
    FilterKeepsAll(keep, pat);
    var fa := Filter(keep, a);
    var f := Filter(keep, s);
    assert f == fa + pat + Filter(keep, b);
    assert f[|fa|..|fa| + |pat|] == pat;
    assert Occurs(f, pat, |fa|);
  }

  /** `s.split(sep)[0]`: the text before the first `sep`, or all of `s`. */
  function Before(s: string, sep: string): (r: string)
    ensures StartsWith(s, r)
    ensures forall j :: 0 <= j < |r| ==> !Occurs(s, sep, j)
    ensures |r| < |s| ==> Occurs(s, sep, |r|)
  {
    match Find(s, sep)
    case None => s
    case Some(i) => s[..i]
  }

  /** The text after the first `sep`; `s.split(sep)[1]` is `Before(After(s, sep), sep)`. */
  function After(s: string, sep: string): (r: string)
    requires Contains(s, sep)
    ensures EndsWith(s, r) && |r| + |sep| <= |s|
    ensures s == Before(s, sep) + sep + r
  {
    var i := Find(s, sep).value;
    assert s == s[..i] + s[i..i + |sep|] + s[i + |sep|..];
    s[i + |sep|..]
  }

  /** When the first occurrence of `sep` is at `m`, splitting happens there. */
  lemma SplitAt(s: string, sep: string, m: nat)
    requires Occurs(s, sep, m)
    requires forall j :: 0 <= j < m ==> !Occurs(s, sep, j)
    ensures Contains(s, sep)
    ensures Before(s, sep) == s[..m] && After(s, sep) == s[m + |sep|..]
  {
  }

  /** Without any occurrence of `sep`, `s.split(sep)[0]` is all of `s`. */
  lemma BeforeAbsent(s: string, sep: string)
    requires forall j :: 0 <= j ==> !Occurs(s, sep, j)
    ensures !Contains(s, sep) && Before(s, sep) == s
  {
  }

  lemma OccursAt(s: string, pat: string, j: nat, q: nat)
    requires Occurs(s, pat, j) && q < |pat|
    ensures s[j + q] == pat[q]
  {
    assert s[j..j + |pat|][q] == s[j + q];
  }

  /**
   * A pattern that lacks the character at `m` cannot occur at any `j` in `lo..m`
   * when its `q`-th character appears in `s[..m]` only before `lo + q`.
   */
  lemma NoOccurrenceUpTo(s: string, pat: string, m: nat, q: nat, lo: nat)
    requires m < |s| && s[m] !in pat
    requires q < |pat| && forall i :: 0 <= i < m && s[i] == pat[q] ==> i < lo + q
    ensures forall j :: lo <= j <= m ==> !Occurs(s, pat, j)
  {
    forall j | lo <= j <= m && Occurs(s, pat, j) ensures false {
      OccursAt(s, pat, j, q);
      OccurrenceStopsAt(s, pat, m, j);
    }
  }

  /**
   * A pattern longer than `b` can occur in `a + b` only starting inside `a`; it
   * cannot when its second character is not in `a` past the first position and
   * `a` does not end with its first character.
   */
  lemma NoOccurrenceAcross(a: string, b: string, pat: string)
    requires 2 <= |pat| && |b| < |pat| && a != []
    requires pat[1] !in a[1..] && a[|a| - 1] != pat[0]
    ensures !Contains(a + b, pat)
  {
  }

  /** A pattern with a character that `s` lacks does not occur in `s`. */
  lemma AbsentCharExcludes(s: string, pat: string, k: nat)
    requires k < |pat| && pat[k] !in s
    ensures forall j :: 0 <= j ==> !Occurs(s, pat, j)
  {
  }

  /** An occurrence starting at or before a character the pattern lacks ends before that character. */
  lemma OccurrenceStopsAt(s: string, pat: string, m: nat, j: nat)
    requires m < |s| && s[m] !in pat
    requires j <= m && Occurs(s, pat, j)
    ensures j + |pat| <= m
  {
  }

  // ---------------------------------------------------------------------------
  // Decimal numerals
  // ---------------------------------------------------------------------------

  predicate IsDigit(c: char) { '0' <= c <= '9' }

  function DigitValue(c: char): nat
    requires IsDigit(c)
  {
    (c as int) - ('0' as int)
  }

  function DigitChar(d: nat): (c: char)
    requires d < 10
    ensures IsDigit(c) && DigitValue(c) == d
  {
    (('0' as int) + d) as char
  }

  /** `str(n)` for a non-negative integer. */
  function NatToString(n: nat): (r: string)
    ensures r != []
    ensures forall i :: 0 <= i < |r| ==> IsDigit(r[i])
  {
    if n < 10 then [DigitChar(n)] else NatToString(n / 10) + [DigitChar(n % 10)]
  }

  /** The value of a string of decimal digits. */
  function DigitsValue(s: string): nat
    requires forall i :: 0 <= i < |s| ==> IsDigit(s[i])
  {
    if s == [] then 0
    else DigitsValue(s[..|s| - 1]) * 10 + DigitValue(s[|s| - 1])
  }

  /** `int(s)` restricted to plain decimal digits; anything else fails. */
  function ParseNat(s: string): (r: Option<nat>)
    ensures r.Some? <==> s != [] && forall i :: 0 <= i < |s| ==> IsDigit(s[i])
  {
    if s != [] && forall i :: 0 <= i < |s| ==> IsDigit(s[i]) then Some(DigitsValue(s)) else None
  }

  /** Parsing the decimal rendering of a number gives the number back. */
  lemma {:induction false} ParseNatToString(n: nat)
    ensures ParseNat(NatToString(n)) == Some(n)
  {
    var s := NatToString(n);
    if n < 10 {
      assert s[..|s| - 1] == [];
      assert DigitsValue(s) == n;
    } else {
      ParseNatToString(n / 10);
      assert s[..|s| - 1] == NatToString(n / 10);
      assert DigitValue(s[|s| - 1]) == n % 10;
      assert DigitsValue(s) == (n / 10) * 10 + n % 10;
    }
  }

  /** Different numbers render differently. */
  lemma NatToStringInjective(m: nat, n: nat)
    requires NatToString(m) == NatToString(n)
    ensures m == n
  {
    ParseNatToString(m);
    ParseNatToString(n);
  }

  // ---------------------------------------------------------------------------
  // Case folding for ILIKE
  // ---------------------------------------------------------------------------

  /** Lower-cases the Latin letters A-Z, the Cyrillic letters А-Я and Ё; every other character is kept. */
  function LowerChar(c: char): (r: char)
    ensures !('A' <= r <= 'Z') && !('\U{0410}' <= r <= '\U{042F}') && r != '\U{0401}'
    ensures r != c <==> 'A' <= c <= 'Z' || '\U{0410}' <= c <= '\U{042F}' || c == '\U{0401}'
  {
    if 'A' <= c <= 'Z' || '\U{0410}' <= c <= '\U{042F}' then ((c as int) + 32) as char
    else if c == '\U{0401}' then '\U{0451}'
    else c
  }

  function Lower(s: string): (r: string)
    ensures |r| == |s|
    ensures forall i :: 0 <= i < |s| ==> r[i] == LowerChar(s[i])
  {
    seq(|s|, i requires 0 <= i < |s| => LowerChar(s[i]))
  }

  /** `s ILIKE '%pat%'`: `pat` occurs in `s` when case is ignored. */
  predicate ContainsCI(s: string, pat: string): (r: bool)
    ensures r <==> exists i :: Occurs(Lower(s), Lower(pat), i)
    ensures r ==> |pat| <= |s|
    ensures pat == [] ==> r
  {
    Contains(Lower(s), Lower(pat))
  }

  /** An exact occurrence is also a case-insensitive one. */
  lemma ContainsIsContainsCI(s: string, pat: string)
    requires Contains(s, pat)
    ensures ContainsCI(s, pat)
  {
    var i := Find(s, pat).value;
    assert Lower(s)[i..i + |pat|] == Lower(pat);
    assert Occurs(Lower(s), Lower(pat), i);
  }

  /** Case-insensitive matching ignores the case of the search term. */
  lemma ContainsCIIgnoresPatternCase(s: string, pat: string)
    ensures ContainsCI(s, pat) <==> ContainsCI(s, Lower(pat))
  {
    assert Lower(Lower(pat)) == Lower(pat);
  }
}

=== FILE: tokens.dfy ===
/**
 * Signed tokens and password hashing. JWT signing with the server's secret key
 * and bcrypt are library code; they enter the model as pairs of functions whose
 * only assumed behaviour is stated by `RoundTrips` and `Sound`.
 * Time is a number of seconds, given by the caller.
 */
module Tokens {
  import opened Wrappers
  import opened Text

  /** The claims a token carries: `sub`, the `type` tag and the expiry `exp`. */
  datatype Claims = Claims(sub: Option<string>, kind: Option<string>, exp: int)

  /** `jwt.encode` and the signature check of `jwt.decode` under one secret key. */
  datatype Codec = Codec(encode: Claims -> string, decode: string -> Option<Claims>)

  /** A token the server signed decodes to the claims it was signed with. */
  ghost predicate RoundTrips(c: Codec) {
    forall x :: c.decode(c.encode(x)) == Some(x)
  }

  /** `pwd_context.hash` and `pwd_context.verify`. */
  datatype Hasher = Hasher(hash: string -> string, verify: (string, string) -> bool)

  /** A hash verifies exactly the password it was made from. */
  ghost predicate Sound(h: Hasher) {
    forall p, q :: h.verify(p, h.hash(q)) <==> p == q
  }

  /** `ACCESS_TOKEN_EXPIRE_MINUTES`: eight days. */
  const AccessTokenMinutes: nat := 60 * 24 * 8
  /** `VERIFICATION_TOKEN_EXPIRE_MINUTES`: one day. */
  const VerificationTokenMinutes: nat := 60 * 24
  /** The lifetime of a password-set token: 24 hours. */
  const SetTokenSeconds: nat := 24 * 60 * 60
  /** The `type` tag of a password-set token. */
  const PasswordSetKind: string := "password_set"

  /**
   * `jwt.decode` with the expiry check: a token whose signature does not check
   * or whose `exp` lies in the past is rejected.
   */
  function Decode(c: Codec, token: string, now: int): (r: Option<Claims>)
    ensures r.Some? ==> c.decode(token) == r && now <= r.value.exp
    ensures r.None? ==> c.decode(token).None? || c.decode(token).value.exp < now
  {
    match c.decode(token)
    case None => None
    case Some(claims) => if now <= claims.exp then Some(claims) else None
  }

  /** `create_access_token(id, timedelta(minutes=minutes))` at time `now`: the subject is `str(id)`. */
  function AccessToken(c: Codec, id: nat, now: int, minutes: nat): (r: string)
    ensures RoundTrips(c) ==> c.decode(r) == Some(Claims(Some(NatToString(id)), None, now + minutes * 60))
  {
    c.encode(Claims(Some(NatToString(id)), None, now + minutes * 60))
  }

  /** The password-set token for `email` issued at `now`: subject the email, typed, valid for 24 hours. */
  function SetToken(c: Codec, email: string, now: int): (r: string)
    ensures RoundTrips(c) ==> c.decode(r) == Some(Claims(Some(email), Some(PasswordSetKind), now + SetTokenSeconds))
  {
    c.encode(Claims(Some(email), Some(PasswordSetKind), now + SetTokenSeconds))
  }

  /** An issued token decodes to its claims until its expiry and is rejected after it. */
  lemma DecodeIssued(c: Codec, claims: Claims, now: int)
    requires RoundTrips(c)
    ensures now <= claims.exp ==> Decode(c, c.encode(claims), now) == Some(claims)
    ensures now > claims.exp ==> Decode(c, c.encode(claims), now).None?
  {
    assert c.decode(c.encode(claims)) == Some(claims);
  }

  /** An access token names the user id as its subject until `minutes` have passed. */
  lemma AccessTokenClaims(c: Codec, id: nat, issued: int, minutes: nat, now: int)
    requires RoundTrips(c)
    requires issued <= now <= issued + minutes * 60
    ensures Decode(c, AccessToken(c, id, issued, minutes), now)
              == Some(Claims(Some(NatToString(id)), None, issued + minutes * 60))
  {
    DecodeIssued(c, Claims(Some(NatToString(id)), None, issued + minutes * 60), now);
  }
}

=== FILE: users.dfy ===
/**
 * The user table and the operations of `CRUDUser`. Rows are kept in query
 * order; ids come from a counter, as from the table's serial key.
 */
module Users {
  import opened Wrappers
  import opened Rows
  import opened Tokens

  /** A row of `users`; the creation and update timestamps are not kept. */
  datatype User = User(
    id: nat,
    email: string,
    hashedPassword: Option<string>,
    fullName: Option<string>,
    isActive: bool,
    isSuperuser: bool,
    setToken: Option<string>,
    setTokenExpires: Option<int>)

  datatype Store = Store(rows: seq<User>, nextId: nat)

  /** Ids are unique and below the counter; emails are unique (the column's `unique` constraint). */
  ghost predicate Valid(s: Store) {
    && (forall i :: 0 <= i < |s.rows| ==> s.rows[i].id < s.nextId)
    && (forall i, j :: 0 <= i < j < |s.rows| ==> s.rows[i].id != s.rows[j].id)
    && (forall i, j :: 0 <= i < j < |s.rows| ==> s.rows[i].email != s.rows[j].email)
  }

  /** `UserCreate`: the fields `create` reads. */
  datatype NewUser = NewUser(email: string, password: Option<string>, fullName: Option<string>, isSuperuser: bool)

  /** `UserUpdate` with `exclude_unset`: `None` is a field the request did not set. */
  datatype Patch = Patch(
    email: Option<string>,
    password: Option<string>,
    fullName: Option<Option<string>>,
    isActive: Option<bool>,
    isSuperuser: Option<bool>)

  /** Python truthiness of an optional string: present and non-empty. */
  predicate Truthy(p: Option<string>) {
    p.Some? && p.value != ""
  }

  function EmailIs(email: string): User -> bool {
    (u: User) => u.email == email
  }

  function UserId(u: User): int { u.id }

  function IdIs(id: int): User -> bool {
    HasId(UserId, id)
  }

  /** `get_by_email`: the first row whose email equals `email` exactly. */
  function GetByEmail(s: Store, email: string): (r: Option<User>)
    ensures r.None? <==> forall i :: 0 <= i < |s.rows| ==> s.rows[i].email != email
    ensures r.Some? ==> exists k :: 0 <= k < |s.rows| && s.rows[k] == r.value
                          && forall i :: 0 <= i < k ==> s.rows[i].email != email
    ensures r.Some? ==> r.value.email == email
  {
    match IndexWhere(s.rows, EmailIs(email))
    case None => None
    case Some(k) => Some(s.rows[k])
  }

  /** `get`: the row whose id is `id`. */
  function Get(s: Store, id: int): Option<User> {
    GetById(s.rows, UserId, id)
  }

  /** In a valid store a row is found by its own email and by its own id. */
  lemma FindsOwnRow(s: Store, k: nat)
    requires Valid(s) && k < |s.rows|
    ensures GetByEmail(s, s.rows[k].email) == Some(s.rows[k])
    ensures Get(s, s.rows[k].id) == Some(s.rows[k])
  {
    var e := IndexWhere(s.rows, EmailIs(s.rows[k].email));
    assert EmailIs(s.rows[k].email)(s.rows[k]);
    assert e.value == k;
    var d := IndexWhere(s.rows, IdIs(s.rows[k].id));
    assert UserId(s.rows[k]) == s.rows[k].id;
    assert IdIs(s.rows[k].id)(s.rows[k]);
    assert UserId(s.rows[d.value]) == s.rows[d.value].id;
    assert d.value == k;
  }

  /** `create`: the password is hashed when one is given, and the user is active exactly then. */
  function Create(s: Store, obj: NewUser, h: Hasher): (r: (Store, User))
    ensures r.1.id == s.nextId && r.0.nextId == s.nextId + 1
    ensures r.0.rows == s.rows + [r.1]
    ensures r.1.email == obj.email && r.1.fullName == obj.fullName && r.1.isSuperuser == obj.isSuperuser
    ensures r.1.isActive <==> Truthy(obj.password)
    ensures r.1.hashedPassword.Some? <==> Truthy(obj.password)
    ensures r.1.hashedPassword.Some? ==> r.1.hashedPassword.value == h.hash(obj.password.value)
    ensures r.1.setToken.None? && r.1.setTokenExpires.None?
  {
    var hashed := if Truthy(obj.password) then Some(h.hash(obj.password.value)) else None;
    var u := User(s.nextId, obj.email, hashed, obj.fullName, Truthy(obj.password), obj.isSuperuser, None, None);
    (Store(s.rows + [u], s.nextId + 1), u)
  }

  /** Creating a user whose email is new keeps the store valid. */
  lemma CreatePreservesValid(s: Store, obj: NewUser, h: Hasher)
    requires Valid(s)
    requires GetByEmail(s, obj.email).None?
    ensures Valid(Create(s, obj, h).0)
  {
  }

  /** `update`: the patched fields with a truthy password turned into its hash, which also activates. */
  function Apply(u: User, patch: Patch, h: Hasher): (r: User)
    ensures r.id == u.id && r.setToken == u.setToken && r.setTokenExpires == u.setTokenExpires
    ensures r.email == patch.email.GetOr(u.email)
    ensures r.fullName == patch.fullName.GetOr(u.fullName)
    ensures r.isSuperuser == patch.isSuperuser.GetOr(u.isSuperuser)
    ensures Truthy(patch.password) ==> r.isActive && r.hashedPassword == Some(h.hash(patch.password.value))
    ensures !Truthy(patch.password) ==>
              r.isActive == patch.isActive.GetOr(u.isActive) && r.hashedPassword == u.hashedPassword
  {
    var v := u.(email := patch.email.GetOr(u.email),
                fullName := patch.fullName.GetOr(u.fullName),
                isSuperuser := patch.isSuperuser.GetOr(u.isSuperuser));
    if Truthy(patch.password) then
      v.(hashedPassword := Some(h.hash(patch.password.value)), isActive := true)
    else
      v.(isActive := patch.isActive.GetOr(u.isActive))
  }

  /** A patch that sets nothing changes nothing. */
  lemma EmptyPatchIsIdentity(u: User, h: Hasher)
    ensures Apply(u, Patch(None, None, None, None, None), h) == u
  {
  }

  /** The row with the id of `u` overwritten by `u` (`db.add` of a loaded row, then `commit`). */
  function Put(s: Store, u: User): (r: Store)
    requires Get(s, u.id).Some?
    ensures r.nextId == s.nextId && |r.rows| == |s.rows|
    ensures Get(r, u.id) == Some(u)
    ensures forall i :: 0 <= i < |s.rows| ==> r.rows[i] == (if s.rows[i].id == u.id then u else s.rows[i])
  {
    var r := Store(seq(|s.rows|, i requires 0 <= i < |s.rows| => if s.rows[i].id == u.id then u else s.rows[i]), s.nextId);
    var k := IndexWhere(s.rows, IdIs(u.id)).value;
    assert UserId(r.rows[k]) == u.id;
    assert IdIs(u.id)(r.rows[k]);
    var j := IndexWhere(r.rows, IdIs(u.id)).value;
    assert r.rows[j].id == u.id;
    r
  }

  /** `update` of the stored row `u`. */
  function Update(s: Store, u: User, patch: Patch, h: Hasher): (r: (Store, User))
    requires Get(s, u.id).Some?
    ensures r.1.id == u.id && Get(r.0, u.id) == Some(r.1)
    ensures Truthy(patch.password) ==> r.1.isActive
    ensures r.1 == Apply(u, patch, h) && r.0 == Put(s, r.1)
  {
    var v := Apply(u, patch, h);
    (Put(s, v), v)
  }

  /** Overwriting a row keeps the store valid when its email stays its own. */
  lemma PutPreservesValid(s: Store, u: User)
    requires Valid(s) && Get(s, u.id).Some?
    requires forall i :: 0 <= i < |s.rows| && s.rows[i].email == u.email ==> s.rows[i].id == u.id
    ensures Valid(Put(s, u))
  {
    var r := Put(s, u);
    forall i, j | 0 <= i < j < |r.rows| ensures r.rows[i].id != r.rows[j].id && r.rows[i].email != r.rows[j].email {
      if s.rows[i].id == u.id {
        assert s.rows[j].id != u.id;
      } else if s.rows[j].id == u.id {
        assert s.rows[i].id != u.id;
      }
    }
  }

  /** Checking a password against a stored hash; a user without a hash never matches. */
  predicate VerifyStored(h: Hasher, password: string, hashed: Option<string>): (r: bool)
    ensures hashed.None? ==> !r
    ensures Sound(h) && hashed.Some? ==> forall q :: hashed.value == h.hash(q) ==> (r <==> password == q)
  {
    hashed.Some? && h.verify(password, hashed.value)
  }

  /** `authenticate`: the user with this email, if the password verifies against its hash. */
  function Authenticate(s: Store, email: string, password: string, h: Hasher): (r: Option<User>)
    ensures r.Some? <==> GetByEmail(s, email).Some? && VerifyStored(h, password, GetByEmail(s, email).value.hashedPassword)
    ensures r.Some? ==> r == GetByEmail(s, email)
  {
    match GetByEmail(s, email)
    case None => None
    case Some(u) => if VerifyStored(h, password, u.hashedPassword) then Some(u) else None
  }

  /** Overwriting the row at `k` with a row of the same id and email: the store stays valid and finds the new row. */
  lemma PutOwnRow(s: Store, k: nat, v: User)
    requires Valid(s) && k < |s.rows|
    requires v.id == s.rows[k].id && v.email == s.rows[k].email
    ensures Get(s, v.id).Some?
    ensures Valid(Put(s, v)) && Put(s, v).rows[k] == v
    ensures GetByEmail(Put(s, v), v.email) == Some(v)
  {
    FindsOwnRow(s, k);
    PutPreservesValid(s, v);
    FindsOwnRow(Put(s, v), k);
  }

  /** Signing in after such an overwrite checks the password against the new row's hash. */
  lemma AuthenticateAfterPut(s: Store, k: nat, v: User, h: Hasher, password: string)
    requires Valid(s) && k < |s.rows|
    requires v.id == s.rows[k].id && v.email == s.rows[k].email
    ensures Get(s, v.id).Some?
    ensures Authenticate(Put(s, v), v.email, password, h) == if VerifyStored(h, password, v.hashedPassword) then Some(v) else None
  {
    PutOwnRow(s, k, v);
  }

  /** A user created with a password signs in with that password and with no other. */
  lemma CreatedAuthenticates(s: Store, obj: NewUser, h: Hasher, password: string)
    requires Valid(s) && Sound(h)
    requires GetByEmail(s, obj.email).None?
    ensures var (s', u) := Create(s, obj, h);
            Authenticate(s', obj.email, password, h).Some? <==> Truthy(obj.password) && password == obj.password.value
  {
    var (s', u) := Create(s, obj, h);
    CreatePreservesValid(s, obj, h);
    FindsOwnRow(s', |s.rows|);
  }

  /** After an update that sets a password, the user signs in with exactly that password. */
  lemma UpdatedAuthenticates(s: Store, u: User, patch: Patch, h: Hasher, password: string)
    requires Valid(s) && Sound(h) && u in s.rows
    requires Truthy(patch.password) && patch.email.None?
    ensures var (s', v) := Update(s, u, patch, h);
            Authenticate(s', u.email, password, h).Some? <==> password == patch.password.value
  {
    var k :| 0 <= k < |s.rows| && s.rows[k] == u;
    FindsOwnRow(s, k);
    AuthenticateAfterPut(s, k, Apply(u, patch, h), h, password);
  }

  /** `create_password_set_token`: the token is stored with a 24-hour expiry and the user is deactivated. */
  function IssueSetToken(s: Store, u: User, c: Codec, now: int): (r: (Store, string))
    requires Get(s, u.id).Some?
    ensures r.1 == SetToken(c, u.email, now)
    ensures Get(r.0, u.id) == Some(u.(setToken := Some(r.1), setTokenExpires := Some(now + SetTokenSeconds), isActive := false))
  {
    var token := SetToken(c, u.email, now);
    var v := u.(setToken := Some(token), setTokenExpires := Some(now + SetTokenSeconds), isActive := false);
    (Put(s, v), token)
  }

  /** The issued token carries the user's email and the password-set tag, and expires after 24 hours. */
  lemma SetTokenClaims(c: Codec, email: string, issued: int, now: int)
    requires RoundTrips(c)
    ensures var d := Decode(c, SetToken(c, email, issued), now);
            (d.Some? <==> now <= issued + SetTokenSeconds)
            && (d.Some? ==> d.value.sub == Some(email) && d.value.kind == Some(PasswordSetKind))
  {
    DecodeIssued(c, Claims(Some(email), Some(PasswordSetKind), issued + SetTokenSeconds), now);
  }
}

=== FILE: wrappers.dfy ===
/** Failure-compatible result types shared by every module of the model. */
module Wrappers {

  /** A value that may be absent (Python's `None`). */
  datatype Option<+T> = None | Some(value: T) {
    predicate IsFailure() { None? }

    function PropagateFailure<U>(): Option<U>
      requires None?
    {
      None
    }

    function Extract(): T
      requires Some?
    {
      value
    }

    function GetOr(default: T): T {
      match this
      case Some(v) => v
      case None => default
    }
  }

  /** Either a computed value or the error the source raises instead. */
  datatype Result<+T, +E> = Ok(value: T) | Err(error: E) {
    predicate IsFailure() { Err? }

    function PropagateFailure<U>(): Result<U, E>
      requires Err?
    {
      Err(error)
    }

    function Extract(): T
      requires Ok?
    {
      value
    }
  }

  /** An `HTTPException` raised by a route handler: a status code and its detail text. */
  datatype HttpError = HttpError(status: nat, detail: string)
}
